=== FILE: README.md ===
# Wan 2.2 image-to-video worker: a Dafny model

This project models three parts of the system:

- **The RunPod serverless worker (`handler.py`).** It takes a job holding an input image and generation settings. It places the image in ComfyUI's input directory as `<task>.png`. It then picks a ComfyUI workflow template by the number of LoRA pairs, writes the job's values and the LoRA names and weights into fixed node ids, and returns the first video ComfyUI produced, Base64-encoded.
- **The client (`generate_video_client.py`).** It encodes images and shapes a job's input. It polls the job's status until the job ends, decodes the returned video to disk, and tallies a batch over a folder of images.
- **The LoRA chain check (`test_lora_chain.py`).** It follows `model` links back from a sampling node through LoRA loader nodes.

Everything the code asks of the outside world is a parameter of the model:

- the filesystem;
- PIL;
- `os.path.abspath`;
- the ComfyUI server;
- the RunPod endpoint;
- the clock;
- the templates on disk.

## Modules

| Module | File | What it holds |
|---|---|---|
| `Wrappers` | `wrappers.dfy` | `Option` and `Result`. |
| `Json` | `json.dfy` | JSON values as `json.loads` produces them. Also Python truthiness, `dict.get`, and `str(int)`. |
| `PyText` | `pytext.dfy` | `str.strip`/`lstrip`/`rstrip`, `startswith`/`endswith`, `find`/`rfind`, and ASCII `lower`. |
| `PosixPath` | `posixpath.dfy` | `os.path.join`, `isabs`, `expanduser`, `dirname`, and the stem half of `splitext`. |
| `Base64` | `base64.dfy` | The encoding of section 4 of RFC 4648. Its decoder is the strict one of `b64decode(..., validate=True)` as of Python 3.11, which the model assumes. |
| `Base64Lenient` | `base64_lenient.dfy` | `b64decode` without `validate`: the skipping scanner of `binascii.a2b_base64`. |
| `ImageInput` | `image_input.dfy` | `prepare_image_asset` and its helpers in `handler.py`. |
| `Workflow` | `workflow.dfy` | `handler`: template selection, the field patch, the LoRA patch, video collection and the reply. |
| `JobClient` | `jobclient.dfy` | `generate_video_client.py`. |
| `ChainWalk` | `chainwalk.dfy` | `test_lora_chain.py`. |
| `Interop` | `interop.dfy` | What the handler does with the input the client sends. |

### Where the code and its description disagree (the model follows the code)

- **Image keys.** The handler reads only `image_base64` and `image_path`; there is no longer list of image aliases with a precedence order. The client, though, sends the chosen image under `image`. `Interop.ClientImageIgnored` proves that every client request ends up with the handler's default image.
- **Required keys.** The handler indexes `seed` and `cfg` directly, and the client never sends them. `Interop.ClientJobRaises` proves that such a job raises, and `Interop.ClientJobRaisesSeedKeyError` that the exception is KeyError('seed') once the template holds the nodes written before `seed`.
- **Dimensions.** Width and height are copied into the template as given. No rounding to a multiple of 16 happens anywhere in the code.

## Model

| member | source | states |
|---|---|---|
| Json.Get | handler.py:152-153 | `d.get(key)` is the stored value when the key is present and None otherwise |
| Json.GetOr | handler.py:257 | `d.get(key, default)` is the stored value when present and the default otherwise |
| Json.IntToString | test_lora_chain.py:71 | `str(i)`: a minus sign exactly for a negative number, then decimal digits |
| Json.NatToStringReadsBack | test_lora_chain.py:71 | the digits of a natural number read back as that number, with no leading zero |
| Json.IntToStringReadsBack | test_lora_chain.py:71 | the digits after the sign read back as the magnitude of the integer |
| PyText.Strip | handler.py:64-66 | the stripped text is a slice of the input with only whitespace cut from each side; it is empty exactly when the input is all whitespace, and otherwise neither starts nor ends with whitespace |
| PyText.TrimStart | handler.py:64-66 | the result is a suffix of the input, what was dropped is whitespace, and the result does not start with whitespace |
| PyText.TrimEnd | handler.py:64-66 | the result is a prefix of the input, what was dropped is whitespace, and the result does not end with whitespace |
| PosixPath.Join | handler.py:91-97 | joining an absolute component gives that component, discarding the base |
| PosixPath.JoinAppends | handler.py:91-97 | a relative component is appended to the base: directly when the base is empty or already ends in a separator, and behind exactly one separator otherwise |
| PosixPath.ExpandUser | handler.py:79 | a path that does not start with `~` is left unchanged |
| PosixPath.Dirname | generate_video_client.py:119 | a path without a separator has the empty directory, and the directory is never longer than the path |
| PosixPath.StemOf | generate_video_client.py:454 | the stem is a prefix of the name; it is cut exactly when the last component has an extension dot, and the cut is at that dot: the last dot of the last component, with no separator after it and a character other than a dot before it in that component (so leading dots never start an extension) |
| Base64.Encode | handler.py:226 | the encoding has 4 characters per started 3-byte group, is in canonical padded form, and carries one `=` per byte missing from the last group |
| Base64.Decode | handler.py:144 | strict decoding accepts exactly the canonical strings: whole quanta, alphabet characters only, padding only at the end; it yields 3 bytes per quantum less the padding |
| Base64.DecodeEncode | handler.py:144 | decoding an encoding gives back the original bytes |
| Base64.TripleRoundTrip | handler.py:226 | a full 3-byte group encodes to 4 alphabet characters that decode back to those bytes |
| Base64.PairRoundTrip | handler.py:226 | a final group of two bytes round-trips through its padded quantum |
| Base64.SingleRoundTrip | handler.py:226 | a final group of one byte round-trips through its padded quantum |
| Base64.CanonicalSplit | handler.py:144 | a multi-quantum string is canonical exactly when its first quantum is all alphabet and the rest is canonical |
| Base64.DecodeRejectsForeignChar | handler.py:144-146 | any character outside the alphabet and `=` makes strict decoding fail |
| Base64.DecodeRejectsInnerPad | handler.py:144-146 | a `=` followed later by an alphabet character makes strict decoding fail |
| Base64.ValueOfCharOf | handler.py:226 | the alphabet table maps each 6-bit value to a character and back to the same value |
| Base64.CharOfValueOf | handler.py:144 | every alphabet character maps to a value and back to the same character |
| Base64Lenient.LenientDecode | generate_video_client.py:116 | text with a non-ASCII character is refused |
| Base64Lenient.StrictImpliesLenient | generate_video_client.py:250 | whatever the strict decoder accepts, the lenient decoder decodes to the same bytes |
| Base64Lenient.LenientDecodeEncode | generate_video_client.py:116 | the lenient decoder inverts the encoder |
| Base64Lenient.LenientIgnoresForeignAscii | generate_video_client.py:116 | an ASCII character outside the alphabet and `=` is skipped wherever it appears |
| ImageInput.AfterFirstComma | handler.py:68 | the payload is everything after the first comma, and empty when there is no comma |
| ImageInput.StripBase64Header | handler.py:63-72 | a non-string or blank input is refused as empty; otherwise the payload is the stripped text, or for a `data:` URI the part after its first comma, refused when that part is empty; the payload is never empty |
| ImageInput.RawCandidates | handler.py:81-97 | the first path tried is the normalised input itself |
| ImageInput.AbsAll | handler.py:83-85 | every raw path is made absolute, in order |
| ImageInput.AddCandidates | handler.py:83-86 | the candidate list grows without duplicates, keeps what it had in front, and holds exactly the old entries plus the absolute forms of the new paths |
| ImageInput.Candidates | handler.py:79-97 | the candidate list starts with the absolute input, has no duplicates, and holds exactly the absolute forms of the raw paths |
| ImageInput.FirstExisting | handler.py:99-101 | the result is an existing entry with no existing entry before it, and None exactly when no entry exists |
| ImageInput.FindCandidate | handler.py:99-103 | the result is an existing candidate; failing that, every candidate is missing and the error names the normalised input |
| ImageInput.ResolveImagePath | handler.py:75-103 | a non-string or blank path fails with the empty-path error, and every failure is a FileNotFoundError |
| ImageInput.ResolveFindsExistingCandidate | handler.py:79-103 | for a non-blank path the resolved file exists and is a candidate; otherwise the error carries the `~`-expanded, stripped input after every candidate was missing |
| ImageInput.DedupKeepsFirstExisting | handler.py:83-101 | skipping duplicate candidates never changes which path is found first |
| ImageInput.SkipKnownCandidate | handler.py:86 | trying an already listed path again cannot change the first hit |
| ImageInput.NonExistingIsSkipped | handler.py:99-101 | a path that does not exist never changes the first hit |
| ImageInput.ResolveIsFirstExistingRawCandidate | handler.py:79-103 | the resolved path is the first existing absolute form of the input, then the input under the working directory, then under the volume mount |
| ImageInput.CandidatesFindFirstRaw | handler.py:81-101 | the de-duplicated list finds what the raw list finds |
| ImageInput.RelativeInputHasAtMostThreeCandidates | handler.py:87-97 | a relative input yields at most three distinct candidates |
| ImageInput.NormaliseImageMode | handler.py:105-116 | RGB, RGBA and L are kept; LA becomes RGBA; every other mode becomes exactly RGB when that conversion succeeds; when it fails, a listed mode is an error and an unlisted mode stays as it was; a failure arises exactly from a failed conversion of LA or of a listed mode |
| ImageInput.NormaliseImageModeIdempotent | handler.py:105-116 | normalising a normalised mode changes nothing |
| ImageInput.WriteImageToComfy | handler.py:119-132 | the image is written as `<task>.png` exactly when PIL opens it and its mode normalises; bytes PIL cannot open give the invalid-image error |
| ImageInput.SaveBase64Image | handler.py:141-148 | it succeeds, naming `<task>.png`, exactly when the cleaned payload strictly decodes to bytes PIL opens and whose mode normalises; a cleaning failure is returned as is; a payload that does not decode gives the decode-failure ValueError; every failure is a ValueError |
| ImageInput.CopyIntoComfyInput | handler.py:135-138 | it succeeds, naming `<task>.png`, exactly when the file reads and its bytes open as an image whose mode normalises; an unreadable file fails naming its path; bytes PIL cannot open give the invalid-image error |
| ImageInput.PrepareImageAsset | handler.py:151-160 | success always names `<task>.png`; a truthy `image_base64` is decoded and saved; otherwise `image_path`, or the default path when it is falsy, is resolved; a resolution failure is the result, and a resolved path is copied |
| ImageInput.PrepareReadsOnlyImageKeys | handler.py:151-160 | the prepared image depends only on the job's `image_base64` and `image_path` |
| ImageInput.Base64WinsOverPath | handler.py:155-156 | with a truthy `image_base64`, `image_path` has no influence |
| ImageInput.FalsyPathMeansDefault | handler.py:158 | a falsy `image_path` behaves exactly like naming the default image path |
| Workflow.SetInput | handler.py:283-289 | assigning a node input fails with KeyError exactly when the node is missing, and otherwise changes only that one slot, to the value |
| Workflow.LoraPairsOf | handler.py:257-277 | a list yields its items and a string its characters; a dictionary fails only when slicing is reached (more than three keys); any other value fails at `len()` |
| Workflow.SelectWorkflow | handler.py:257-277 | the template is the one for the pair count, capped at three; the applied pairs are the first min(n, 3); selection fails exactly when the pairs value cannot be counted or sliced |
| Workflow.MissingPairsSelectNoLora | handler.py:257-263 | a job without `lora_pairs` uses the no-LoRA template with no pairs |
| Workflow.ExtraPairsIgnored | handler.py:273-277 | pairs after the third never affect the selection |
| Workflow.ApplyWrites | handler.py:283-289 | a run of assignments succeeds exactly when each one can run; otherwise it raises the KeyError of the first one that cannot; it never adds or drops nodes |
| Workflow.ApplyWritesEffect | handler.py:283-289 | a successful run changes exactly the assigned slots, each to its assigned value |
| Workflow.FixedWrites | handler.py:283-289 | the seven fixed assignments target distinct slots |
| Workflow.FixedWritesSlots | handler.py:283-289 | the seven fixed assignments cover exactly the seven fixed slots |
| Workflow.StepWrites | handler.py:293-298 | the step assignments target nodes 834 and 829 |
| Workflow.FixedWritesRun | handler.py:281-289 | the fixed assignments can all run exactly when the template has the seven nodes and the job has `prompt`, `seed`, `cfg`, `width` and `height` |
| Workflow.PatchFixed | handler.py:281-289 | the fixed patch succeeds exactly when the seven nodes and five keys are present, changes only the fixed slots, and raises KeyError('260') for a template without node 260 |
| Workflow.PatchFixedValues | handler.py:281-289 | after the fixed patch each slot holds its value: the image file, `length` (default 81), `prompt`, `seed`, `cfg`, `width` and `height` |
| Workflow.PatchSteps | handler.py:293-298 | without node 834 nothing happens; with it, node 834 gets `steps` (default 10) and node 829 gets the low-noise share; it succeeds exactly when node 829 exists and the share can be computed |
| Workflow.PatchFields | handler.py:279-298 | the field patch keeps every node, changes only the fixed slots (plus the step slots when node 834 exists), and succeeds exactly when the required nodes and keys are present |
| Workflow.PatchFieldsValues | handler.py:281-298 | after the field patch the job's values sit in their slots, including `steps` and its share when node 834 exists |
| Workflow.PatchFieldsMissingImageNode | handler.py:283 | a template without node 260 raises KeyError('260') whatever the job holds |
| Workflow.PatchFixedMissingSeed | handler.py:283-286 | with nodes 260, 846 and 246 present and `prompt` given, a job without `seed` fails with KeyError('seed') |
| Workflow.LoraNodeMappingShape | handler.py:303-316 | each row of the loader table has one id per pair in each tier, no id repeats, and smaller rows are prefixes of the three-pair row |
| Workflow.WithLora | handler.py:331-339 | only `lora_name` and `strength_model` of the loader change, to the pair's name and weight |
| Workflow.TierIdsDistinct | handler.py:303-316 | no high-tier loader is a low-tier loader, and different positions have different loaders |
| Workflow.ApplyLoraPair | handler.py:321-339 | a pair that is not a dictionary raises; otherwise only its two loaders may change, each written exactly when it exists and its name is truthy |
| Workflow.ApplyLoraPairs | handler.py:320-339 | the loop succeeds exactly when every pair is a dictionary, and then leaves non-loaders untouched and writes each pair's loaders |
| Workflow.PatchLoras | handler.py:300-341 | with no pairs the graph is unchanged; otherwise the loop over the table row for the pair count applies |
| Workflow.PatchLorasTouchesOnlyLoaders | handler.py:303-341 | no node outside the six loader ids is ever changed by the LoRA patch |
| Workflow.MediaOf | handler.py:217-230 | the node's videos are the encoded `gifs` entries followed by the encoded `videos` entries; collection raises the not-iterable error exactly when a truthy `gifs` or `videos` value cannot be iterated |
| Workflow.EncodedEntries | handler.py:219-230 | a falsy value gives no videos; a truthy list gives the encodings of its readable entries; any other iterable (a string or dictionary, whose items are never dictionaries) gives none; the only failure is the not-iterable error |
| Workflow.EncodeReadable | handler.py:222-229 | at most one video per entry, each decoding strictly to the bytes read from some readable dictionary entry |
| Workflow.EncodeReadableKeepsReadable | handler.py:219-229 | the encoded videos are exactly the readable entries, each encoded, in list order: picked at strictly increasing positions with no readable entry missed |
| Workflow.PickVideo | handler.py:380-385 | the reply is the first video of the first node that produced one, in history order, and the no-video error exactly when no node produced one |
| Workflow.CollectVideos | handler.py:215-232 | collection succeeds exactly when every history node's media can be collected; then there is one result per node, in order, with the node's id and exactly its media, all valid Base64; otherwise the not-iterable error |
| Workflow.PickedVideoDecodes | handler.py:380-383 | any video the handler returns decodes strictly |
| Workflow.ImageErrorBody | handler.py:244-254 | FileNotFoundError and other exceptions are reported as exactly their Korean prefix followed by the exception text, and ValueError as its own text |
| Workflow.BuildPrompt | handler.py:257-341 | a built prompt means the selection succeeded, its template exists and every required key was given; the prompt has exactly the template's nodes, including the seven fixed ones |
| Workflow.BuildPromptPatches | handler.py:257-341 | the built prompt is the selected template with the image file, `length`, `prompt`, `seed`, `cfg`, `width` and `height` in their slots, `steps` and its low-noise share when node 834 exists, each selected pair's name and weight in its loaders, unselected loaders untouched, every class kept and no other input changed |
| Workflow.RunPrompt | handler.py:343-385 | a server that cannot be reached raises; otherwise it returns exactly when the outputs can be collected, and then replies with the first video of the first node that has one, or the no-video message when none has; a collection failure raises the not-iterable error |
| Workflow.Handle | handler.py:238-385 | an image failure is answered with its error body; a returned video is valid Base64; any other error body after a good image is the no-video message |
| Workflow.HandleReturnsFirstVideo | handler.py:238-385 | after a good image, a prompt that cannot be built raises its error, an unreachable server raises, and otherwise the reply is the first video of the first node that produced one, or the no-video message |
| Workflow.ImageFailureSkipsServer | handler.py:244-254 | after an image failure neither templates nor server matter |
| Workflow.MissingRequiredKeyRaises | handler.py:283-289 | a job missing `prompt`, `seed`, `cfg`, `width` or `height` raises once its image is prepared |
| JobClient.EncodeFile | generate_video_client.py:46-70 | a file is encoded exactly when it exists and can be read, and the encoding decodes back to its contents |
| JobClient.EncodeImage | generate_video_client.py:72-101 | bytes are encoded so that they decode back; a path or text is treated as a file; None gives nothing |
| JobClient.DecodeToFile | generate_video_client.py:103-129 | the file is written exactly when the text decodes, the directory can be made and the write succeeds; what is written is the decoded bytes |
| JobClient.FileRoundTrip | generate_video_client.py:46-129 | a file encoded by the client and decoded again is written back byte for byte |
| JobClient.PickImage | generate_video_client.py:302-346 | `image` wins as given (bytes encoded, empty bytes refused), then an existing `image_path`, then the URL, then the Base64 text, each passed on as it is; a missing path or no image at all is refused with its message; an end image may be absent |
| JobClient.ImageArgWins | generate_video_client.py:304-314 | once `image` is given, the other image arguments never matter |
| JobClient.UrlBeforeBase64 | generate_video_client.py:319-322 | without a path the URL is sent whatever the Base64 argument holds |
| JobClient.JobInput | generate_video_client.py:348-368 | the input carries the image, the prompt, the width, height and length as given, and the pairs (an empty list for None); it carries `end_image` and `negative_prompt` exactly when they are truthy, with their values; it has no other keys |
| JobClient.Submission | generate_video_client.py:302-368 | a request yields an input exactly when both image choices succeed, and the input's `image` is the chosen start image |
| JobClient.SubmissionCarriesRequest | generate_video_client.py:348-368 | a submitted input carries the request's prompt, width, height and length unchanged, an end image exactly when the chosen one is truthy, and a negative prompt exactly when it is truthy |
| JobClient.Classify | generate_video_client.py:185-215 | a request error or a pending status keeps polling; COMPLETED carries the output, FAILED the error (default "Unknown error"), any other status the whole reply |
| JobClient.Wait | generate_video_client.py:164-221 | the wait ends at the first poll that is past the deadline or decisive, with that poll's decision; it is still open exactly when every observed poll is pending |
| JobClient.DeadlineEndsWait | generate_video_client.py:177-221 | a poll past the deadline ends the wait with a job result |
| JobClient.RequestErrorKeepsPolling | generate_video_client.py:213-215 | a request error before the deadline changes nothing |
| JobClient.WaitForCompletion | generate_video_client.py:164-221 | the polling loop returns the decision of the first decisive poll, or nothing when all observed polls are pending |
| JobClient.CreateVideo | generate_video_client.py:263-376 | a refused request returns its error; a failed or empty submission returns the submission error; otherwise the wait's result is returned |
| JobClient.RefusalSubmitsNothing | generate_video_client.py:302-324 | a request refused before submission never reaches the endpoint |
| JobClient.NoImageRefused | generate_video_client.py:323-324 | no start image at all gives "No image input provided" |
| JobClient.MissingPathRefused | generate_video_client.py:315-317 | a start image path that does not exist is refused, naming the path |
| JobClient.SaveVideoResult | generate_video_client.py:223-261 | a video is saved exactly when the job completed with a dictionary output holding a truthy `video` string that decodes, the directory can be made and the write succeeds; what is saved is the decoded bytes |
| JobClient.HandlerVideoSaved | generate_video_client.py:235-253 | a completed job carrying a handler video saves exactly the bytes the handler encoded; an empty video is not saved |
| JobClient.OnlyCompletedSaved | generate_video_client.py:235-237 | a job that did not complete is never saved |
| JobClient.ImageFiles | generate_video_client.py:417-420 | every listed image file is a name of the listing whose lower-cased form ends in a valid extension, and every such name is listed |
| JobClient.ImageFilesInOrder | generate_video_client.py:417-420 | the image files are picked from the listing at strictly increasing positions, so they keep the listing order |
| JobClient.ImageFilesCount | generate_video_client.py:417-420 | each image name occurs as often as in the listing and every other name not at all; with ImageFilesInOrder this makes the result exactly the in-order filter |
| JobClient.EntryFor | generate_video_client.py:435-483 | each entry names its file, and a success names `result_<stem>.mp4` in the output folder |
| JobClient.EntryOutcome | generate_video_client.py:452-483 | a file succeeds exactly when its job completed and its video was saved; a failed save reports "Result save failed", and any other failure reports the job's own error |
| JobClient.SucceededCount | generate_video_client.py:459-483 | the success count never exceeds the number of entries |
| JobClient.TallyFiles | generate_video_client.py:435-483 | one entry per file, in order; successes plus failures equal the total; the success counter matches the entries |
| JobClient.BatchProcessImages | generate_video_client.py:378-488 | a missing folder or a folder without images is refused with its message; otherwise there is one entry per image file, in listing order, with counts that add up |
| ChainWalk.StrOf | test_lora_chain.py:71 | `str()` of a link: a string is its own node id, an integer its decimal digits, None, booleans and floats their Python text; a list or dictionary names no node |
| ChainWalk.NextId | test_lora_chain.py:67-87 | a LoRA loader whose `model` input is a non-empty list continues the walk to `str()` of the list's first element; every other node ends it |
| ChainWalk.Walk | test_lora_chain.py:47-87 | the chain holds only unvisited graph nodes, is no longer than the unvisited part of the graph, is empty exactly for an empty, seen or unknown id, and starts at the start node |
| ChainWalk.WalkVisitsDistinct | test_lora_chain.py:51-52 | no node appears twice in a chain |
| ChainWalk.WalkLinks | test_lora_chain.py:61-78 | every entry shows its node as the graph holds it, and each entry links to the next by its `model` input |
| ChainWalk.PrintNodeChain | test_lora_chain.py:34-90 | the loop with its visited set returns exactly the walk |
| ChainWalk.WalkIsBounded | test_lora_chain.py:51-52 | a chain is never longer than the graph has nodes |
| ChainWalk.NonLoraStartIsAlone | test_lora_chain.py:84-86 | starting at a node that is not a LoRA loader gives just that node |
| ChainWalk.InnerNodesAreLoras | test_lora_chain.py:66-78 | every node of a chain but the last is a LoRA loader |
| ChainWalk.WalkStopsAtEnd | test_lora_chain.py:51-87 | the chain ends only where the loop must stop: the last node has no usable `model` link, or links to an empty id, a node already seen, or an id not in the graph |
| ChainWalk.ChainTest | test_lora_chain.py:92-237 | for a file that loads, the test gives no report exactly when the workflow file is missing or applying a non-empty chain raised; otherwise "before" is the loaded graph, "after" is it with the chain applied (or unchanged without pairs), the chains are the walks from the two sampling nodes of "after", and the new nodes are those not in "before" |
| ChainWalk.ChainTestChainsAreWalks | test_lora_chain.py:172-178 | both reported chains have no repeated node, link each entry to the next by its `model` input, start at their sampling node exactly when it exists, and stop only where the walk must stop |
| ChainWalk.BeforeIsUntouched | test_lora_chain.py:116-118 | the graph reported as "before" is the one loaded from the workflow file, whatever the LoRA application does to its copy |
| ChainWalk.NoPairsNoChange | test_lora_chain.py:151 | without pairs the graph is unchanged and no node is new |
| Interop.ClientImageIgnored | handler.py:151-158 | every input the client can send makes the handler prepare its default image |
| Interop.ClientJobRaises | handler.py:283-289 | a job shaped by the client makes the handler raise once its image is prepared |
| Interop.ClientJobRaisesSeedKeyError | handler.py:283-286 | when the selected template holds nodes 260, 846 and 246, the exception is KeyError('seed') |
| Interop.ClientPairsSelectTemplate | handler.py:257-277 | the client's pair list picks the template for its length, capped at three |
| Interop.HandlerVideoReachesDisk | generate_video_client.py:235-253 | a video the handler returns is saved by the client as exactly the encoded bytes |

## Left out

- **Networking.**
  - The WebSocket and HTTP retry loops and `queue_prompt`/`get_history` (handler.py:343-378) become one parameter, `Server.run`. It returns the history outputs, or None when connecting gave up.
  - `get_image` and `_read_output_entry` (handler.py:163-200) become `Server.read`.
  - The client's `submit_job` (generate_video_client.py:131-162) and status requests become parameters.
  - None of these are modelled.
- **Per-node file reads.** `load_workflow` (handler.py:234-236) is the parameter `Server.templates`. An unreadable file is an exception that escapes.
- **Host calls.** The following are parameters: PIL (opening, the image's mode, and whether a conversion succeeds), `os.path.abspath`, `os.path.exists`, file reads and writes, `os.makedirs`, `os.listdir`, `os.path.isdir` and `time.time()`. The clock is the `at` field of each poll.
- **Task ids.** The `uuid4` part of a task id is a parameter.
- **The ComfyUI input directory.** `_determine_comfy_input_dir` (handler.py:29-60) is not modelled, and neither is saving the PNG. Writing the image is assumed to succeed once PIL has opened and converted it.
- **Floating point.** `int(steps * 0.6)` is the parameter `lowStepsOf`. Floats appear only through their `repr`.
- **Output.** Logging, `print`, the `time.sleep` between polls, and the JSON files `test_lora_chain` writes have no effect on results and are left out.
- **`apply_lora_chain`.** It is not part of this model. `ChainWalk.ChainTest` takes it as a parameter.
- **The `main` functions.** The two `main` functions (generate_video_client.py:491-end, test_lora_chain.py:239-end) are fixed demonstration scripts.
- **Exception texts.** The texts of exceptions raised inside PIL, the OS or Python are one parameter, `detail`.
- **Parsing.** Status replies are taken to be dictionaries, and job ids returned by `submit_job` to be strings.
- **Template nodes.** Template nodes always have an `inputs` dictionary and a `class_type`. A template node without `inputs` (a KeyError in the source) is not modelled.
- ImageInput.WriteImageToComfy: a conversion that raises OSError is reported by the source as "invalid image data". The model reports every failed conversion as a ValueError carrying `detail`.
- Workflow.LoraPairsOf: the keys of a dictionary given as `lora_pairs` become empty-string placeholders, because only their number matters: any key fails at its pair's `.get`, as in the source.
- PosixPath.Dirname: the contract states only the no-separator case and the length bound. The body follows `posixpath.dirname`, but no lemma characterises it further.
- PosixPath.ExpandUser: the contract states only that paths without `~` are unchanged. The expansion itself follows `posixpath.expanduser` but is not characterised by a lemma.
- PyText.AsciiLower: lower-cases ASCII letters only. The source's `str.lower` also folds non-ASCII letters.
- ChainWalk.ChainTest: two exceptions that escape `test_lora_chain` are not modelled. `load_workflow` raises on a malformed workflow file (test_lora_chain.py:117); the model's `load` always returns a graph. `sorted(new_nodes, key=int)` raises ValueError when a new node id is not an integer (test_lora_chain.py:228-231); the model reports the new node ids as a set and never sorts them.
- ChainWalk.StrOf: `str()` of a list or dictionary is a Python repr that is never a node id in these templates, so the model treats it as a link to no node.
- JobClient.BatchProcessImages: a failure of `os.makedirs(output_folder)` (an exception in the source) is not modelled.

=== FILE: base64.dfy ===
/**
  The Base64 encoding of section 4 of RFC 4648 (the standard alphabet of
  Table 1, with `=` padding), as used by `base64.b64encode` and by
  `base64.b64decode(..., validate=True)`.

  From Python 3.11 on, `validate=True` runs `binascii.a2b_base64` in strict
  mode, and the model assumes such a Python (earlier versions only match a
  regular expression and then decode leniently, accepting "QUJD=", say).
  In strict mode the decoder refuses every
  character outside the alphabet, any length that is not a whole number of
  4-character quanta, and padding anywhere but at the end of the final
  quantum. Like Python, the decoder here does not insist that the unused bits
  before the padding are zero (section 3.5 of RFC 4648 lets a decoder accept
  them).
 */
module Base64 {
  import opened Wrappers

  /** An octet. */
  type byte = x: int | 0 <= x < 256

  /** The six bits one Base64 character stands for. */
  type sextet = x: int | 0 <= x < 64

  const PAD: char := '='

  /** Membership in the 64-character alphabet of Table 1. */
  predicate IsAlphabetChar(c: char) {
    ('A' <= c <= 'Z') || ('a' <= c <= 'z') || ('0' <= c <= '9') || c == '+' || c == '/'
  }

  /** The character Table 1 assigns to a 6-bit value. */
  function CharOf(v: sextet): (c: char)
    ensures IsAlphabetChar(c)
  {
    if v < 26 then ('A' as int + v) as char
    else if v < 52 then ('a' as int + (v - 26)) as char
    else if v < 62 then ('0' as int + (v - 52)) as char
    else if v == 62 then '+'
    else '/'
  }

  /** The 6-bit value Table 1 assigns to an alphabet character. */
  function ValueOf(c: char): sextet
    requires IsAlphabetChar(c)
  {
    if 'A' <= c <= 'Z' then c as int - 'A' as int
    else if 'a' <= c <= 'z' then c as int - 'a' as int + 26
    else if '0' <= c <= '9' then c as int - '0' as int + 52
    else if c == '+' then 62
    else 63
  }

  /** Table 1 is a bijection: looking a value up and back gives the value. */
  lemma ValueOfCharOf(v: sextet)
    ensures ValueOf(CharOf(v)) == v
  {
  }

  /** ... and looking a character up and back gives the character. */
  lemma CharOfValueOf(c: char)
    requires IsAlphabetChar(c)
    ensures CharOf(ValueOf(c)) == c
  {
  }

  predicate AllAlphabet(s: string) {
    forall k :: 0 <= k < |s| ==> IsAlphabetChar(s[k])
  }

  /**
    The shape the strict decoder accepts: whole quanta, alphabet characters
    and `=` only, padding confined to the last two positions, and a `=` in the
    next-to-last position followed by a second `=`.
   */
  predicate IsCanonical(s: string) {
    && |s| % 4 == 0
    && (forall k :: 0 <= k < |s| ==> IsAlphabetChar(s[k]) || s[k] == PAD)
    && (forall k :: 0 <= k < |s| - 2 ==> s[k] != PAD)
    && (|s| >= 2 && s[|s| - 2] == PAD ==> s[|s| - 1] == PAD)
  }

  /** Number of `=` characters ending a canonical string. */
  function PadCount(s: string): nat {
    if |s| >= 2 && s[|s| - 2] == PAD then 2
    else if |s| >= 1 && s[|s| - 1] == PAD then 1
    else 0
  }

  /** Three octets become four characters (section 4, a full 24-bit group). */
  function EncodeTriple(a: byte, b: byte, c: byte): (s: string)
    ensures |s| == 4 && AllAlphabet(s)
  {
    var s := [CharOf(a / 4), CharOf((a % 4) * 16 + b / 16), CharOf((b % 16) * 4 + c / 64), CharOf(c % 64)];
    assert IsAlphabetChar(s[0]) && IsAlphabetChar(s[1]) && IsAlphabetChar(s[2]) && IsAlphabetChar(s[3]);
    s
  }

  /** `base64.b64encode`: whole groups first, then a padded final quantum. */
  function Encode(bytes: seq<byte>): (s: string)
    ensures |s| == 4 * ((|bytes| + 2) / 3)
    ensures IsCanonical(s)
    ensures PadCount(s) == if |bytes| % 3 == 0 then 0 else 3 - |bytes| % 3
    decreases |bytes|
  {
    if |bytes| >= 3 then
      var head := EncodeTriple(bytes[0], bytes[1], bytes[2]);
      var tail := Encode(bytes[3..]);
      CanonicalPrepend(head, tail);
      GroupArithmetic(|bytes[3..]|);
      head + tail
    else if |bytes| == 2 then
      EncodePair(bytes[0], bytes[1])
    else if |bytes| == 1 then
      EncodeSingle(bytes[0])
    else
      []
  }

  /** Three more octets add one group and leave the remainder unchanged. */
  lemma GroupArithmetic(m: nat)
    ensures (m + 3 + 2) / 3 == (m + 2) / 3 + 1
    ensures (m + 3) % 3 == m % 3
  {
  }

  /** Two final octets become three characters and one `=`. */
  function EncodePair(a: byte, b: byte): (s: string)
    ensures |s| == 4 && IsCanonical(s) && PadCount(s) == 1
  {
    var s := [CharOf(a / 4), CharOf((a % 4) * 16 + b / 16), CharOf((b % 16) * 4), PAD];
    assert IsAlphabetChar(s[0]) && IsAlphabetChar(s[1]) && IsAlphabetChar(s[2]);
    s
  }

  /** One final octet becomes two characters and `==`. */
  function EncodeSingle(a: byte): (s: string)
    ensures |s| == 4 && IsCanonical(s) && PadCount(s) == 2
  {
    var s := [CharOf(a / 4), CharOf((a % 4) * 16), PAD, PAD];
    assert IsAlphabetChar(s[0]) && IsAlphabetChar(s[1]);
    s
  }

  /** A quantum of four alphabet characters in front of a canonical string keeps it canonical. */
  lemma CanonicalPrepend(head: string, tail: string)
    requires |head| == 4 && AllAlphabet(head) && IsCanonical(tail)
    ensures IsCanonical(head + tail)
    ensures PadCount(head + tail) == PadCount(tail)
  {
    var s := head + tail;
    forall k | 0 <= k < |s| ensures IsAlphabetChar(s[k]) || s[k] == PAD {
      if k >= 4 {
        assert s[k] == tail[k - 4];
      }
    }
    forall k | 0 <= k < |s| - 2 ensures s[k] != PAD {
      if k >= 4 {
        assert s[k] == tail[k - 4];
      }
    }
    if |tail| >= 2 {
      assert s[|s| - 2] == tail[|tail| - 2];
      assert s[|s| - 1] == tail[|tail| - 1];
    }
  }

  /** Four alphabet characters become three octets. */
  function DecodeQuad(q: string): (r: seq<byte>)
    requires |q| == 4 && AllAlphabet(q)
    ensures |r| == 3
  {
    var v0, v1, v2, v3 := ValueOf(q[0]), ValueOf(q[1]), ValueOf(q[2]), ValueOf(q[3]);
    [v0 * 4 + v1 / 16, (v1 % 16) * 16 + v2 / 4, (v2 % 4) * 64 + v3]
  }

  /** The last quantum: four characters, `xyz=` or `xy==`. */
  function DecodeFinal(q: string): (r: Option<seq<byte>>)
    requires |q| == 4
  {
    if AllAlphabet(q) then Some(DecodeQuad(q))
    else if IsAlphabetChar(q[0]) && IsAlphabetChar(q[1]) && IsAlphabetChar(q[2]) && q[3] == PAD then
      var v0, v1, v2 := ValueOf(q[0]), ValueOf(q[1]), ValueOf(q[2]);
      Some([v0 * 4 + v1 / 16, (v1 % 16) * 16 + v2 / 4])
    else if IsAlphabetChar(q[0]) && IsAlphabetChar(q[1]) && q[2] == PAD && q[3] == PAD then
      var v0, v1 := ValueOf(q[0]), ValueOf(q[1]);
      Some([v0 * 4 + v1 / 16])
    else
      None
  }

  /**
    `base64.b64decode(s, validate=True)`: None stands for the
    `binascii.Error` the handler turns into a ValueError.
   */
  function Decode(s: string): (r: Option<seq<byte>>)
    ensures r.Some? <==> IsCanonical(s)
    ensures r.Some? ==> |r.value| == 3 * (|s| / 4) - PadCount(s)
    decreases |s|
  {
    if |s| % 4 != 0 then None
    else if |s| == 0 then Some([])
    else if |s| == 4 then
      FinalCanonical(s);
      DecodeFinal(s)
    else
      CanonicalSplit(s);
      if AllAlphabet(s[..4]) then
        match Decode(s[4..])
        case None => None
        case Some(rest) => Some(DecodeQuad(s[..4]) + rest)
      else
        None
  }

  lemma FinalCanonical(q: string)
    requires |q| == 4
    ensures DecodeFinal(q).Some? <==> IsCanonical(q)
    ensures DecodeFinal(q).Some? ==> |DecodeFinal(q).value| == 3 - PadCount(q)
  {
  }

  /** A canonical string of more than one quantum is a full quantum followed by a canonical string. */
  lemma CanonicalSplit(s: string)
    requires |s| > 4 && |s| % 4 == 0
    ensures IsCanonical(s) <==> AllAlphabet(s[..4]) && IsCanonical(s[4..])
    ensures PadCount(s) == PadCount(s[4..])
  {
    var t := s[4..];
    assert forall k :: 4 <= k < |s| ==> s[k] == t[k - 4];
    if AllAlphabet(s[..4]) && IsCanonical(t) {
      assert s == s[..4] + t;
      CanonicalPrepend(s[..4], t);
    }
    if IsCanonical(s) {
      forall k | 0 <= k < 4 ensures IsAlphabetChar(s[..4][k]) {
        assert s[..4][k] == s[k];
      }
      forall k | 0 <= k < |t| ensures IsAlphabetChar(t[k]) || t[k] == PAD {
        assert t[k] == s[k + 4];
      }
      forall k | 0 <= k < |t| - 2 ensures t[k] != PAD {
        assert t[k] == s[k + 4];
      }
    }
  }

  /** Encoding and decoding one full group of three octets round-trips. */
  lemma TripleRoundTrip(a: byte, b: byte, c: byte)
    ensures AllAlphabet(EncodeTriple(a, b, c))
    ensures DecodeQuad(EncodeTriple(a, b, c)) == [a, b, c]
  {
    var q := EncodeTriple(a, b, c);
    ValueOfCharOf(a / 4);
    ValueOfCharOf((a % 4) * 16 + b / 16);
    ValueOfCharOf((b % 16) * 4 + c / 64);
    ValueOfCharOf(c % 64);
    SplitHigh(a, b / 16);
    SplitMiddle(b, (a % 4) * 16, c / 64);
    SplitLow(c, b % 16);
  }

  /** An octet split as 6 + 2 bits and joined again. */
  lemma SplitHigh(a: byte, lo: int)
    requires 0 <= lo < 16
    ensures (a / 4) * 4 + ((a % 4) * 16 + lo) / 16 == a
  {
    assert ((a % 4) * 16 + lo) / 16 == a % 4;
  }

  /** An octet split as 4 + 4 bits and joined again. */
  lemma SplitMiddle(b: byte, hi: int, lo: int)
    requires 0 <= lo < 4 && hi % 16 == 0 && 0 <= hi <= 48
    ensures ((hi + b / 16) % 16) * 16 + ((b % 16) * 4 + lo) / 4 == b
  {
    assert (hi + b / 16) % 16 == b / 16;
    assert ((b % 16) * 4 + lo) / 4 == b % 16;
  }

  /** An octet split as 2 + 6 bits and joined again. */
  lemma SplitLow(c: byte, hi: int)
    requires 0 <= hi < 16
    ensures ((hi * 4 + c / 64) % 4) * 64 + c % 64 == c
  {
    assert (hi * 4 + c / 64) % 4 == c / 64;
  }

  /**
    `b64decode(b64encode(x), validate=True) == x` for every byte string: what
    the handler's output encoding and any strict reader rely on.
   */
  lemma {:induction false} DecodeEncode(bytes: seq<byte>)
    ensures Decode(Encode(bytes)) == Some(bytes)
    decreases |bytes|
  {
    var s := Encode(bytes);
    if |bytes| >= 3 {
      var head := EncodeTriple(bytes[0], bytes[1], bytes[2]);
      var tail := Encode(bytes[3..]);
      TripleRoundTrip(bytes[0], bytes[1], bytes[2]);
      assert s == head + tail;
      assert bytes == [bytes[0], bytes[1], bytes[2]] + bytes[3..];
      if |bytes| == 3 {
        assert bytes == [bytes[0], bytes[1], bytes[2]];
        assert s == head;
        assert Decode(s) == DecodeFinal(s) == Some(DecodeQuad(head));
      } else {
        DecodeEncode(bytes[3..]);
        assert s[..4] == head && s[4..] == tail;
        DecodeCons(s);
      }
    } else if |bytes| == 2 {
      PairRoundTrip(bytes[0], bytes[1]);
      assert Decode(s) == DecodeFinal(s);
      assert bytes == [bytes[0], bytes[1]];
    } else if |bytes| == 1 {
      SingleRoundTrip(bytes[0]);
      assert Decode(s) == DecodeFinal(s);
      assert bytes == [bytes[0]];
    }
  }

  /** A full quantum in front of a decodable string decodes to its three octets in front. */
  lemma DecodeCons(s: string)
    requires |s| > 4 && |s| % 4 == 0 && AllAlphabet(s[..4]) && Decode(s[4..]).Some?
    ensures Decode(s) == Some(DecodeQuad(s[..4]) + Decode(s[4..]).value)
  {
  }

  lemma PairRoundTrip(a: byte, b: byte)
    ensures DecodeFinal(EncodePair(a, b)) == Some([a, b])
  {
    ValueOfCharOf(a / 4);
    ValueOfCharOf((a % 4) * 16 + b / 16);
    ValueOfCharOf((b % 16) * 4);
    SplitHigh(a, b / 16);
    SplitMiddle(b, (a % 4) * 16, 0);
  }

  lemma SingleRoundTrip(a: byte)
    ensures DecodeFinal(EncodeSingle(a)) == Some([a])
  {
    ValueOfCharOf(a / 4);
    ValueOfCharOf((a % 4) * 16);
    SplitHigh(a, 0);
  }

  /** Strict decoding refuses any character outside the alphabet and `=`. */
  lemma DecodeRejectsForeignChar(s: string, k: nat)
    requires k < |s| && !IsAlphabetChar(s[k]) && s[k] != PAD
    ensures Decode(s) == None
  {
  }

  /** Strict decoding refuses a `=` that is followed by a data character. */
  lemma DecodeRejectsInnerPad(s: string, i: nat, j: nat)
    requires i < j < |s| && s[i] == PAD && IsAlphabetChar(s[j])
    ensures Decode(s) == None
  {
  }
}

=== FILE: base64_lenient.dfy ===
/**
  `base64.b64decode(s)` without `validate`, which the client uses to turn a
  finished job's video back into bytes. Python first requires the text to be
  ASCII, then scans it one character at a time: characters outside the
  alphabet are skipped, data characters fill a 4-character quantum and emit
  octets as soon as their bits are complete, and enough `=` after the second
  or third character of a quantum ends the input. Text that stops in the middle
  of a quantum is an error.
 */
module Base64Lenient {
  import opened Wrappers
  import opened Base64

  predicate IsAscii(c: char) {
    c as int < 128
  }

  predicate AllAscii(s: string) {
    forall k :: 0 <= k < |s| ==> IsAscii(s[k])
  }

  /**
    Position `quad` inside the current quantum and the `carry` bits that are
    not yet part of an emitted octet: 6 after one character, 4 after two,
    2 after three.
   */
  predicate CarryFits(quad: int, carry: int) {
    && 0 <= quad < 4
    && 0 <= carry
    && (quad == 0 ==> carry == 0)
    && (quad == 1 ==> carry < 64)
    && (quad == 2 ==> carry < 16)
    && (quad == 3 ==> carry < 4)
  }

  /** The scanning loop of `binascii.a2b_base64` in its non-strict mode. */
  function Scan(s: string, quad: int, carry: int, pads: nat, acc: seq<byte>): (r: Option<seq<byte>>)
    requires CarryFits(quad, carry)
    ensures r.Some? ==> |acc| <= |r.value| && r.value[..|acc|] == acc
    decreases |s|
  {
    if |s| == 0 then
      if quad == 0 then Some(acc) else None
    else if s[0] == PAD then
      if quad >= 2 && quad + pads + 1 >= 4 then Some(acc)
      else Scan(s[1..], quad, carry, if quad >= 2 then pads + 1 else pads, acc)
    else if !IsAlphabetChar(s[0]) then
      Scan(s[1..], quad, carry, pads, acc)
    else
      var v := ValueOf(s[0]);
      var r :=
        if quad == 0 then Scan(s[1..], 1, v, 0, acc)
        else if quad == 1 then Scan(s[1..], 2, v % 16, 0, acc + [carry * 4 + v / 16])
        else if quad == 2 then Scan(s[1..], 3, v % 4, 0, acc + [carry * 16 + v / 4])
        else Scan(s[1..], 0, 0, 0, acc + [carry * 64 + v]);
      assert r.Some? ==> r.value[..|acc|] == (r.value[..|acc| + if quad == 0 then 0 else 1])[..|acc|];
      r
  }

  /** `base64.b64decode(s)`: None stands for the exception it raises. */
  function LenientDecode(s: string): (r: Option<seq<byte>>)
    ensures !AllAscii(s) ==> r == None
  {
    if AllAscii(s) then Scan(s, 0, 0, 0, []) else None
  }

  /** A full quantum of alphabet characters emits exactly its three octets. */
  lemma ScanQuad(q: string, rest: string, acc: seq<byte>)
    requires |q| == 4 && AllAlphabet(q)
    ensures Scan(q + rest, 0, 0, 0, acc) == Scan(rest, 0, 0, 0, acc + DecodeQuad(q))
  {
    var s := q + rest;
    assert s[0] == q[0] && s[1..][0] == q[1] && s[2..][0] == q[2] && s[3..][0] == q[3];
    assert s[1..][1..] == s[2..] && s[2..][1..] == s[3..] && s[3..][1..] == s[4..] == rest;
    var v0, v1, v2, v3 := ValueOf(q[0]), ValueOf(q[1]), ValueOf(q[2]), ValueOf(q[3]);
    var b := DecodeQuad(q);
    assert Scan(s, 0, 0, 0, acc) == Scan(s[1..], 1, v0, 0, acc);
    assert Scan(s[1..], 1, v0, 0, acc) == Scan(s[2..], 2, v1 % 16, 0, acc + [b[0]]);
    assert Scan(s[2..], 2, v1 % 16, 0, acc + [b[0]]) == Scan(s[3..], 3, v2 % 4, 0, acc + [b[0]] + [b[1]]);
    assert Scan(s[3..], 3, v2 % 4, 0, acc + [b[0]] + [b[1]]) == Scan(rest, 0, 0, 0, acc + [b[0]] + [b[1]] + [b[2]]);
    assert acc + [b[0]] + [b[1]] + [b[2]] == acc + b;
  }

  /** On the final quantum both decoders produce the same octets. */
  lemma ScanFinal(q: string, acc: seq<byte>)
    requires |q| == 4 && DecodeFinal(q).Some?
    ensures Scan(q, 0, 0, 0, acc) == Some(acc + DecodeFinal(q).value)
  {
    if AllAlphabet(q) {
      ScanQuad(q, [], acc);
      assert q + [] == q;
    } else {
      assert q[1..][0] == q[1] && q[2..][0] == q[2] && q[3..][0] == q[3];
      assert q[1..][1..] == q[2..] && q[2..][1..] == q[3..];
      var v0, v1 := ValueOf(q[0]), ValueOf(q[1]);
      var b := DecodeFinal(q).value;
      assert Scan(q, 0, 0, 0, acc) == Scan(q[1..], 1, v0, 0, acc);
      assert Scan(q[1..], 1, v0, 0, acc) == Scan(q[2..], 2, v1 % 16, 0, acc + [b[0]]);
      if q[3] == PAD && IsAlphabetChar(q[2]) {
        var v2 := ValueOf(q[2]);
        assert Scan(q[2..], 2, v1 % 16, 0, acc + [b[0]]) == Scan(q[3..], 3, v2 % 4, 0, acc + [b[0]] + [b[1]]);
        assert Scan(q[3..], 3, v2 % 4, 0, acc + [b[0]] + [b[1]]) == Some(acc + [b[0]] + [b[1]]);
        assert acc + [b[0]] + [b[1]] == acc + b;
      } else {
        assert q[2] == PAD && q[3] == PAD;
        assert Scan(q[2..], 2, v1 % 16, 0, acc + [b[0]]) == Scan(q[3..], 2, v1 % 16, 1, acc + [b[0]]);
        assert Scan(q[3..], 2, v1 % 16, 1, acc + [b[0]]) == Some(acc + [b[0]]);
        assert [b[0]] == b;
      }
    }
  }

  /** Wherever the strict decoder succeeds, the scanner agrees with it. */
  lemma {:induction false} ScanAgreesWithStrict(s: string, acc: seq<byte>)
    requires Decode(s).Some?
    ensures Scan(s, 0, 0, 0, acc) == Some(acc + Decode(s).value)
    decreases |s|
  {
    if |s| == 0 {
      assert acc + [] == acc;
    } else if |s| == 4 {
      ScanFinal(s, acc);
    } else {
      var q, rest := s[..4], s[4..];
      assert s == q + rest;
      ScanQuad(q, rest, acc);
      ScanAgreesWithStrict(rest, acc + DecodeQuad(q));
      assert acc + DecodeQuad(q) + Decode(rest).value == acc + (DecodeQuad(q) + Decode(rest).value);
    }
  }

  /**
    Text the strict decoder accepts decodes to the same bytes without
    `validate`: the two decoders used by the handler and the client agree.
   */
  lemma StrictImpliesLenient(s: string)
    requires Decode(s).Some?
    ensures LenientDecode(s) == Decode(s)
  {
    assert AllAscii(s);
    ScanAgreesWithStrict(s, []);
    assert [] + Decode(s).value == Decode(s).value;
  }

  /** What `b64encode` produced, `b64decode` without `validate` restores. */
  lemma LenientDecodeEncode(bytes: seq<byte>)
    ensures LenientDecode(Encode(bytes)) == Some(bytes)
  {
    DecodeEncode(bytes);
    StrictImpliesLenient(Encode(bytes));
  }

  /** A non-alphabet ASCII character other than `=` is ignored wherever it appears. */
  lemma {:induction false} ScanSkipsForeign(p: string, c: char, t: string, quad: int, carry: int, pads: nat, acc: seq<byte>)
    requires CarryFits(quad, carry)
    requires !IsAlphabetChar(c) && c != PAD
    ensures Scan(p + [c] + t, quad, carry, pads, acc) == Scan(p + t, quad, carry, pads, acc)
    decreases |p|
  {
    if |p| == 0 {
      assert p + [c] + t == [c] + t && ([c] + t)[1..] == t && p + t == t;
    } else {
      var s, u := p + [c] + t, p + t;
      assert s[0] == p[0] && u[0] == p[0];
      assert s[1..] == p[1..] + [c] + t && u[1..] == p[1..] + t;
      if p[0] == PAD {
        ScanSkipsForeign(p[1..], c, t, quad, carry, if quad >= 2 then pads + 1 else pads, acc);
      } else if !IsAlphabetChar(p[0]) {
        ScanSkipsForeign(p[1..], c, t, quad, carry, pads, acc);
      } else {
        var v := ValueOf(p[0]);
        if quad == 0 {
          ScanSkipsForeign(p[1..], c, t, 1, v, 0, acc);
        } else if quad == 1 {
          ScanSkipsForeign(p[1..], c, t, 2, v % 16, 0, acc + [carry * 4 + v / 16]);
        } else if quad == 2 {
          ScanSkipsForeign(p[1..], c, t, 3, v % 4, 0, acc + [carry * 16 + v / 4]);
        } else {
          ScanSkipsForeign(p[1..], c, t, 0, 0, 0, acc + [carry * 64 + v]);
        }
      }
    }
  }

  /** Line breaks or other ASCII noise inside the text do not change what `b64decode` returns. */
  lemma LenientIgnoresForeignAscii(p: string, c: char, t: string)
    requires IsAscii(c) && !IsAlphabetChar(c) && c != PAD
    ensures LenientDecode(p + [c] + t) == LenientDecode(p + t)
  {
    ScanSkipsForeign(p, c, t, 0, 0, 0, []);
    AsciiWithout(p, c, t);
  }

  /** Taking an ASCII character out of a text leaves it ASCII exactly when it was. */
  lemma AsciiWithout(p: string, c: char, t: string)
    requires IsAscii(c)
    ensures AllAscii(p + [c] + t) <==> AllAscii(p + t)
  {
    var s, u := p + [c] + t, p + t;
    assert forall k :: 0 <= k < |p| ==> s[k] == p[k] && u[k] == p[k];
    assert forall k :: 0 <= k < |t| ==> s[|p| + 1 + k] == t[k] && u[|p| + k] == t[k];
    assert s[|p|] == c;
  }
}

=== FILE: chainwalk.dfy ===
/**
  The LoRA chain checks of test_lora_chain.py: `print_node_chain`, which
  follows `model` links back from a sampling node through LoRA loader nodes,
  and the before/after bookkeeping of `test_lora_chain`. The graph is the
  same map from node id to node that the handler patches.
 */
module ChainWalk {
  import opened Wrappers
  import opened Json
  import opened Workflow
  import PosixPath

  const LORA_CLASS: string := "LoraLoaderModelOnly"

  /** One element of the returned chain: the node's id, `class_type` and inputs. */
  datatype ChainEntry = ChainEntry(nodeId: string, classType: string, inputs: map<string, Json>)

  /**
    `str(x)` of a model link's first element. Lists and dictionaries have no
    node id as their text, so they are None: a reference to no node.
   */
  function StrOf(j: Json): (r: Option<string>)
    ensures j.JStr? ==> r == Some(j.s)
    ensures j.JArr? || j.JObj? ==> r == None
    ensures j.JInt? ==> r == Some(IntToString(j.i))
    ensures j.JNull? ==> r == Some("None")
    ensures j.JBool? ==> r == Some(if j.b then "True" else "False")
    ensures j.JFloat? ==> r == Some(j.repr)
  {
    match j
    case JNull => Some("None")
    case JBool(b) => Some(if b then "True" else "False")
    case JInt(i) => Some(IntToString(i))
    case JFloat(repr) => Some(repr)
    case JStr(s) => Some(s)
    case JArr(_) => None
    case JObj(_) => None
  }

  /**
    Where the walk goes after appending `n`: only a LoRA loader whose `model`
    input is a non-empty list continues, to `str(model[0])`.
   */
  function NextId(n: Node): (r: Option<string>)
    ensures r.Some? ==> n.classType == LORA_CLASS
    ensures n.classType != LORA_CLASS ==> r == None
    ensures "model" !in n.inputs ==> r == None
    ensures "model" in n.inputs && (!n.inputs["model"].JArr? || n.inputs["model"].items == []) ==> r == None
    ensures n.classType == LORA_CLASS && "model" in n.inputs && n.inputs["model"].JArr? && n.inputs["model"].items != [] ==>
      r == StrOf(n.inputs["model"].items[0])
  {
    if n.classType == LORA_CLASS && "model" in n.inputs && n.inputs["model"].JArr? && n.inputs["model"].items != [] then
      StrOf(n.inputs["model"].items[0])
    else
      None
  }

  lemma VisitShrinksUnvisited(g: Graph, visited: set<string>, id: string)
    requires id in g && id !in visited
    ensures |g.Keys - (visited + {id})| + 1 == |g.Keys - visited|
  {
    var rest := g.Keys - (visited + {id});
    assert g.Keys - visited == rest + {id};
    assert id !in rest;
  }

  /**
    `print_node_chain` from `id` with `visited` already seen: stop at an
    empty id, an id seen before, or an id not in the graph (appending
    nothing); otherwise append the node and follow its link, if any.
   */
  function Walk(g: Graph, id: string, visited: set<string>): (chain: seq<ChainEntry>)
    ensures |chain| <= |g.Keys - visited|
    ensures forall k :: 0 <= k < |chain| ==> chain[k].nodeId in g && chain[k].nodeId !in visited
    ensures chain != [] <==> id != [] && id !in visited && id in g
    ensures chain != [] ==> chain[0] == EntryOf(g, id)
    decreases |g.Keys - visited|
  {
    if id == [] || id in visited || id !in g then []
    else
      VisitShrinksUnvisited(g, visited, id);
      var entry := EntryOf(g, id);
      match NextId(g[id])
      case None => [entry]
      case Some(next) =>
        var rest := Walk(g, next, visited + {id});
        var chain := [entry] + rest;
        assert forall k :: 1 <= k < |chain| ==> chain[k] == rest[k - 1];
        chain
  }

  /** No node appears twice in `chain`. */
  predicate DistinctNodes(chain: seq<ChainEntry>) {
    forall i, j :: 0 <= i < j < |chain| ==> chain[i].nodeId != chain[j].nodeId
  }

  /** The walk never visits a node twice. */
  lemma {:induction false} WalkVisitsDistinct(g: Graph, id: string, visited: set<string>)
    ensures DistinctNodes(Walk(g, id, visited))
    decreases |g.Keys - visited|
  {
    if id != [] && id !in visited && id in g {
      VisitShrinksUnvisited(g, visited, id);
      match NextId(g[id])
      case None =>
      case Some(next) =>
        WalkVisitsDistinct(g, next, visited + {id});
        var rest := Walk(g, next, visited + {id});
        var chain := Walk(g, id, visited);
        assert chain == [EntryOf(g, id)] + rest;
        forall i, j | 0 <= i < j < |chain| ensures chain[i].nodeId != chain[j].nodeId {
          assert chain[j] == rest[j - 1] && rest[j - 1].nodeId !in visited + {id};
          if i > 0 { assert chain[i] == rest[i - 1]; } else { assert chain[i].nodeId == id; }
        }
    }
  }

  /**
    A chain read off `g`: every entry shows its node as the graph holds it,
    and each entry but the last links, by its `model` input, to the next.
   */
  ghost predicate Linked(g: Graph, chain: seq<ChainEntry>) {
    && (forall k :: 0 <= k < |chain| ==> chain[k].nodeId in g && chain[k] == EntryOf(g, chain[k].nodeId))
    && (forall k :: 0 <= k < |chain| - 1 ==> NextId(g[chain[k].nodeId]) == Some(chain[k + 1].nodeId))
  }

  function EntryOf(g: Graph, id: string): ChainEntry
    requires id in g
  {
    ChainEntry(id, g[id].classType, g[id].inputs)
  }

  /** Every chain the walk returns is linked. */
  lemma {:induction false} WalkLinks(g: Graph, id: string, visited: set<string>)
    ensures Linked(g, Walk(g, id, visited))
    decreases |g.Keys - visited|
  {
    if id == [] || id in visited || id !in g {
    } else {
      VisitShrinksUnvisited(g, visited, id);
      match NextId(g[id])
      case None =>
      case Some(next) =>
        WalkLinks(g, next, visited + {id});
        var rest := Walk(g, next, visited + {id});
        var chain := Walk(g, id, visited);
        assert chain == [EntryOf(g, id)] + rest;
        forall k | 0 <= k < |chain|
          ensures chain[k].nodeId in g && chain[k] == EntryOf(g, chain[k].nodeId)
        {
          if k > 0 { assert chain[k] == rest[k - 1]; }
        }
        forall k | 0 <= k < |chain| - 1
          ensures NextId(g[chain[k].nodeId]) == Some(chain[k + 1].nodeId)
        {
          assert chain[k + 1] == rest[k];
          if k > 0 { assert chain[k] == rest[k - 1]; }
        }
    }
  }

  /**
    Where the last entry of a chain leads: nowhere (not a LoRA loader, or no
    usable `model` link), to an empty id, to a node seen before (in `visited`
    or in the chain itself), or to an id the graph does not have.
   */
  predicate StoppedAtEnd(g: Graph, chain: seq<ChainEntry>, visited: set<string>)
    requires chain != [] && chain[|chain| - 1].nodeId in g
  {
    var next := NextId(g[chain[|chain| - 1].nodeId]);
    || next.None?
    || next.value == []
    || next.value in visited
    || next.value !in g
    || exists k :: 0 <= k < |chain| && chain[k].nodeId == next.value
  }

  /** The walk stops only where `print_node_chain`'s loop must stop. */
  lemma {:induction false} WalkStopsAtEnd(g: Graph, id: string, visited: set<string>)
    requires Walk(g, id, visited) != []
    ensures StoppedAtEnd(g, Walk(g, id, visited), visited)
    decreases |g.Keys - visited|
  {
    VisitShrinksUnvisited(g, visited, id);
    var chain := Walk(g, id, visited);
    match NextId(g[id])
    case None =>
      assert chain == [EntryOf(g, id)];
    case Some(next) =>
      var rest := Walk(g, next, visited + {id});
      assert chain == [EntryOf(g, id)] + rest;
      if rest == [] {
        assert chain == [EntryOf(g, id)];
        assert next == [] || next in visited || next == id || next !in g;
        assert chain[0].nodeId == id;
      } else {
        WalkStopsAtEnd(g, next, visited + {id});
        assert chain[|chain| - 1] == rest[|rest| - 1];
        var n := NextId(g[rest[|rest| - 1].nodeId]);
        if n.Some? && n.value != [] && n.value !in visited && n.value in g {
          if n.value == id {
            assert chain[0].nodeId == n.value;
          } else {
            var k :| 0 <= k < |rest| && rest[k].nodeId == n.value;
            assert chain[k + 1] == rest[k];
          }
        }
      }
  }

  /** One step of the walk from a node it has not seen. */
  lemma WalkStep(g: Graph, id: string, visited: set<string>)
    requires id != [] && id !in visited && id in g
    ensures NextId(g[id]).None? ==> Walk(g, id, visited) == [EntryOf(g, id)]
    ensures NextId(g[id]).Some? ==> Walk(g, id, visited) == [EntryOf(g, id)] + Walk(g, NextId(g[id]).value, visited + {id})
  {
  }

  /** The walk itself, with its visited set. */
  method PrintNodeChain(g: Graph, start: string) returns (chain: seq<ChainEntry>)
    ensures chain == Walk(g, start, {})
  {
    var visited: set<string> := {};
    var current := start;
    chain := [];
    while current != [] && current !in visited
      invariant visited <= g.Keys
      invariant chain + Walk(g, current, visited) == Walk(g, start, {})
      decreases |g.Keys - visited|
    {
      if current !in g {
        assert Walk(g, current, visited) == [];
        assert chain + [] == chain;
        return;
      }
      var node := g[current];
      var entry := ChainEntry(current, node.classType, node.inputs);
      WalkStep(g, current, visited);
      match NextId(node)
      case None =>
        chain := chain + [entry];
        return;
      case Some(next) =>
        VisitShrinksUnvisited(g, visited, current);
        chain := chain + [entry];
        visited := visited + {current};
        current := next;
    }
    assert Walk(g, current, visited) == [];
    assert chain + [] == chain;
  }

  /** The walk never repeats a node, so it is no longer than the graph has nodes. */
  lemma WalkIsBounded(g: Graph, start: string)
    ensures |Walk(g, start, {})| <= |g|
  {
    assert g.Keys - {} == g.Keys;
  }

  /** Starting from a node that is not a LoRA loader gives just that node. */
  lemma NonLoraStartIsAlone(g: Graph, start: string)
    requires start != [] && start in g && g[start].classType != LORA_CLASS
    ensures Walk(g, start, {}) == [ChainEntry(start, g[start].classType, g[start].inputs)]
  {
  }

  /** Every node but the last of a chain is a LoRA loader: only those continue the walk. */
  lemma InnerNodesAreLoras(g: Graph, start: string, k: int)
    requires 0 <= k < |Walk(g, start, {})| - 1
    ensures Walk(g, start, {})[k].classType == LORA_CLASS
  {
    WalkLinks(g, start, {});
    var chain := Walk(g, start, {});
    assert chain[k] == EntryOf(g, chain[k].nodeId);
    assert NextId(g[chain[k].nodeId]) == Some(chain[k + 1].nodeId);
  }

  // ---------------------------------------------------------------------------
  // test_lora_chain bookkeeping (test_lora_chain.py:92-237)
  // ---------------------------------------------------------------------------

  /** The four node ids the test looks at, by workflow kind. */
  datatype ChainIds = ChainIds(highLora: string, lowLora: string, highSampling: string, lowSampling: string)

  function IdsFor(isFlf2v: bool): ChainIds {
    if isFlf2v then ChainIds("91", "92", "54", "55") else ChainIds("101", "102", "104", "103")
  }

  function WorkflowFileFor(isFlf2v: bool): string {
    if isFlf2v then "wan22_flf2v_api.json" else "wan22_api.json"
  }

  /** What the test looked at: the graph before and after, both chains, and the nodes that appeared. */
  datatype ChainReport = ChainReport(
    before: Graph, after: Graph, highChain: seq<ChainEntry>, lowChain: seq<ChainEntry>, newNodes: set<string>)

  /**
    `test_lora_chain`: None when the workflow file is missing or applying
    the chain raised. `load` is `load_workflow`; `applyChain` is
    `apply_lora_chain` on a copy of the loaded graph (None when it raised),
    which is not part of this model.
   */
  function ChainTest(loraPairs: seq<Json>, isFlf2v: bool, scriptDir: string, pathExists: string -> bool,
                     load: string -> Graph, applyChain: (Graph, seq<Json>, ChainIds, bool) -> Option<Graph>): (r: Option<ChainReport>)
    ensures var path := PosixPath.Join(scriptDir, WorkflowFileFor(isFlf2v));
      r.None? <==> !pathExists(path) || (loraPairs != [] && applyChain(load(path), loraPairs, IdsFor(isFlf2v), isFlf2v).None?)
    ensures r.Some? ==> r.value.before == load(PosixPath.Join(scriptDir, WorkflowFileFor(isFlf2v)))
    ensures r.Some? ==>
      r.value.after == (if loraPairs == [] then r.value.before else applyChain(r.value.before, loraPairs, IdsFor(isFlf2v), isFlf2v).value)
    ensures r.Some? ==> r.value.newNodes == r.value.after.Keys - r.value.before.Keys
    ensures r.Some? ==> r.value.highChain == Walk(r.value.after, IdsFor(isFlf2v).highSampling, {})
    ensures r.Some? ==> r.value.lowChain == Walk(r.value.after, IdsFor(isFlf2v).lowSampling, {})
  {
    var path := PosixPath.Join(scriptDir, WorkflowFileFor(isFlf2v));
    if !pathExists(path) then None
    else
      var before := load(path);
      var ids := IdsFor(isFlf2v);
      var after :- if loraPairs == [] then Some(before) else applyChain(before, loraPairs, ids, isFlf2v);
      Some(ChainReport(before, after, Walk(after, ids.highSampling, {}), Walk(after, ids.lowSampling, {}),
                       after.Keys - before.Keys))
  }

  /**
    The graph reported as "before" is the one loaded from the workflow file,
    whatever the chain application did to its copy.
   */
  lemma BeforeIsUntouched(loraPairs: seq<Json>, isFlf2v: bool, scriptDir: string, pathExists: string -> bool,
                          load: string -> Graph, apply1: (Graph, seq<Json>, ChainIds, bool) -> Option<Graph>,
                          apply2: (Graph, seq<Json>, ChainIds, bool) -> Option<Graph>)
    requires ChainTest(loraPairs, isFlf2v, scriptDir, pathExists, load, apply1).Some?
    requires ChainTest(loraPairs, isFlf2v, scriptDir, pathExists, load, apply2).Some?
    ensures ChainTest(loraPairs, isFlf2v, scriptDir, pathExists, load, apply1).value.before
         == load(PosixPath.Join(scriptDir, WorkflowFileFor(isFlf2v)))
         == ChainTest(loraPairs, isFlf2v, scriptDir, pathExists, load, apply2).value.before
  {
  }

  /**
    Both reported chains are read off the patched graph: no node twice, each
    entry linked to the next by its `model` input, starting at its sampling
    node when that node exists, and stopped only where the walk must stop.
   */
  lemma ChainTestChainsAreWalks(loraPairs: seq<Json>, isFlf2v: bool, scriptDir: string, pathExists: string -> bool,
                                load: string -> Graph, applyChain: (Graph, seq<Json>, ChainIds, bool) -> Option<Graph>)
    requires ChainTest(loraPairs, isFlf2v, scriptDir, pathExists, load, applyChain).Some?
    ensures var r := ChainTest(loraPairs, isFlf2v, scriptDir, pathExists, load, applyChain).value;
            var ids := IdsFor(isFlf2v);
      && DistinctNodes(r.highChain) && Linked(r.after, r.highChain)
      && DistinctNodes(r.lowChain) && Linked(r.after, r.lowChain)
      && (ids.highSampling in r.after <==> r.highChain != [])
      && (ids.lowSampling in r.after <==> r.lowChain != [])
      && (r.highChain != [] ==> r.highChain[0].nodeId == ids.highSampling && StoppedAtEnd(r.after, r.highChain, {}))
      && (r.lowChain != [] ==> r.lowChain[0].nodeId == ids.lowSampling && StoppedAtEnd(r.after, r.lowChain, {}))
  {
    var r := ChainTest(loraPairs, isFlf2v, scriptDir, pathExists, load, applyChain).value;
    var ids := IdsFor(isFlf2v);
    WalkVisitsDistinct(r.after, ids.highSampling, {});
    WalkLinks(r.after, ids.highSampling, {});
    WalkVisitsDistinct(r.after, ids.lowSampling, {});
    WalkLinks(r.after, ids.lowSampling, {});
    if r.highChain != [] {
      WalkStopsAtEnd(r.after, ids.highSampling, {});
    }
    if r.lowChain != [] {
      WalkStopsAtEnd(r.after, ids.lowSampling, {});
    }
  }

  /** Without pairs `apply_lora_chain` is never called: the graph is unchanged and no node is new. */
  lemma NoPairsNoChange(isFlf2v: bool, scriptDir: string, pathExists: string -> bool, load: string -> Graph,
                        applyChain: (Graph, seq<Json>, ChainIds, bool) -> Option<Graph>)
    requires ChainTest([], isFlf2v, scriptDir, pathExists, load, applyChain).Some?
    ensures var r := ChainTest([], isFlf2v, scriptDir, pathExists, load, applyChain).value;
            r.after == r.before && r.newNodes == {}
  {
  }
}

=== FILE: image_input.dfy ===
/**
  Input normalisation in handler.py: turning the job's `image_base64` or
  `image_path` into a PNG named after its task id in ComfyUI's input directory.

  The host is a parameter: the working directory, the home directories used by
  `~` expansion, `os.path.abspath`, `os.path.exists` and reading a file. The
  image codec (PIL) is a parameter too: whether bytes open as an image, the
  image's mode, and whether a mode conversion succeeds.
 */
module ImageInput {
  import opened Wrappers
  import opened Json
  import opened PyText
  import opened PosixPath
  import opened Base64

  /** The value of DEFAULT_IMAGE_PATH when the environment does not set it. */
  const DEFAULT_IMAGE_PATH: string := "/example_image.png"

  /** The value of RUNPOD_VOLUME_MOUNT when the environment does not set it. */
  const RUNPOD_VOLUME_MOUNT: string := "/runpod-volume"

  /** Environment-driven configuration read once at start-up. */
  datatype Config = Config(defaultImagePath: string, volumeMount: string)

  const DEFAULT_CONFIG: Config := Config(DEFAULT_IMAGE_PATH, RUNPOD_VOLUME_MOUNT)

  /** What the code asks of the machine it runs on. */
  datatype Host = Host(
    cwd: string,
    home: Option<string>,
    homeOf: string -> Option<string>,
    absPath: string -> string,
    pathExists: string -> bool,
    read: string -> Option<seq<byte>>)

  /** What the code asks of PIL. */
  datatype Codec = Codec(
    opens: seq<byte> -> bool,
    modeOf: seq<byte> -> string,
    converts: (seq<byte>, string) -> bool)

  /** The exceptions input preparation can raise, grouped as the handler groups them. */
  datatype ImageError =
    | BlankBase64
    | MalformedDataUri
    | Base64DecodeFailed
    | InvalidImage
    | ConversionFailed(mode: string)
    | BlankPath
    | PathNotFound(normalized: string)
    | ReadFailed(path: string)
    | InputNotObject

  /** The Python exception class behind each error, which decides the handler's message. */
  datatype ExceptionClass = FileNotFoundError | ValueError | OtherError

  function ClassOf(e: ImageError): ExceptionClass {
    match e
    case BlankPath | PathNotFound(_) => FileNotFoundError
    case ReadFailed(_) | InputNotObject => OtherError
    case _ => ValueError
  }

  /**
    `str(exc)` for each error. `detail` stands for the text of an exception
    raised inside PIL, the operating system or Python itself, which the model
    does not reproduce.
   */
  function ExceptionText(e: ImageError, detail: string): string {
    match e
    case BlankBase64 => "Base64 이미지 데이터가 비어 있습니다."
    case MalformedDataUri => "Base64 이미지 데이터 형식이 올바르지 않습니다."
    case Base64DecodeFailed => "Base64 이미지 디코딩 실패"
    case InvalidImage => "유효하지 않은 이미지 데이터입니다."
    case BlankPath => "이미지 경로가 비어 있습니다."
    case PathNotFound(normalized) => normalized
    case ConversionFailed(_) | ReadFailed(_) | InputNotObject => detail
  }

  // ---------------------------------------------------------------------------
  // _strip_base64_header (handler.py:63-72)
  // ---------------------------------------------------------------------------

  /** `s.partition(",")[2]`: the text after the first comma, empty when there is none. */
  function AfterFirstComma(s: string): (r: string)
    ensures ',' !in s ==> r == []
    ensures ',' in s ==> exists i :: 0 <= i < |s| && s[i] == ',' && ',' !in s[..i] && r == s[i + 1..]
  {
    match IndexOf(s, ',')
    case None => []
    case Some(i) => s[i + 1..]
  }

  /**
    Strips surrounding whitespace and an optional `data:...,` header from the
    Base64 text. The result is never empty.
   */
  function StripBase64Header(data: Json): (r: Result<string, ImageError>)
    ensures (!data.JStr? || IsBlank(data.s)) <==> r == Failure(BlankBase64)
    ensures r.Success? ==> r.value != []
    ensures r.Success? && !StartsWith(Strip(data.s), "data:") ==> r.value == Strip(data.s)
    ensures data.JStr? && StartsWith(Strip(data.s), "data:") ==>
      (r == Failure(MalformedDataUri) <==> AfterFirstComma(Strip(data.s)) == [])
    ensures r.Success? && StartsWith(Strip(data.s), "data:") ==>
      exists i :: 0 <= i < |Strip(data.s)| && Strip(data.s)[i] == ',' && ',' !in Strip(data.s)[..i]
               && r.value == Strip(data.s)[i + 1..]
  {
    if !data.JStr? || IsBlank(data.s) then Failure(BlankBase64)
    else
      var cleaned := Strip(data.s);
      if StartsWith(cleaned, "data:") then
        var payload := AfterFirstComma(cleaned);
        if payload == [] then Failure(MalformedDataUri) else Success(payload)
      else
        Success(cleaned)
  }

  // ---------------------------------------------------------------------------
  // _resolve_image_path (handler.py:75-103)
  // ---------------------------------------------------------------------------

  predicate NoDuplicates(xs: seq<string>) {
    forall i, j :: 0 <= i < j < |xs| ==> xs[i] != xs[j]
  }

  /**
    The paths tried for a normalised input, before `abspath` and before
    duplicates are dropped: the input itself, then the input without leading
    slashes under the working directory and under the volume mount, then (for
    a relative input) the input under the same two roots.
   */
  function RawCandidates(normalized: string, cwd: string, volume: string): (raw: seq<string>)
    ensures |raw| >= 1 && raw[0] == normalized
  {
    var sanitized := LStripChar(normalized, SEP);
    [normalized]
    + (if sanitized != [] then [Join(cwd, sanitized), Join(volume, sanitized)] else [])
    + (if !IsAbs(normalized) then [Join(cwd, normalized), Join(volume, normalized)] else [])
  }

  /** `abspath` of every raw path, in order, duplicates kept. */
  function AbsAll(raw: seq<string>, absPath: string -> string): (r: seq<string>)
    ensures |r| == |raw| && forall k :: 0 <= k < |raw| ==> r[k] == absPath(raw[k])
  {
    if raw == [] then [] else [absPath(raw[0])] + AbsAll(raw[1..], absPath)
  }

  /** `_add_candidate` applied to each raw path in turn. */
  function AddCandidates(acc: seq<string>, raw: seq<string>, absPath: string -> string): (cs: seq<string>)
    requires NoDuplicates(acc)
    ensures NoDuplicates(cs)
    ensures |acc| <= |cs| && cs[..|acc|] == acc
    ensures forall c :: c in cs <==> c in acc || c in AbsAll(raw, absPath)
    decreases |raw|
  {
    if raw == [] then acc
    else
      var c := absPath(raw[0]);
      var next := if c in acc then acc else acc + [c];
      var cs := AddCandidates(next, raw[1..], absPath);
      assert cs[..|acc|] == cs[..|next|][..|acc|];
      assert AbsAll(raw, absPath) == [c] + AbsAll(raw[1..], absPath);
      cs
  }

  /** The candidate list `_resolve_image_path` builds. */
  function Candidates(normalized: string, host: Host, volume: string): (cs: seq<string>)
    ensures |cs| >= 1 && cs[0] == host.absPath(normalized)
    ensures NoDuplicates(cs)
    ensures forall c :: c in cs <==> c in AbsAll(RawCandidates(normalized, host.cwd, volume), host.absPath)
  {
    var raw := RawCandidates(normalized, host.cwd, volume);
    var cs := AddCandidates([], raw, host.absPath);
    assert raw[0] == normalized;
    assert host.absPath(normalized) in cs;
    assert cs[0] == host.absPath(normalized) by {
      assert cs[..|[host.absPath(raw[0])]|] == AddCandidates([host.absPath(raw[0])], raw[1..], host.absPath)[..1];
    }
    cs
  }

  /** The first path in `cs` that exists. */
  function FirstExisting(cs: seq<string>, present: string -> bool): (r: Option<string>)
    ensures r.None? <==> forall k :: 0 <= k < |cs| ==> !present(cs[k])
    ensures r.None? ==> forall c :: c in cs ==> !present(c)
    ensures r.Some? ==> r.value in cs && present(r.value)
    ensures r.Some? ==> exists i :: 0 <= i < |cs| && cs[i] == r.value && present(r.value)
                                   && forall k :: 0 <= k < i ==> !present(cs[k])
  {
    if cs == [] then None
    else if present(cs[0]) then Some(cs[0])
    else
      var r := FirstExisting(cs[1..], present);
      assert forall k :: 0 <= k < |cs[1..]| ==> cs[1..][k] == cs[k + 1];
      if r.Some? then
        var i :| 0 <= i < |cs[1..]| && cs[1..][i] == r.value && present(r.value)
                 && forall k :: 0 <= k < i ==> !present(cs[1..][k]);
        assert cs[i + 1] == r.value;
        r
      else
        r
  }

  /** The `~`-expanded, stripped input that `_resolve_image_path` works from. */
  function NormalizedPath(s: string, host: Host): string {
    ExpandUser(Strip(s), host.home, host.homeOf)
  }

  /** The search itself, from an already normalised input. */
  function FindCandidate(normalized: string, host: Host, volume: string): (r: Result<string, ImageError>)
    ensures r.Success? ==> host.pathExists(r.value) && r.value in Candidates(normalized, host, volume)
    ensures r.Failure? ==> r.error == PathNotFound(normalized)
    ensures r.Failure? ==> NoneExist(Candidates(normalized, host, volume), host.pathExists)
  {
    SearchCandidates(Candidates(normalized, host, volume), host.pathExists, normalized)
  }

  /** No path of `cs` exists. */
  ghost predicate NoneExist(cs: seq<string>, present: string -> bool) {
    forall c :: c in cs ==> !present(c)
  }

  /** The first existing path of `cs`, or the not-found error naming `normalized`. */
  function SearchCandidates(cs: seq<string>, present: string -> bool, normalized: string): (r: Result<string, ImageError>)
    ensures r.Success? ==> present(r.value) && r.value in cs
    ensures r.Failure? ==> r.error == PathNotFound(normalized)
    ensures r.Failure? ==> NoneExist(cs, present)
  {
    match FirstExisting(cs, present)
    case Some(c) => Success(c)
    case None => Failure(PathNotFound(normalized))
  }

  /**
    `_resolve_image_path`: the first candidate that exists; FileNotFoundError
    for a blank or non-string input, or carrying the normalised input when no
    candidate exists (see ResolveFindsExistingCandidate).
   */
  function ResolveImagePath(input: Json, host: Host, config: Config): (r: Result<string, ImageError>)
    ensures (!input.JStr? || IsBlank(input.s)) <==> r == Failure(BlankPath)
    ensures r.Failure? ==> ClassOf(r.error) == FileNotFoundError
  {
    if !input.JStr? || IsBlank(input.s) then Failure(BlankPath)
    else
      var r := SearchText(input.s, host, config);
      assert r != Failure(BlankPath);
      r
  }

  /** The search for a non-blank text input; it can only fail with the not-found error. */
  function SearchText(s: string, host: Host, config: Config): (r: Result<string, ImageError>)
    ensures r.Failure? ==> r.error.PathNotFound?
  {
    FindCandidate(NormalizedPath(s, host), host, config.volumeMount)
  }

  /**
    For a non-blank text input the resolved path is an existing candidate of
    the normalised input, and the failure names that input after every
    candidate was found missing.
   */
  lemma ResolveFindsExistingCandidate(s: string, host: Host, config: Config)
    requires !IsBlank(s)
    ensures var r := ResolveImagePath(JStr(s), host, config);
            var cs := Candidates(NormalizedPath(s, host), host, config.volumeMount);
            && (r.Success? ==> host.pathExists(r.value) && r.value in cs)
            && (r.Failure? ==> r.error == PathNotFound(NormalizedPath(s, host)) && forall c :: c in cs ==> !host.pathExists(c))
  {
    var n := NormalizedPath(s, host);
    assert ResolveImagePath(JStr(s), host, config) == FindCandidate(n, host, config.volumeMount);
  }

  /**
    Dropping duplicates does not change which path is found first: the first
    existing candidate is the first existing `abspath` of the raw paths, in
    the order they were added.
   */
  lemma {:induction false} DedupKeepsFirstExisting(acc: seq<string>, raw: seq<string>, absPath: string -> string, present: string -> bool)
    requires NoDuplicates(acc)
    ensures FirstExisting(AddCandidates(acc, raw, absPath), present) == FirstExisting(acc + AbsAll(raw, absPath), present)
    decreases |raw|
  {
    if raw == [] {
      assert acc + AbsAll(raw, absPath) == acc;
    } else {
      var c := absPath(raw[0]);
      var rest := AbsAll(raw[1..], absPath);
      assert acc + AbsAll(raw, absPath) == acc + [c] + rest;
      if c in acc {
        DedupKeepsFirstExisting(acc, raw[1..], absPath, present);
        SkipKnownCandidate(acc, c, rest, present);
      } else {
        DedupKeepsFirstExisting(acc + [c], raw[1..], absPath, present);
      }
    }
  }

  /** A path already in the list can be tried again without changing the first hit. */
  lemma {:induction false} SkipKnownCandidate(acc: seq<string>, c: string, rest: seq<string>, present: string -> bool)
    requires c in acc
    ensures FirstExisting(acc + [c] + rest, present) == FirstExisting(acc + rest, present)
    decreases |acc|
  {
    var s, u := acc + [c] + rest, acc + rest;
    assert s[0] == acc[0] && u[0] == acc[0];
    if !present(acc[0]) {
      assert acc[0] != c || !present(c);
      if acc[0] == c {
        assert s[1..] == acc[1..] + [c] + rest;
        assert u[1..] == acc[1..] + rest;
        if c in acc[1..] {
          SkipKnownCandidate(acc[1..], c, rest, present);
        } else {
          NonExistingIsSkipped(acc[1..], c, rest, present);
        }
      } else {
        assert c in acc[1..];
        assert s[1..] == acc[1..] + [c] + rest;
        assert u[1..] == acc[1..] + rest;
        SkipKnownCandidate(acc[1..], c, rest, present);
      }
    }
  }

  /** A path that does not exist never changes the first hit. */
  lemma {:induction false} NonExistingIsSkipped(acc: seq<string>, c: string, rest: seq<string>, present: string -> bool)
    requires !present(c)
    ensures FirstExisting(acc + [c] + rest, present) == FirstExisting(acc + rest, present)
    decreases |acc|
  {
    if acc == [] {
      assert acc + [c] + rest == [c] + rest && ([c] + rest)[1..] == rest && acc + rest == rest;
    } else {
      var s, u := acc + [c] + rest, acc + rest;
      assert s[0] == acc[0] && u[0] == acc[0];
      assert s[1..] == acc[1..] + [c] + rest && u[1..] == acc[1..] + rest;
      NonExistingIsSkipped(acc[1..], c, rest, present);
    }
  }

  /**
    `_resolve_image_path` returns the `abspath` of the first raw candidate
    (input itself, then cwd and volume roots) whose `abspath` exists.
   */
  lemma ResolveIsFirstExistingRawCandidate(s: string, host: Host, config: Config)
    requires !IsBlank(s)
    ensures var raw := RawCandidates(NormalizedPath(s, host), host.cwd, config.volumeMount);
            var r := ResolveImagePath(JStr(s), host, config);
            match FirstExisting(AbsAll(raw, host.absPath), host.pathExists)
            case Some(c) => r == Success(c)
            case None => r == Failure(PathNotFound(NormalizedPath(s, host)))
  {
    var n := NormalizedPath(s, host);
    CandidatesFindFirstRaw(n, host, config.volumeMount);
    assert ResolveImagePath(JStr(s), host, config) == FindCandidate(n, host, config.volumeMount);
  }

  /** The candidate list finds what the raw list, with duplicates kept, finds. */
  lemma CandidatesFindFirstRaw(n: string, host: Host, volume: string)
    ensures FirstExisting(Candidates(n, host, volume), host.pathExists)
         == FirstExisting(AbsAll(RawCandidates(n, host.cwd, volume), host.absPath), host.pathExists)
  {
    var raw := RawCandidates(n, host.cwd, volume);
    DedupKeepsFirstExisting([], raw, host.absPath, host.pathExists);
    assert [] + AbsAll(raw, host.absPath) == AbsAll(raw, host.absPath);
  }

  /** A relative path gives at most three distinct candidates: the last two raw paths repeat the middle two. */
  lemma RelativeInputHasAtMostThreeCandidates(n: string, host: Host, volume: string)
    requires !IsAbs(n)
    ensures |Candidates(n, host, volume)| <= 3
  {
    RelativeRawCandidates(n, host.cwd, volume);
    ImagesOfThree(Candidates(n, host, volume), RawCandidates(n, host.cwd, volume), host.absPath,
                  n, Join(host.cwd, n), Join(volume, n));
  }

  /** Distinct images of a list drawn from three values number at most three. */
  lemma ImagesOfThree(cs: seq<string>, raw: seq<string>, f: string -> string, x: string, y: string, z: string)
    requires NoDuplicates(cs)
    requires forall c :: c in cs ==> c in AbsAll(raw, f)
    requires forall k :: 0 <= k < |raw| ==> raw[k] == x || raw[k] == y || raw[k] == z
    ensures |cs| <= 3
  {
    var three := {f(x), f(y), f(z)};
    forall c | c in cs ensures c in three {
      var k :| 0 <= k < |raw| && AbsAll(raw, f)[k] == c;
    }
    DistinctWithin(cs, three);
  }

  lemma RelativeRawCandidates(n: string, cwd: string, volume: string)
    requires !IsAbs(n)
    ensures var raw := RawCandidates(n, cwd, volume);
            forall k :: 0 <= k < |raw| ==> raw[k] == n || raw[k] == Join(cwd, n) || raw[k] == Join(volume, n)
  {
    var a, b := Join(cwd, n), Join(volume, n);
    assert LStripChar(n, SEP) == n;
    var raw := RawCandidates(n, cwd, volume);
    if n == [] {
      assert raw == [n] + [] + [a, b];
      assert raw == [n, a, b];
    } else {
      assert raw == [n] + [a, b] + [a, b];
      assert raw == [n, a, b, a, b];
    }
  }

  /** A duplicate-free list drawn from a set is no longer than the set. */
  lemma {:induction false} DistinctWithin(cs: seq<string>, universe: set<string>)
    requires NoDuplicates(cs)
    requires forall c :: c in cs ==> c in universe
    ensures |cs| <= |universe|
    decreases |cs|
  {
    if cs != [] {
      var rest := cs[1..];
      assert forall c :: c in rest ==> c in universe - {cs[0]};
      DistinctWithin(rest, universe - {cs[0]});
    }
  }

  // ---------------------------------------------------------------------------
  // _normalise_image_mode (handler.py:105-116)
  // ---------------------------------------------------------------------------

  /** Modes kept as they are. */
  predicate IsKeptMode(mode: string) {
    mode == "RGB" || mode == "RGBA" || mode == "L"
  }

  /** Modes explicitly converted to RGB. */
  predicate IsRgbConvertedMode(mode: string) {
    mode == "CMYK" || mode == "YCbCr" || mode == "P" || mode == "HSV" || mode == "I" || mode == "I;16" || mode == "F"
  }

  /**
    The mode an image ends up in; `converts(target)` says whether PIL's
    conversion to `target` succeeds. A failed conversion of LA or of the
    listed modes propagates as an error; for any other mode it leaves the
    image unchanged.
   */
  function NormaliseImageMode(mode: string, converts: string -> bool): (r: Result<string, ImageError>)
    ensures IsKeptMode(mode) ==> r == Success(mode)
    ensures r.Success? ==> IsKeptMode(r.value) || (r.value == mode && !converts("RGB"))
    ensures r.Success? && mode == "LA" ==> r.value == "RGBA"
    ensures r.Success? && !IsKeptMode(mode) && mode != "LA" && converts("RGB") ==> r.value == "RGB"
    ensures !IsKeptMode(mode) && mode != "LA" && !IsRgbConvertedMode(mode) && !converts("RGB") ==> r == Success(mode)
    ensures r.Failure? <==> (mode == "LA" && !converts("RGBA")) || (IsRgbConvertedMode(mode) && !converts("RGB"))
    ensures r.Failure? ==> ClassOf(r.error) == ValueError
  {
    if IsKeptMode(mode) then Success(mode)
    else if mode == "LA" then
      if converts("RGBA") then Success("RGBA") else Failure(ConversionFailed(mode))
    else if IsRgbConvertedMode(mode) then
      if converts("RGB") then Success("RGB") else Failure(ConversionFailed(mode))
    else if converts("RGB") then Success("RGB")
    else Success(mode)
  }

  /** Normalising twice is normalising once. */
  lemma NormaliseImageModeIdempotent(mode: string, converts: string -> bool)
    requires NormaliseImageMode(mode, converts).Success?
    ensures NormaliseImageMode(NormaliseImageMode(mode, converts).value, converts)
         == NormaliseImageMode(mode, converts)
  {
  }

  // ---------------------------------------------------------------------------
  // _write_image_to_comfy, _copy_into_comfy_input, _save_base64_image,
  // prepare_image_asset (handler.py:119-160)
  // ---------------------------------------------------------------------------

  /** The file name written into ComfyUI's input directory for a task. */
  function ComfyFileName(taskId: string): string {
    taskId + ".png"
  }

  /** The bytes open as an image whose mode normalises: what `_write_image_to_comfy` needs to save them. */
  predicate WritesAsImage(bytes: seq<byte>, codec: Codec) {
    codec.opens(bytes) && NormaliseImageMode(codec.modeOf(bytes), t => codec.converts(bytes, t)).Success?
  }

  /** `_write_image_to_comfy`: open, normalise the mode, save as `<task>.png`. */
  function WriteImageToComfy(bytes: seq<byte>, taskId: string, codec: Codec): (r: Result<string, ImageError>)
    ensures r.Success? <==> WritesAsImage(bytes, codec)
    ensures r.Success? ==> r.value == ComfyFileName(taskId)
    ensures !codec.opens(bytes) ==> r == Failure(InvalidImage)
  {
    if !codec.opens(bytes) then Failure(InvalidImage)
    else
      var _ :- NormaliseImageMode(codec.modeOf(bytes), t => codec.converts(bytes, t));
      Success(ComfyFileName(taskId))
  }

  /** `_save_base64_image`: strip the header, strict-decode, write. */
  function SaveBase64Image(data: Json, taskId: string, codec: Codec): (r: Result<string, ImageError>)
    ensures r.Success? ==> exists s :: StripBase64Header(data) == Success(s) && Decode(s).Some?
                                    && codec.opens(Decode(s).value)
    ensures StripBase64Header(data).Success? && Decode(StripBase64Header(data).value).None? ==>
      r == Failure(Base64DecodeFailed)
    ensures r.Failure? ==> ClassOf(r.error) == ValueError
    ensures r.Success? <==>
      && StripBase64Header(data).Success?
      && Decode(StripBase64Header(data).value).Some?
      && WritesAsImage(Decode(StripBase64Header(data).value).value, codec)
    ensures r.Success? ==> r.value == ComfyFileName(taskId)
    ensures StripBase64Header(data).Failure? ==> r == Failure(StripBase64Header(data).error)
  {
    var cleaned :- StripBase64Header(data);
    match Decode(cleaned)
    case None => Failure(Base64DecodeFailed)
    case Some(bytes) => WriteImageToComfy(bytes, taskId, codec)
  }

  /** `_copy_into_comfy_input`: read the file, write it as an image. */
  function CopyIntoComfyInput(path: string, taskId: string, host: Host, codec: Codec): (r: Result<string, ImageError>)
    ensures host.read(path).None? ==> r == Failure(ReadFailed(path))
    ensures r.Success? ==> host.read(path).Some? && codec.opens(host.read(path).value)
    ensures r.Success? <==> host.read(path).Some? && WritesAsImage(host.read(path).value, codec)
    ensures r.Success? ==> r.value == ComfyFileName(taskId)
    ensures host.read(path).Some? && !codec.opens(host.read(path).value) ==> r == Failure(InvalidImage)
  {
    match host.read(path)
    case None => Failure(ReadFailed(path))
    case Some(bytes) => WriteImageToComfy(bytes, taskId, codec)
  }

  /**
    `prepare_image_asset`: a truthy `image_base64` is decoded; otherwise
    `image_path`, or the configured default path when that is falsy, is
    resolved and copied.
   */
  function PrepareImageAsset(job: map<string, Json>, taskId: string, host: Host, config: Config, codec: Codec): (r: Result<string, ImageError>)
    ensures r.Success? ==> r.value == ComfyFileName(taskId)
    ensures Truthy(Get(job, "image_base64")) ==> r == SaveBase64Image(Get(job, "image_base64"), taskId, codec)
    ensures !Truthy(Get(job, "image_base64")) ==>
      var p := if Truthy(Get(job, "image_path")) then Get(job, "image_path") else JStr(config.defaultImagePath);
      && (ResolveImagePath(p, host, config).Failure? ==> r == Failure(ResolveImagePath(p, host, config).error))
      && (ResolveImagePath(p, host, config).Success? ==> r == CopyIntoComfyInput(ResolveImagePath(p, host, config).value, taskId, host, codec))
  {
    var b64 := Get(job, "image_base64");
    var path := Get(job, "image_path");
    if Truthy(b64) then SaveBase64Image(b64, taskId, codec)
    else
      var pathToUse := if Truthy(path) then path else JStr(config.defaultImagePath);
      var resolved :- ResolveImagePath(pathToUse, host, config);
      CopyIntoComfyInput(resolved, taskId, host, codec)
  }

  /** Only `image_base64` and `image_path` of the job are read: jobs that agree on them prepare the same image. */
  lemma PrepareReadsOnlyImageKeys(job1: map<string, Json>, job2: map<string, Json>, taskId: string, host: Host, config: Config, codec: Codec)
    requires Get(job1, "image_base64") == Get(job2, "image_base64") && Get(job1, "image_path") == Get(job2, "image_path")
    ensures PrepareImageAsset(job1, taskId, host, config, codec) == PrepareImageAsset(job2, taskId, host, config, codec)
  {
  }

  /** A truthy `image_base64` wins: whatever `image_path` holds does not matter. */
  lemma Base64WinsOverPath(job: map<string, Json>, otherPath: Json, taskId: string, host: Host, config: Config, codec: Codec)
    requires Truthy(Get(job, "image_base64"))
    ensures PrepareImageAsset(job["image_path" := otherPath], taskId, host, config, codec)
         == PrepareImageAsset(job, taskId, host, config, codec)
  {
    assert Get(job["image_path" := otherPath], "image_base64") == Get(job, "image_base64");
  }

  /** With no usable `image_base64`, a falsy `image_path` is the same as naming the default path. */
  lemma FalsyPathMeansDefault(job: map<string, Json>, taskId: string, host: Host, config: Config, codec: Codec)
    requires !Truthy(Get(job, "image_base64")) && !Truthy(Get(job, "image_path"))
    ensures PrepareImageAsset(job, taskId, host, config, codec)
         == PrepareImageAsset(job["image_path" := JStr(config.defaultImagePath)], taskId, host, config, codec)
  {
    var job' := job["image_path" := JStr(config.defaultImagePath)];
    assert Get(job', "image_base64") == Get(job, "image_base64");
    if config.defaultImagePath == [] {
      assert !Truthy(Get(job', "image_path"));
    }
  }
}

=== FILE: interop.dfy ===
/**
  What happens when the client's job input reaches the handler. The client
  sends the chosen image under `image` and never sends `seed` or `cfg`; the
  handler reads only `image_base64` and `image_path` and indexes `seed` and
  `cfg` directly. The LoRA pairs and the finished video do pass through.
 */
module Interop {
  import opened Wrappers
  import opened Json
  import Base64
  import ImageInput
  import Workflow
  import JobClient

  /** The job RunPod hands to the handler for a submitted input. */
  function JobOf(input: map<string, Json>): map<string, Json> {
    map["input" := JObj(input)]
  }

  /**
    The handler prepares the same image for every client request: the image
    the client chose is not among the keys it reads, so it falls back to its
    default image path.
   */
  lemma ClientImageIgnored(req: JobClient.Request, disk: JobClient.Disk, taskId: string, host: ImageInput.Host,
                           config: ImageInput.Config, codec: ImageInput.Codec)
    requires JobClient.Submission(req, disk).Success?
    ensures ImageInput.PrepareImageAsset(JobClient.Submission(req, disk).value, taskId, host, config, codec)
         == ImageInput.PrepareImageAsset(map[], taskId, host, config, codec)
  {
    ClientKeysPrepareDefault(JobClient.Submission(req, disk).value, taskId, host, config, codec);
  }

  /** No key the client can send is one `prepare_image_asset` reads. */
  lemma ClientKeysPrepareDefault(input: map<string, Json>, taskId: string, host: ImageInput.Host,
                                 config: ImageInput.Config, codec: ImageInput.Codec)
    requires input.Keys <= JobClient.CLIENT_KEYS
    ensures ImageInput.PrepareImageAsset(input, taskId, host, config, codec)
         == ImageInput.PrepareImageAsset(map[], taskId, host, config, codec)
  {
    assert "image_base64" !in JobClient.CLIENT_KEYS && "image_path" !in JobClient.CLIENT_KEYS;
    assert Get(input, "image_base64") == JNull == Get(map[], "image_base64");
    assert Get(input, "image_path") == JNull == Get(map[], "image_path");
    ImageInput.PrepareReadsOnlyImageKeys(input, map[], taskId, host, config, codec);
  }

  /**
    Once its image is prepared, a job shaped by the client (only keys the
    client can send) makes the handler raise KeyError: `seed` is missing.
   */
  lemma ClientJobRaises(input: map<string, Json>, taskId: string, host: ImageInput.Host,
                        config: ImageInput.Config, codec: ImageInput.Codec, server: Workflow.Server, detail: string)
    requires input.Keys <= JobClient.CLIENT_KEYS
    requires Workflow.PrepareInput(JObj(input), taskId, host, config, codec).Success?
    ensures Workflow.Handle(JobOf(input), taskId, host, config, codec, server, detail).Raised?
  {
    SeedNeverSent(input);
    var job := JobOf(input);
    assert Workflow.InputOf(job) == JObj(input);
    Workflow.MissingRequiredKeyRaises(job, taskId, host, config, codec, server, detail, "seed");
  }

  /**
    When the selected template holds nodes 260, 846 and 246, the exception
    is KeyError('seed'): the assignments before it succeed, as the client
    always sends `prompt`.
   */
  lemma ClientJobRaisesSeedKeyError(input: map<string, Json>, taskId: string, host: ImageInput.Host,
                                    config: ImageInput.Config, codec: ImageInput.Codec, server: Workflow.Server, detail: string)
    requires input.Keys <= JobClient.CLIENT_KEYS && "prompt" in input
    requires Workflow.PrepareInput(JObj(input), taskId, host, config, codec).Success?
    requires Workflow.SelectWorkflow(input).Success?
    requires server.templates(Workflow.SelectWorkflow(input).value.file).Some?
    requires var t := server.templates(Workflow.SelectWorkflow(input).value.file).value;
             "260" in t && "846" in t && "246" in t
    ensures Workflow.Handle(JobOf(input), taskId, host, config, codec, server, detail) == Workflow.Raised(Workflow.KeyError("seed"))
  {
    SeedNeverSent(input);
    var job := JobOf(input);
    assert Workflow.InputOf(job) == JObj(input);
    var imageFile := Workflow.PrepareInput(JObj(input), taskId, host, config, codec).value;
    var t := server.templates(Workflow.SelectWorkflow(input).value.file).value;
    Workflow.PatchFixedMissingSeed(t, input, imageFile);
    assert Workflow.BuildPrompt(input, imageFile, server) == Failure(Workflow.KeyError("seed"));
  }

  lemma SeedNeverSent(input: map<string, Json>)
    requires input.Keys <= JobClient.CLIENT_KEYS
    ensures "seed" !in input && "seed" in Workflow.REQUIRED_KEYS
  {
  }

  /** The client's LoRA list picks the handler template for its length, capped at three pairs. */
  lemma ClientPairsSelectTemplate(req: JobClient.Request, disk: JobClient.Disk, items: seq<Json>)
    requires JobClient.Submission(req, disk).Success?
    requires req.loraPairs == JArr(items) || (req.loraPairs == JNull && items == [])
    ensures var n := if |items| <= Workflow.MAX_LORA_PAIRS then |items| else Workflow.MAX_LORA_PAIRS;
      Workflow.SelectWorkflow(JobClient.Submission(req, disk).value)
        == Success(Workflow.Selection(Workflow.WORKFLOW_FILES[n], n, items[..n]))
  {
    var input := JobClient.Submission(req, disk).value;
    assert GetOr(input, "lora_pairs", JArr([])) == JArr(items);
  }

  /**
    The video the handler returns, once RunPod reports the job as completed
    with it as output, is saved by the client as exactly the bytes the
    handler encoded (an empty video counts as missing).
   */
  lemma HandlerVideoReachesDisk(job: map<string, Json>, taskId: string, host: ImageInput.Host, config: ImageInput.Config,
                                codec: ImageInput.Codec, server: Workflow.Server, detail: string, v: string,
                                jobId: string, outputPath: string, disk: JobClient.Disk)
    requires Workflow.Handle(job, taskId, host, config, codec, server, detail) == Workflow.Returned(Workflow.VideoBody(v))
    requires JobClient.MakeDirs(disk, JobClient.PosixPath.Dirname(outputPath))
    requires Base64.Decode(v).Some? ==> disk.write(outputPath, Base64.Decode(v).value)
    ensures Base64.Decode(v).Some?
    ensures JobClient.SaveVideoResult(JobClient.Completed(JObj(map["video" := JStr(v)]), jobId), outputPath, disk)
         == if v == [] then None else Base64.Decode(v)
  {
    JobClient.HandlerVideoSaved(v, jobId, outputPath, disk);
  }
}

=== FILE: jobclient.dfy ===
/**
  The RunPod client of generate_video_client.py: its Base64 helpers, how
  `create_video_from_image` chooses the start and end images and shapes the
  job input, the status loop of `wait_for_completion`, the guards of
  `save_video_result`, and the tally kept by `batch_process_images`. The
  filesystem, the HTTP session and the clock are parameters.
 */
module JobClient {
  import opened Wrappers
  import opened Json
  import opened PyText
  import opened Base64
  import opened Base64Lenient
  import PosixPath

  /** The part of the filesystem the client touches. */
  datatype Disk = Disk(
    pathExists: string -> bool,           // os.path.exists
    isDir: string -> bool,                // os.path.isdir
    listDir: string -> seq<string>,       // os.listdir
    read: string -> Option<seq<byte>>,    // open(path, 'rb').read(); None when it raises
    makeDirs: string -> bool,             // os.makedirs(path, exist_ok=True); false when it raises
    write: (string, seq<byte>) -> bool)   // open(path, 'wb').write(data); false when it raises

  /** `os.makedirs(d, exist_ok=True)` succeeds; for the empty path it raises FileNotFoundError. */
  predicate MakeDirs(disk: Disk, d: string) {
    d != [] && disk.makeDirs(d)
  }

  // ---------------------------------------------------------------------------
  // Base64 helpers (generate_video_client.py:46-129)
  // ---------------------------------------------------------------------------

  /** `encode_file_to_base64`: None when the file is missing or cannot be read. */
  function EncodeFile(path: string, disk: Disk): (r: Option<string>)
    ensures r.Some? <==> disk.pathExists(path) && disk.read(path).Some?
    ensures r.Some? ==> Decode(r.value) == disk.read(path)
  {
    if !disk.pathExists(path) then None
    else
      match disk.read(path)
      case None => None
      case Some(data) =>
        DecodeEncode(data);
        Some(Encode(data))
  }

  /** The `Union[str, bytes]` image arguments; NoImage is `None`. */
  datatype ImageArg = NoImage | PathOrText(text: string) | Raw(bytes: seq<byte>)

  /** `encode_image_to_base64`: an existing path's contents, or the bytes themselves. */
  function EncodeImage(data: ImageArg, disk: Disk): (r: Option<string>)
    ensures data.Raw? ==> r.Some? && Decode(r.value) == Some(data.bytes)
    ensures data.PathOrText? ==> r == EncodeFile(data.text, disk)
    ensures data.NoImage? ==> r == None
  {
    match data
    case NoImage => None
    case PathOrText(p) => EncodeFile(p, disk)
    case Raw(b) =>
      DecodeEncode(b);
      Some(Encode(b))
  }

  /**
    `decode_base64_to_file`: Some of the bytes written, or None for `False`.
    Decoding comes first, then the directory, then the write.
   */
  function DecodeToFile(b64: string, outputPath: string, disk: Disk): (r: Option<seq<byte>>)
    ensures r.Some? <==>
      && LenientDecode(b64).Some?
      && MakeDirs(disk, PosixPath.Dirname(outputPath))
      && disk.write(outputPath, LenientDecode(b64).value)
    ensures r.Some? ==> r == LenientDecode(b64)
  {
    match LenientDecode(b64)
    case None => None
    case Some(data) =>
      if MakeDirs(disk, PosixPath.Dirname(outputPath)) && disk.write(outputPath, data) then Some(data) else None
  }

  /** A file encoded by the client and decoded again is written back byte for byte. */
  lemma FileRoundTrip(path: string, outputPath: string, disk: Disk)
    requires EncodeFile(path, disk).Some?
    requires MakeDirs(disk, PosixPath.Dirname(outputPath)) && disk.write(outputPath, disk.read(path).value)
    ensures DecodeToFile(EncodeFile(path, disk).value, outputPath, disk) == disk.read(path)
  {
    LenientDecodeEncode(disk.read(path).value);
  }

  // ---------------------------------------------------------------------------
  // Image choice and job input (generate_video_client.py:263-369)
  // ---------------------------------------------------------------------------

  /** Which of the two images is being chosen: the messages differ, and only the start image is required. */
  datatype Role = StartImage | EndImage

  const NO_IMAGE_MESSAGE: string := "No image input provided"

  function EncodeFailedMessage(role: Role): string {
    match role
    case StartImage => "Failed to encode image bytes to base64"
    case EndImage => "Failed to encode end_image bytes to base64"
  }

  function MissingFileMessage(role: Role, path: string): string {
    match role
    case StartImage => "Image file does not exist: " + path
    case EndImage => "End image file does not exist: " + path
  }

  /** An `Optional[str]` argument that Python treats as true: given and non-empty. */
  predicate Given(o: Option<string>) {
    o.Some? && o.value != []
  }

  /**
    The image string sent to the handler, chosen from `image` (when it is not
    None), then `image_path`, then `image_url`, then `image_base64`. A text
    `image` is passed on as it is, whether or not it names a file; bytes are
    Base64-encoded. Failure carries the `error` message returned instead of
    submitting; Success(None) is an end image that was not asked for.
   */
  function PickImage(role: Role, image: ImageArg, path: Option<string>, url: Option<string>, b64: Option<string>,
                     disk: Disk): (r: Result<Option<string>, string>)
    ensures role == StartImage && r.Success? ==> r.value.Some?
    ensures image.PathOrText? ==> r == Success(Some(image.text))
    ensures image.Raw? ==> (r.Success? <==> image.bytes != [])
    ensures image.Raw? && r.Success? ==> r.value.Some? && Decode(r.value.value) == Some(image.bytes)
    ensures image.Raw? && r.Failure? ==> r.error == EncodeFailedMessage(role)
    ensures image.NoImage? && Given(path) ==>
      r == if disk.pathExists(path.value) then Success(Some(path.value)) else Failure(MissingFileMessage(role, path.value))
    ensures image.NoImage? && !Given(path) && Given(url) ==> r == Success(Some(url.value))
    ensures image.NoImage? && !Given(path) && !Given(url) && Given(b64) ==> r == Success(Some(b64.value))
    ensures image.NoImage? && !Given(path) && !Given(url) && !Given(b64) ==>
      r == if role == StartImage then Failure(NO_IMAGE_MESSAGE) else Success(None)
  {
    match image
    case PathOrText(text) => Success(Some(text))
    case Raw(bytes) =>
      var encoded := EncodeImage(image, disk).value;
      if encoded == [] then
        assert Decode([]) == Some([]);
        Failure(EncodeFailedMessage(role))
      else Success(Some(encoded))
    case NoImage =>
      if Given(path) then
        if disk.pathExists(path.value) then Success(Some(path.value)) else Failure(MissingFileMessage(role, path.value))
      else if Given(url) then Success(Some(url.value))
      else if Given(b64) then Success(Some(b64.value))
      else if role == StartImage then Failure(NO_IMAGE_MESSAGE)
      else Success(None)
  }

  /** Once `image` is given, the path, URL and Base64 alternatives are never looked at. */
  lemma ImageArgWins(role: Role, image: ImageArg, p1: Option<string>, u1: Option<string>, b1: Option<string>,
                     p2: Option<string>, u2: Option<string>, b2: Option<string>, disk: Disk)
    requires !image.NoImage?
    ensures PickImage(role, image, p1, u1, b1, disk) == PickImage(role, image, p2, u2, b2, disk)
  {
  }

  /** The URL wins over the Base64 text, and both lose to a usable path. */
  lemma UrlBeforeBase64(role: Role, path: Option<string>, url: Option<string>, b1: Option<string>, b2: Option<string>, disk: Disk)
    requires !Given(path) && Given(url)
    ensures PickImage(role, NoImage, path, url, b1, disk) == PickImage(role, NoImage, path, url, b2, disk) == Success(Some(url.value))
  {
  }

  /** Every key the client can put into a job's input. */
  const CLIENT_KEYS: set<string> :=
    {"image", "prompt", "width", "height", "length", "lora_pairs", "end_image", "negative_prompt"}

  /**
    `input_data`: the six fields always sent, `end_image` only when the chosen
    end image is truthy and `negative_prompt` only when it is truthy.
    `lora_pairs` of None is sent as an empty list; JNull stands for None.
   */
  function JobInput(image: string, prompt: string, width: int, height: int, length: int, loraPairs: Json,
                    endImage: Option<string>, negativePrompt: Option<string>): (r: map<string, Json>)
    ensures r.Keys <= CLIENT_KEYS
    ensures "image" in r && r["image"] == JStr(image)
    ensures "prompt" in r && r["prompt"] == JStr(prompt)
    ensures "width" in r && r["width"] == JInt(width)
    ensures "height" in r && r["height"] == JInt(height)
    ensures "length" in r && r["length"] == JInt(length)
    ensures "lora_pairs" in r && r["lora_pairs"] == (if loraPairs == JNull then JArr([]) else loraPairs)
    ensures "end_image" in r <==> Given(endImage)
    ensures "end_image" in r ==> r["end_image"] == JStr(endImage.value)
    ensures "negative_prompt" in r <==> Given(negativePrompt)
    ensures "negative_prompt" in r ==> r["negative_prompt"] == JStr(negativePrompt.value)
  {
    var base := map[
      "image" := JStr(image), "prompt" := JStr(prompt), "width" := JInt(width), "height" := JInt(height),
      "length" := JInt(length), "lora_pairs" := if loraPairs == JNull then JArr([]) else loraPairs];
    var withEnd := if Given(endImage) then base["end_image" := JStr(endImage.value)] else base;
    if Given(negativePrompt) then withEnd["negative_prompt" := JStr(negativePrompt.value)] else withEnd
  }

  const DEFAULT_PROMPT: string := "running man, grab the gun"
  const DEFAULT_WIDTH: int := 720
  const DEFAULT_HEIGHT: int := 1280
  const DEFAULT_LENGTH: int := 81

  /** The arguments of `create_video_from_image`; `loraPairs` is JNull for None. */
  datatype Request = Request(
    image: ImageArg, imagePath: Option<string>, imageUrl: Option<string>, imageBase64: Option<string>,
    endImage: ImageArg, endImagePath: Option<string>, endImageUrl: Option<string>, endImageBase64: Option<string>,
    prompt: string, negativePrompt: Option<string>, width: int, height: int, length: int, loraPairs: Json)

  /** Everything `create_video_from_image` does before `submit_job`: the input, or the error it returns. */
  function Submission(req: Request, disk: Disk): (r: Result<map<string, Json>, string>)
    ensures r.Success? <==>
      PickImage(StartImage, req.image, req.imagePath, req.imageUrl, req.imageBase64, disk).Success?
      && PickImage(EndImage, req.endImage, req.endImagePath, req.endImageUrl, req.endImageBase64, disk).Success?
    ensures r.Success? ==> "image" in r.value
    ensures r.Success? ==>
      r.value["image"] == JStr(PickImage(StartImage, req.image, req.imagePath, req.imageUrl, req.imageBase64, disk).value.value)
  {
    var start :- PickImage(StartImage, req.image, req.imagePath, req.imageUrl, req.imageBase64, disk);
    var end :- PickImage(EndImage, req.endImage, req.endImagePath, req.endImageUrl, req.endImageBase64, disk);
    Success(JobInput(start.value, req.prompt, req.width, req.height, req.length, req.loraPairs, end, req.negativePrompt))
  }

  /**
    A submitted input carries the request's prompt, size and length
    unchanged, and an end image exactly when one was chosen and is truthy.
   */
  lemma SubmissionCarriesRequest(req: Request, disk: Disk)
    requires Submission(req, disk).Success?
    ensures var input := Submission(req, disk).value;
      && input["prompt"] == JStr(req.prompt)
      && input["width"] == JInt(req.width) && input["height"] == JInt(req.height) && input["length"] == JInt(req.length)
      && ("end_image" in input <==>
            Given(PickImage(EndImage, req.endImage, req.endImagePath, req.endImageUrl, req.endImageBase64, disk).value))
      && ("negative_prompt" in input <==> Given(req.negativePrompt))
  {
    var start := PickImage(StartImage, req.image, req.imagePath, req.imageUrl, req.imageBase64, disk).value;
    var end := PickImage(EndImage, req.endImage, req.endImagePath, req.endImageUrl, req.endImageBase64, disk).value;
    assert Submission(req, disk).value
        == JobInput(start.value, req.prompt, req.width, req.height, req.length, req.loraPairs, end, req.negativePrompt);
  }

  // ---------------------------------------------------------------------------
  // Job results and the status loop (generate_video_client.py:164-221, 371-376)
  // ---------------------------------------------------------------------------

  /** The dictionaries `create_video_from_image` returns, by their `status`. */
  datatype JobResult =
    | Completed(output: Json, jobId: string)
    | Failed(error: Json, jobId: string)
    | Unknown(data: map<string, Json>, jobId: string)
    | TimedOut(jobId: string)
    | Refused(message: string)          // {"error": message}, no job running

  const SUBMIT_FAILED_MESSAGE: string := "Job submission failed"
  const UNKNOWN_ERROR: string := "Unknown error"

  /** `result.get('error', 'Unknown error')`. */
  function ErrorOf(r: JobResult): Json {
    match r
    case Failed(error, _) => error
    case Refused(message) => JStr(message)
    case _ => JStr(UNKNOWN_ERROR)
  }

  /** `result.get('job_id')`. */
  function JobIdOf(r: JobResult): Json {
    if r.Refused? then JNull else JStr(r.jobId)
  }

  /**
    What one status reply decides: None keeps polling. A request error (None
    reply) and the statuses IN_QUEUE and IN_PROGRESS keep polling; COMPLETED
    and FAILED end with the output or error; any other status ends as UNKNOWN
    with the whole reply.
   */
  function Classify(reply: Option<map<string, Json>>, jobId: string): (r: Option<JobResult>)
    ensures r.None? <==> reply.None? || Get(reply.value, "status") in {JStr("IN_QUEUE"), JStr("IN_PROGRESS")}
    ensures r.Some? && Get(reply.value, "status") == JStr("COMPLETED") ==> r.value == Completed(Get(reply.value, "output"), jobId)
    ensures r.Some? && Get(reply.value, "status") == JStr("FAILED") ==>
      r.value == Failed(GetOr(reply.value, "error", JStr(UNKNOWN_ERROR)), jobId)
    ensures r.Some? && Get(reply.value, "status") !in {JStr("COMPLETED"), JStr("FAILED")} ==> r.value == Unknown(reply.value, jobId)
  {
    match reply
    case None => None
    case Some(data) =>
      var status := Get(data, "status");
      if status == JStr("COMPLETED") then Some(Completed(Get(data, "output"), jobId))
      else if status == JStr("FAILED") then Some(Failed(GetOr(data, "error", JStr(UNKNOWN_ERROR)), jobId))
      else if status == JStr("IN_QUEUE") || status == JStr("IN_PROGRESS") then None
      else Some(Unknown(data, jobId))
  }

  /**
    One turn of the loop: `at` is what `time.time()` read in the loop
    condition, `reply` the status dictionary, or None for a RequestException.
   */
  datatype Poll = Poll(at: int, reply: Option<map<string, Json>>)

  /** The loop goes round again after this poll. */
  predicate Pending(p: Poll, start: int, maxWait: int, jobId: string) {
    p.at - start < maxWait && Classify(p.reply, jobId).None?
  }

  /** How a poll that does not keep polling ends the wait. */
  function Decision(p: Poll, start: int, maxWait: int, jobId: string): JobResult
    requires !Pending(p, start, maxWait, jobId)
  {
    if p.at - start >= maxWait then TimedOut(jobId) else Classify(p.reply, jobId).value
  }

  /** Poll `i` is the first that does not keep polling. */
  predicate FirstDecisive(polls: seq<Poll>, i: int, start: int, maxWait: int, jobId: string) {
    && 0 <= i < |polls|
    && !Pending(polls[i], start, maxWait, jobId)
    && forall k :: 0 <= k < i ==> Pending(polls[k], start, maxWait, jobId)
  }

  /**
    `wait_for_completion` over the observed polls. None means the observations
    ran out while the loop would still be polling.
   */
  function Wait(jobId: string, start: int, maxWait: int, polls: seq<Poll>): (r: Option<JobResult>)
    ensures r.None? <==> forall k :: 0 <= k < |polls| ==> Pending(polls[k], start, maxWait, jobId)
    ensures r.Some? ==> exists i :: FirstDecisive(polls, i, start, maxWait, jobId)
                                 && r.value == Decision(polls[i], start, maxWait, jobId)
    decreases |polls|
  {
    if polls == [] then None
    else if !Pending(polls[0], start, maxWait, jobId) then
      assert FirstDecisive(polls, 0, start, maxWait, jobId);
      Some(Decision(polls[0], start, maxWait, jobId))
    else
      var r := Wait(jobId, start, maxWait, polls[1..]);
      assert forall k :: 0 <= k < |polls[1..]| ==> polls[1..][k] == polls[k + 1];
      if r.Some? then
        var i :| FirstDecisive(polls[1..], i, start, maxWait, jobId) && r.value == Decision(polls[1..][i], start, maxWait, jobId);
        assert FirstDecisive(polls, i + 1, start, maxWait, jobId);
        r
      else
        r
  }

  /** A clock reading past the deadline ends the wait, at that poll or before, with a job id. */
  lemma DeadlineEndsWait(jobId: string, start: int, maxWait: int, polls: seq<Poll>, k: int)
    requires 0 <= k < |polls| && polls[k].at - start >= maxWait
    ensures Wait(jobId, start, maxWait, polls).Some?
    ensures !Wait(jobId, start, maxWait, polls).value.Refused?
  {
    assert !Pending(polls[k], start, maxWait, jobId);
  }

  /** Request errors never end the wait before the deadline. */
  lemma RequestErrorKeepsPolling(jobId: string, start: int, maxWait: int, p: Poll, polls: seq<Poll>)
    requires p.reply.None? && p.at - start < maxWait
    ensures Wait(jobId, start, maxWait, [p] + polls) == Wait(jobId, start, maxWait, polls)
  {
    assert ([p] + polls)[1..] == polls;
  }

  /** The loop itself, one poll per turn. */
  method WaitForCompletion(jobId: string, start: int, maxWait: int, polls: seq<Poll>) returns (r: Option<JobResult>)
    ensures r.None? ==> forall k :: 0 <= k < |polls| ==> Pending(polls[k], start, maxWait, jobId)
    ensures r.Some? ==> exists i :: FirstDecisive(polls, i, start, maxWait, jobId)
                                 && r.value == Decision(polls[i], start, maxWait, jobId)
  {
    var i := 0;
    while i < |polls|
      invariant 0 <= i <= |polls|
      invariant forall k :: 0 <= k < i ==> Pending(polls[k], start, maxWait, jobId)
    {
      var p := polls[i];
      if p.at - start >= maxWait {
        assert FirstDecisive(polls, i, start, maxWait, jobId);
        return Some(TimedOut(jobId));
      }
      var c := Classify(p.reply, jobId);
      if c.Some? {
        assert FirstDecisive(polls, i, start, maxWait, jobId);
        return c;
      }
      i := i + 1;
    }
    return None;
  }

  /**
    `create_video_from_image`: refuse with a message, or submit and wait.
    `submit` stands for `submit_job` (None or an empty id when it failed) and
    `wait` for `wait_for_completion` on the returned id.
   */
  function CreateVideo(req: Request, disk: Disk, submit: map<string, Json> -> Option<string>,
                       wait: string -> JobResult): (r: JobResult)
    ensures Submission(req, disk).Failure? ==> r == Refused(Submission(req, disk).error)
    ensures Submission(req, disk).Success? ==>
      var id := submit(Submission(req, disk).value);
      r == if id.Some? && id.value != [] then wait(id.value) else Refused(SUBMIT_FAILED_MESSAGE)
  {
    match Submission(req, disk)
    case Failure(message) => Refused(message)
    case Success(input) =>
      match submit(input)
      case None => Refused(SUBMIT_FAILED_MESSAGE)
      case Some(id) => if id == [] then Refused(SUBMIT_FAILED_MESSAGE) else wait(id)
  }

  /** A request refused before submission never reaches the endpoint: the session does not matter. */
  lemma RefusalSubmitsNothing(req: Request, disk: Disk, s1: map<string, Json> -> Option<string>, w1: string -> JobResult,
                              s2: map<string, Json> -> Option<string>, w2: string -> JobResult)
    requires Submission(req, disk).Failure?
    ensures CreateVideo(req, disk, s1, w1) == CreateVideo(req, disk, s2, w2)
    ensures CreateVideo(req, disk, s1, w1).Refused?
  {
  }

  /** With no start image at all the answer is `{"error": "No image input provided"}`. */
  lemma NoImageRefused(req: Request, disk: Disk, submit: map<string, Json> -> Option<string>, wait: string -> JobResult)
    requires req.image.NoImage? && !Given(req.imagePath) && !Given(req.imageUrl) && !Given(req.imageBase64)
    ensures CreateVideo(req, disk, submit, wait) == Refused(NO_IMAGE_MESSAGE)
  {
  }

  /** A start or end image path that does not exist is refused with the path in the message. */
  lemma MissingPathRefused(req: Request, disk: Disk, submit: map<string, Json> -> Option<string>, wait: string -> JobResult)
    requires req.image.NoImage? && Given(req.imagePath) && !disk.pathExists(req.imagePath.value)
    ensures CreateVideo(req, disk, submit, wait) == Refused(MissingFileMessage(StartImage, req.imagePath.value))
  {
  }

  // ---------------------------------------------------------------------------
  // Saving the video (generate_video_client.py:223-261)
  // ---------------------------------------------------------------------------

  /**
    `save_video_result`: Some of the bytes written, or None for `False`. Only
    a completed job whose output dictionary has a truthy `video` string is
    saved; an output that is not a dictionary or a `video` that is not text
    raises inside the `try` and also gives `False`.
   */
  function SaveVideoResult(result: JobResult, outputPath: string, disk: Disk): (r: Option<seq<byte>>)
    ensures r.Some? <==>
      && result.Completed? && result.output.JObj?
      && var video := Get(result.output.fields, "video");
      && video.JStr? && video.s != []
      && MakeDirs(disk, PosixPath.Dirname(outputPath))
      && LenientDecode(video.s).Some?
      && disk.write(outputPath, LenientDecode(video.s).value)
    ensures r.Some? ==> r == LenientDecode(Get(result.output.fields, "video").s)
  {
    if !result.Completed? || !result.output.JObj? then None
    else
      var video := Get(result.output.fields, "video");
      if !Truthy(video) || !MakeDirs(disk, PosixPath.Dirname(outputPath)) || !video.JStr? then None
      else
        match LenientDecode(video.s)
        case None => None
        case Some(data) => if disk.write(outputPath, data) then Some(data) else None
  }

  /**
    The handler's video, returned as `{"video": v}` in a completed job's
    output, is saved as exactly the bytes the handler encoded; an empty video
    counts as missing.
   */
  lemma HandlerVideoSaved(v: string, jobId: string, outputPath: string, disk: Disk)
    requires Decode(v).Some?
    requires MakeDirs(disk, PosixPath.Dirname(outputPath)) && disk.write(outputPath, Decode(v).value)
    ensures SaveVideoResult(Completed(JObj(map["video" := JStr(v)]), jobId), outputPath, disk)
         == if v == [] then None else Decode(v)
  {
    StrictImpliesLenient(v);
  }

  /** A job that did not complete is never saved, whatever its output. */
  lemma OnlyCompletedSaved(result: JobResult, outputPath: string, disk: Disk)
    requires !result.Completed?
    ensures SaveVideoResult(result, outputPath, disk) == None
  {
  }

  // ---------------------------------------------------------------------------
  // Batch processing (generate_video_client.py:378-488)
  // ---------------------------------------------------------------------------

  const VALID_EXTENSIONS: seq<string> := [".jpg", ".jpeg", ".png", ".bmp", ".tiff"]
  const SAVE_FAILED_MESSAGE: string := "Result save failed"

  /** The image files of a folder listing, in listing order: names whose lower-cased form ends in a valid extension. */
  function ImageFiles(names: seq<string>, exts: seq<string>): (r: seq<string>)
    ensures |r| <= |names|
    ensures forall k :: 0 <= k < |r| ==> r[k] in names && EndsWithAny(AsciiLower(r[k]), exts)
    ensures forall k :: 0 <= k < |names| && EndsWithAny(AsciiLower(names[k]), exts) ==> names[k] in r
  {
    if names == [] then []
    else
      var rest := ImageFiles(names[1..], exts);
      assert forall k :: 0 <= k < |names[1..]| ==> names[1..][k] == names[k + 1];
      if EndsWithAny(AsciiLower(names[0]), exts) then [names[0]] + rest else rest
  }

  /** `idx` picks `r` out of `names` at strictly increasing positions. */
  predicate Embeds(idx: seq<int>, r: seq<string>, names: seq<string>) {
    && |idx| == |r|
    && (forall k :: 0 <= k < |idx| ==> 0 <= idx[k] < |names| && names[idx[k]] == r[k])
    && (forall k :: 0 < k < |idx| ==> idx[k - 1] < idx[k])
  }

  /** An embedding into the tail of a listing, moved one position on, embeds into the listing past its head. */
  lemma EmbedsShift(idx: seq<int>, r: seq<string>, names: seq<string>) returns (shifted: seq<int>)
    requires names != [] && Embeds(idx, r, names[1..])
    ensures Embeds(shifted, r, names)
    ensures forall k :: 0 <= k < |shifted| ==> 1 <= shifted[k]
  {
    shifted := seq(|idx|, k requires 0 <= k < |idx| => idx[k] + 1);
    forall k | 0 <= k < |shifted| ensures 1 <= shifted[k] < |names| && names[shifted[k]] == r[k] {
      assert names[1..][idx[k]] == names[idx[k] + 1];
    }
  }

  /** Taking the head of a listing in front of an embedding past the head is again an embedding. */
  lemma EmbedsCons(idx: seq<int>, r: seq<string>, names: seq<string>)
    requires names != [] && Embeds(idx, r, names)
    requires forall k :: 0 <= k < |idx| ==> 1 <= idx[k]
    ensures Embeds([0] + idx, [names[0]] + r, names)
  {
    var full := [0] + idx;
    var fr := [names[0]] + r;
    forall k | 0 <= k < |full| ensures 0 <= full[k] < |names| && names[full[k]] == fr[k] {
      if k > 0 { assert full[k] == idx[k - 1] && fr[k] == r[k - 1]; }
    }
    forall k | 0 < k < |full| ensures full[k - 1] < full[k] {
      if k > 1 { assert full[k - 1] == idx[k - 2] && full[k] == idx[k - 1]; }
    }
  }

  /** The image files keep the listing order: they are a subsequence of the listing. */
  lemma {:induction false} ImageFilesInOrder(names: seq<string>, exts: seq<string>)
    ensures exists idx :: Embeds(idx, ImageFiles(names, exts), names)
    decreases |names|
  {
    if names == [] {
      assert Embeds([], ImageFiles(names, exts), names);
    } else {
      var rest := ImageFiles(names[1..], exts);
      ImageFilesInOrder(names[1..], exts);
      var idx :| Embeds(idx, rest, names[1..]);
      var shifted := EmbedsShift(idx, rest, names);
      if EndsWithAny(AsciiLower(names[0]), exts) {
        assert ImageFiles(names, exts) == [names[0]] + rest;
        EmbedsCons(shifted, rest, names);
        assert Embeds([0] + shifted, ImageFiles(names, exts), names);
      } else {
        assert ImageFiles(names, exts) == rest;
        assert Embeds(shifted, ImageFiles(names, exts), names);
      }
    }
  }

  /**
    Every image file name occurs as often as in the listing, and no other
    name occurs: together with ImageFilesInOrder, the result is exactly the
    listing's image files in listing order.
   */
  lemma {:induction false} ImageFilesCount(names: seq<string>, exts: seq<string>, x: string)
    ensures multiset(ImageFiles(names, exts))[x] == if EndsWithAny(AsciiLower(x), exts) then multiset(names)[x] else 0
    decreases |names|
  {
    if names != [] {
      var rest := ImageFiles(names[1..], exts);
      ImageFilesCount(names[1..], exts, x);
      assert names == [names[0]] + names[1..];
      assert multiset(names)[x] == multiset{names[0]}[x] + multiset(names[1..])[x];
      if EndsWithAny(AsciiLower(names[0]), exts) {
        assert ImageFiles(names, exts) == [names[0]] + rest;
        assert multiset([names[0]] + rest)[x] == multiset{names[0]}[x] + multiset(rest)[x];
      } else {
        assert ImageFiles(names, exts) == rest;
      }
    }
  }

  /** The settings the batch passes on to every `create_video_from_image` call. */
  datatype BatchSettings = BatchSettings(
    endImage: ImageArg, prompt: string, negativePrompt: Option<string>,
    width: int, height: int, length: int, loraPairs: Json)

  /** The request for one image file: `image_path` set, the other image aliases left out. */
  function BatchRequest(imagePath: string, s: BatchSettings): Request {
    Request(NoImage, Some(imagePath), None, None, s.endImage, None, None, None,
            s.prompt, s.negativePrompt, s.width, s.height, s.length, s.loraPairs)
  }

  /** `result_<stem>.mp4` in the output folder. */
  function OutputFileFor(outputFolder: string, filename: string): string {
    PosixPath.Join(outputFolder, "result_" + PosixPath.StemOf(filename) + ".mp4")
  }

  /** An entry of `results["results"]`. */
  datatype BatchEntry =
    | Succeeded(filename: string, outputFile: string, jobId: Json)
    | NotSucceeded(filename: string, error: Json, jobId: Json)

  datatype BatchReport = BatchReport(totalFiles: nat, successful: nat, failed: nat, results: seq<BatchEntry>)

  /** The services one batch talks to. */
  datatype Services = Services(disk: Disk, submit: map<string, Json> -> Option<string>, wait: string -> JobResult)

  /** The entry for one file: success only when the job completed and its video was saved. */
  function EntryFor(folder: string, outputFolder: string, filename: string, s: BatchSettings, env: Services): (e: BatchEntry)
    ensures e.filename == filename
    ensures e.Succeeded? ==> e.outputFile == OutputFileFor(outputFolder, filename)
  {
    var result := CreateVideo(BatchRequest(PosixPath.Join(folder, filename), s), env.disk, env.submit, env.wait);
    if result.Completed? then
      var out := OutputFileFor(outputFolder, filename);
      if SaveVideoResult(result, out, env.disk).Some? then Succeeded(filename, out, JobIdOf(result))
      else NotSucceeded(filename, JStr(SAVE_FAILED_MESSAGE), JobIdOf(result))
    else NotSucceeded(filename, ErrorOf(result), JobIdOf(result))
  }

  /**
    A file counts as a success exactly when its job completed and the video
    was written to `result_<stem>.mp4`; a completed job whose save failed is
    reported with "Result save failed", any other job with its own error.
   */
  lemma EntryOutcome(folder: string, outputFolder: string, filename: string, s: BatchSettings, env: Services)
    ensures var result := CreateVideo(BatchRequest(PosixPath.Join(folder, filename), s), env.disk, env.submit, env.wait);
            var e := EntryFor(folder, outputFolder, filename, s, env);
      && (e.Succeeded? <==> result.Completed? && SaveVideoResult(result, OutputFileFor(outputFolder, filename), env.disk).Some?)
      && (e.NotSucceeded? && result.Completed? ==> e.error == JStr(SAVE_FAILED_MESSAGE))
      && (e.NotSucceeded? && !result.Completed? ==> e.error == ErrorOf(result))
      && e.jobId == JobIdOf(result)
  {
  }

  /** How many entries report success. */
  function SucceededCount(entries: seq<BatchEntry>): (n: nat)
    ensures n <= |entries|
  {
    if entries == [] then 0
    else (if entries[0].Succeeded? then 1 else 0) + SucceededCount(entries[1..])
  }

  lemma SucceededCountAppend(entries: seq<BatchEntry>, e: BatchEntry)
    ensures SucceededCount(entries + [e]) == SucceededCount(entries) + if e.Succeeded? then 1 else 0
    decreases |entries|
  {
    if entries != [] {
      assert (entries + [e])[1..] == entries[1..] + [e];
      SucceededCountAppend(entries[1..], e);
    } else {
      assert [] + [e] == [e];
    }
  }

  /**
    The loop of `batch_process_images`: one entry per file, counted as it is
    appended. `entryOf` is what processing one file yields; no entry, failed
    or not, stops the loop.
   */
  method TallyFiles(files: seq<string>, entryOf: string -> BatchEntry) returns (report: BatchReport)
    ensures report.totalFiles == |files| == |report.results|
    ensures report.successful + report.failed == report.totalFiles
    ensures report.successful == SucceededCount(report.results)
    ensures forall k :: 0 <= k < |files| ==> report.results[k] == entryOf(files[k])
  {
    var successful, failed := 0, 0;
    var results: seq<BatchEntry> := [];
    for i := 0 to |files|
      invariant |results| == i
      invariant successful + failed == i
      invariant successful == SucceededCount(results)
      invariant forall k :: 0 <= k < i ==> results[k] == entryOf(files[k])
    {
      var entry := entryOf(files[i]);
      SucceededCountAppend(results, entry);
      if entry.Succeeded? {
        successful := successful + 1;
      } else {
        failed := failed + 1;
      }
      results := results + [entry];
    }
    return BatchReport(|files|, successful, failed, results);
  }

  /**
    `batch_process_images`: a report with one entry per image file, in
    listing order, or the error message returned when the folder is missing
    or holds no image files.
   */
  method BatchProcessImages(folder: string, outputFolder: string, exts: seq<string>, s: BatchSettings, env: Services)
    returns (r: Result<BatchReport, string>)
    ensures !env.disk.isDir(folder) ==> r == Failure("Image folder does not exist: " + folder)
    ensures env.disk.isDir(folder) && ImageFiles(env.disk.listDir(folder), exts) == [] ==>
      r == Failure("No image files to process: " + folder)
    ensures r.Success? ==>
      var files := ImageFiles(env.disk.listDir(folder), exts);
      && r.value.totalFiles == |files| == |r.value.results|
      && r.value.successful + r.value.failed == r.value.totalFiles
      && r.value.successful == SucceededCount(r.value.results)
      && forall k :: 0 <= k < |files| ==> r.value.results[k] == EntryFor(folder, outputFolder, files[k], s, env)
    ensures r.Failure? ==> !env.disk.isDir(folder) || ImageFiles(env.disk.listDir(folder), exts) == []
  {
    if !env.disk.isDir(folder) {
      return Failure("Image folder does not exist: " + folder);
    }
    var files := ImageFiles(env.disk.listDir(folder), exts);
    if files == [] {
      return Failure("No image files to process: " + folder);
    }
    var report := TallyFiles(files, f => EntryFor(folder, outputFolder, f, s, env));
    return Success(report);
  }
}

=== FILE: json.dfy ===
/**
  JSON values as the Python code sees them after `json.loads`: dictionaries,
  lists, strings, integers, booleans, None, and floats. Floats are opaque: the
  model only keeps their Python `repr`, which is all the code ever needs
  (LoRA weights, `cfg` and `seed` are copied, never computed with).
 */
module Json {

  datatype Json =
    | JNull
    | JBool(b: bool)
    | JInt(i: int)
    | JFloat(repr: string)
    | JStr(s: string)
    | JArr(items: seq<Json>)
    | JObj(fields: map<string, Json>)

  /** Python truthiness (`if value:`). */
  predicate Truthy(j: Json) {
    match j
    case JNull => false
    case JBool(b) => b
    case JInt(i) => i != 0
    case JFloat(r) => r != "0.0" && r != "-0.0"
    case JStr(s) => |s| > 0
    case JArr(xs) => |xs| > 0
    case JObj(m) => |m| > 0
  }

  /** `d.get(key)`: the value, or None when the key is absent. */
  function Get(m: map<string, Json>, key: string): (r: Json)
    ensures key !in m ==> r == JNull
    ensures key in m ==> r == m[key]
  {
    if key in m then m[key] else JNull
  }

  /** `d.get(key, default)`. */
  function GetOr(m: map<string, Json>, key: string, default: Json): (r: Json)
    ensures key !in m ==> r == default
    ensures key in m ==> r == m[key]
  {
    if key in m then m[key] else default
  }

  /** The Python float `1.0`, the default LoRA weight. */
  const ONE_POINT_ZERO: Json := JFloat("1.0")

  /** Decimal digits of a natural number, as Python's `str(int)` writes them. */
  function NatToString(n: nat): (s: string)
    ensures |s| >= 1
    ensures forall k :: 0 <= k < |s| ==> '0' <= s[k] <= '9'
  {
    if n < 10 then [('0' as int + n) as char]
    else NatToString(n / 10) + [('0' as int + n % 10) as char]
  }

  /** The number a string of decimal digits denotes. */
  function DigitsValue(s: string): nat
    requires forall k :: 0 <= k < |s| ==> '0' <= s[k] <= '9'
  {
    if s == [] then 0 else 10 * DigitsValue(s[..|s| - 1]) + (s[|s| - 1] as int - '0' as int)
  }

  /** Reading the digits back gives the number, and there is no leading zero. */
  lemma {:induction false} NatToStringReadsBack(n: nat)
    ensures DigitsValue(NatToString(n)) == n
    ensures |NatToString(n)| > 1 ==> NatToString(n)[0] != '0'
  {
    var s := NatToString(n);
    if n >= 10 {
      var h := NatToString(n / 10);
      NatToStringReadsBack(n / 10);
      assert s[..|s| - 1] == h;
      assert s[0] == h[0];
    }
  }

  /** Python's `str(i)` for an integer. */
  function IntToString(i: int): (r: string)
    ensures |r| >= 1 && (r[0] == '-' <==> i < 0)
    ensures forall k :: 1 <= k < |r| ==> '0' <= r[k] <= '9'
  {
    if i < 0 then "-" + NatToString(-i) else NatToString(i)
  }

  /** The digits of `str(i)`, after the sign, read back as the magnitude of `i`. */
  lemma IntToStringReadsBack(i: int)
    ensures var r := IntToString(i);
            var digits := if i < 0 then r[1..] else r;
            (forall k :: 0 <= k < |digits| ==> '0' <= digits[k] <= '9') && DigitsValue(digits) == if i < 0 then -i else i
  {
    if i < 0 {
      NatToStringReadsBack(-i);
      assert IntToString(i)[1..] == NatToString(-i);
    } else {
      NatToStringReadsBack(i);
    }
  }
}

=== FILE: posixpath.dfy ===
/**
  The POSIX `os.path` functions the code calls, as pure functions of their
  string arguments. Only `abspath` (which consults the working directory and
  normalises `.`/`..`) is left to the caller as a parameter.
 */
module PosixPath {
  import opened Wrappers
  import opened PyText

  const SEP: char := '/'

  /** `os.path.isabs(p)`. */
  predicate IsAbs(p: string) {
    |p| > 0 && p[0] == SEP
  }

  /** `os.path.join(a, b)` for two components. */
  function Join(a: string, b: string): (r: string)
    ensures IsAbs(b) ==> r == b
  {
    if IsAbs(b) then b
    else if a == [] || a[|a| - 1] == SEP then a + b
    else a + [SEP] + b
  }

  /** A relative component is appended to `a`, behind a separator unless `a` is empty or already ends in one. */
  lemma JoinAppends(a: string, b: string)
    requires !IsAbs(b)
    ensures EndsWith(Join(a, b), b) && StartsWith(Join(a, b), a)
    ensures Join(a, b) == a + b || Join(a, b) == a + [SEP] + b
    ensures a == [] || a[|a| - 1] == SEP ==> Join(a, b) == a + b
    ensures a != [] && a[|a| - 1] != SEP ==> Join(a, b) == a + [SEP] + b
  {
    var r := Join(a, b);
    if a == [] || a[|a| - 1] == SEP {
      assert r[..|a|] == a && r[|r| - |b|..] == b;
    } else {
      assert r[..|a|] == a && r[|r| - |b|..] == b;
    }
  }

  /**
    `os.path.expanduser(p)`: a leading `~` or `~name` component becomes that
    user's home directory (without trailing slashes); when the home directory
    is unknown the path is returned unchanged. `home` is the current user's
    home (HOME, or the password database) and `homeOf` looks up other users.
   */
  function ExpandUser(p: string, home: Option<string>, homeOf: string -> Option<string>): (r: string)
    ensures !StartsWith(p, "~") ==> r == p
  {
    if !StartsWith(p, "~") then p
    else
      var i: nat := match IndexOf(p[1..], SEP) case Some(k) => k + 1 case None => |p|;
      var userHome := if i == 1 then home else homeOf(p[1..i]);
      match userHome
      case None => p
      case Some(h) =>
        var expanded := RStripChar(h, SEP) + p[i..];
        if expanded == [] then [SEP] else expanded
  }

  /** `os.path.dirname(p)`. */
  function Dirname(p: string): (r: string)
    ensures SEP !in p ==> r == []
    ensures |r| <= |p|
  {
    var i: nat := match LastIndexOf(p, SEP) case Some(k) => k + 1 case None => 0;
    var head := p[..i];
    if head != [] && exists k :: 0 <= k < |head| && head[k] != SEP then RStripChar(head, SEP) else head
  }

  /**
    Position `d` of `p` holds the extension's dot: the last dot, after the
    last separator, with a character other than a dot before it in the last
    component (so a leading-dot name such as ".bashrc" has no extension).
   */
  ghost predicate ExtensionDotAt(p: string, d: int) {
    && 0 <= d < |p| && p[d] == '.'
    && (forall k :: d < k < |p| ==> p[k] != '.' && p[k] != SEP)
    && (exists k :: 0 <= k < d && p[k] != '.' && p[k] != SEP && forall j :: k < j < d ==> p[j] != SEP)
  }

  /** The first half of `os.path.splitext(p)`: everything before the extension. */
  function StemOf(p: string): (r: string)
    ensures r == p || (|r| < |p| && r == p[..|r|] && p[|r|] == '.')
    ensures r != p ==> ExtensionDotAt(p, |r|)
    ensures (exists d :: ExtensionDotAt(p, d)) ==> r != p
  {
    var sepEnd: nat := match LastIndexOf(p, SEP) case Some(k) => k + 1 case None => 0;
    assert forall j :: sepEnd <= j < |p| ==> p[j] != SEP by {
      if LastIndexOf(p, SEP).Some? {
        forall j | sepEnd <= j < |p| ensures p[j] != SEP {
          assert p[j] == p[sepEnd - 1 + 1..][j - sepEnd];
        }
      }
    }
    match LastIndexOf(p, '.')
    case None => p
    case Some(dot) =>
      assert forall j :: dot < j < |p| ==> p[j] != '.' by {
        forall j | dot < j < |p| ensures p[j] != '.' {
          assert p[j] == p[dot + 1..][j - dot - 1];
        }
      }
      if dot >= sepEnd && exists k :: sepEnd <= k < dot && p[k] != '.' then
        var k :| sepEnd <= k < dot && p[k] != '.';
        assert p[k] != SEP;
        p[..dot]
      else
        assert forall d :: ExtensionDotAt(p, d) ==> false by {
          forall d | ExtensionDotAt(p, d) ensures false {
            assert d == dot;
            var k :| 0 <= k < d && p[k] != '.' && p[k] != SEP && forall j :: k < j < d ==> p[j] != SEP;
          }
        }
        p
  }
}

=== FILE: pytext.dfy ===
/**
  The handful of Python `str` operations the code relies on, stated over
  `seq<char>`: whitespace stripping, prefix and suffix tests, searching for a
  character, and lower-casing.
 */
module PyText {
  import opened Wrappers

  /** `c.isspace()` for a single code point, as CPython defines it. */
  predicate IsSpace(c: char) {
    var n := c as int;
    (0x09 <= n <= 0x0D) || (0x1C <= n <= 0x20) || n == 0x85 || n == 0xA0
    || n == 0x1680 || (0x2000 <= n <= 0x200A) || n == 0x2028 || n == 0x2029
    || n == 0x202F || n == 0x205F || n == 0x3000
  }

  /** Every character of `s` is whitespace (so `s.strip()` is empty). */
  predicate IsBlank(s: string) {
    forall k :: 0 <= k < |s| ==> IsSpace(s[k])
  }

  /** `s.lstrip()`: drops leading whitespace. */
  function TrimStart(s: string): (r: string)
    ensures |r| <= |s| && r == s[|s| - |r|..]
    ensures IsBlank(s[..|s| - |r|])
    ensures r == [] || !IsSpace(r[0])
  {
    if |s| > 0 && IsSpace(s[0]) then
      var r := TrimStart(s[1..]);
      TrimStartStep(s, r);
      r
    else s
  }

  /** `s.rstrip()`: drops trailing whitespace. */
  function TrimEnd(s: string): (r: string)
    ensures |r| <= |s| && r == s[..|r|]
    ensures IsBlank(s[|r|..])
    ensures r == [] || !IsSpace(r[|r| - 1])
  {
    if |s| > 0 && IsSpace(s[|s| - 1]) then
      var r := TrimEnd(s[..|s| - 1]);
      TrimEndStep(s, r);
      r
    else s
  }

  /** Dropping one more leading space keeps the blank-prefix shape. */
  lemma TrimStartStep(s: string, r: string)
    requires |s| > 0 && IsSpace(s[0])
    requires |r| <= |s| - 1 && r == s[1..][|s| - 1 - |r|..] && IsBlank(s[1..][..|s| - 1 - |r|])
    ensures |r| <= |s| && r == s[|s| - |r|..] && IsBlank(s[..|s| - |r|])
  {
    var p := s[1..][..|s| - 1 - |r|];
    assert s[..|s| - |r|] == [s[0]] + p;
    BlankConcat([s[0]], p);
  }

  /** Dropping one more trailing space keeps the blank-suffix shape. */
  lemma TrimEndStep(s: string, r: string)
    requires |s| > 0 && IsSpace(s[|s| - 1])
    requires |r| <= |s| - 1 && r == s[..|s| - 1][..|r|] && IsBlank(s[..|s| - 1][|r|..])
    ensures |r| <= |s| && r == s[..|r|] && IsBlank(s[|r|..])
  {
    var q := s[..|s| - 1][|r|..];
    assert s[|r|..] == q + [s[|s| - 1]];
    BlankConcat(q, [s[|s| - 1]]);
  }

  /** `s.strip()`: the text between leading and trailing whitespace. */
  function Strip(s: string): (r: string)
    ensures r == [] <==> IsBlank(s)
    ensures r != [] ==> !IsSpace(r[0]) && !IsSpace(r[|r| - 1])
    ensures exists i, j :: 0 <= i <= j <= |s| && r == s[i..j] && IsBlank(s[..i]) && IsBlank(s[j..])
  {
    var a := TrimStart(s);
    var r := TrimEnd(a);
    StripBounds(s, a, r);
    StripBlank(s, a, r);
    assert r != [] ==> r[0] == a[0];
    r
  }

  /** Where the stripped text sits inside `s`. */
  lemma StripBounds(s: string, a: string, r: string)
    requires |a| <= |s| && a == s[|s| - |a|..]
    requires |r| <= |a| && r == a[..|r|]
    ensures var i := |s| - |a|;
      && r == s[i..i + |r|] && s[i + |r|..] == a[|r|..]
  {
    var i := |s| - |a|;
    assert s[i..][..|r|] == s[i..i + |r|];
  }

  /** Stripping leaves nothing exactly when `s` is all whitespace. */
  lemma StripBlank(s: string, a: string, r: string)
    requires |a| <= |s| && a == s[|s| - |a|..] && IsBlank(s[..|s| - |a|]) && (a == [] || !IsSpace(a[0]))
    requires |r| <= |a| && r == a[..|r|] && IsBlank(a[|r|..])
    ensures r == [] <==> IsBlank(s)
  {
    var i := |s| - |a|;
    assert s == s[..i] + a;
    if r == [] {
      assert a == a[|r|..];
      BlankConcat(s[..i], a);
    }
    if IsBlank(s) && a != [] {
      assert false;
    }
  }

  lemma BlankConcat(x: string, y: string)
    requires IsBlank(x) && IsBlank(y)
    ensures IsBlank(x + y)
  {
    forall k | 0 <= k < |x + y| ensures IsSpace((x + y)[k]) {
      if k < |x| {
        assert (x + y)[k] == x[k];
      } else {
        assert (x + y)[k] == y[k - |x|];
      }
    }
  }

  predicate StartsWith(s: string, prefix: string) {
    |prefix| <= |s| && s[..|prefix|] == prefix
  }

  predicate EndsWith(s: string, suffix: string) {
    |suffix| <= |s| && s[|s| - |suffix|..] == suffix
  }

  /** `s.find(c)`: the first position of `c`, if any. */
  function IndexOf(s: string, c: char): (r: Option<nat>)
    ensures r.None? <==> c !in s
    ensures r.Some? ==> r.value < |s| && s[r.value] == c && c !in s[..r.value]
  {
    if |s| == 0 then None
    else if s[0] == c then Some(0)
    else
      match IndexOf(s[1..], c)
      case None => None
      case Some(k) =>
        assert s[..k + 1] == [s[0]] + s[1..][..k];
        Some(k + 1)
  }

  /** `s.rfind(c)`: the last position of `c`, if any. */
  function LastIndexOf(s: string, c: char): (r: Option<nat>)
    ensures r.None? <==> c !in s
    ensures r.Some? ==> r.value < |s| && s[r.value] == c && c !in s[r.value + 1..]
  {
    if |s| == 0 then None
    else if s[|s| - 1] == c then Some(|s| - 1)
    else
      var r := LastIndexOf(s[..|s| - 1], c);
      if r.Some? then
        assert s[r.value + 1..] == s[..|s| - 1][r.value + 1..] + [s[|s| - 1]];
        r
      else
        assert s == s[..|s| - 1] + [s[|s| - 1]];
        r
  }

  /** `s.lstrip(c)`: drops every leading occurrence of `c`. */
  function LStripChar(s: string, c: char): (r: string)
    ensures |r| <= |s| && r == s[|s| - |r|..]
    ensures forall k :: 0 <= k < |s| - |r| ==> s[k] == c
    ensures r == [] || r[0] != c
  {
    if |s| > 0 && s[0] == c then LStripChar(s[1..], c) else s
  }

  /** `s.rstrip(c)`: drops every trailing occurrence of `c`. */
  function RStripChar(s: string, c: char): (r: string)
    ensures |r| <= |s| && r == s[..|r|]
    ensures forall k :: |r| <= k < |s| ==> s[k] == c
    ensures r == [] || r[|r| - 1] != c
  {
    if |s| > 0 && s[|s| - 1] == c then RStripChar(s[..|s| - 1], c) else s
  }

  /** `c.lower()` for the ASCII letters; other characters are kept. */
  function AsciiLowerChar(c: char): (d: char)
    ensures 'A' <= c <= 'Z' ==> 'a' <= d <= 'z'
    ensures !('A' <= c <= 'Z') ==> d == c
  {
    if 'A' <= c <= 'Z' then (c as int - 'A' as int + 'a' as int) as char else c
  }

  /** `s.lower()`, restricted to ASCII letters. */
  function AsciiLower(s: string): (r: string)
    ensures |r| == |s|
    ensures forall k :: 0 <= k < |s| ==> r[k] == AsciiLowerChar(s[k])
  {
    if |s| == 0 then [] else [AsciiLowerChar(s[0])] + AsciiLower(s[1..])
  }

  /** `s.endswith(suffixes)` for a tuple of suffixes. */
  predicate EndsWithAny(s: string, suffixes: seq<string>) {
    exists k :: 0 <= k < |suffixes| && EndsWith(s, suffixes[k])
  }
}

=== FILE: workflow.dfy ===
/**
  The serverless `handler` in handler.py after the input image is prepared:
  choosing a workflow template by the number of LoRA pairs, overwriting the
  template's fixed node fields with the job's values, writing each LoRA pair
  into the node-id table for that template, and picking the first produced
  video.

  A ComfyUI workflow is a graph from node id to node; only a node's class and
  its `inputs` dictionary matter here. Reading templates, talking to the
  ComfyUI server, and the float arithmetic of `int(steps * 0.6)` are
  parameters of the model.
 */
module Workflow {
  import opened Wrappers
  import opened Json
  import opened Base64
  import opened PyText
  import ImageInput

  datatype Node = Node(classType: string, inputs: map<string, Json>)

  type Graph = map<string, Node>

  /** The exceptions that escape `handler`, which RunPod reports as a failed job. */
  datatype Fault =
    | NoLength                        // len() of a `lora_pairs` that has none
    | NotSliceable                    // `lora_pairs[:3]` on a dictionary
    | TemplateUnreadable(path: string)
    | KeyError(key: string)
    | StepsNotNumeric                 // `steps * 0.6` on a value that is not a number
    | PairNotMapping                  // `.get` on a LoRA pair that is not a dictionary
    | MediaNotIterable                // a truthy media entry list that cannot be iterated
    | ServerUnavailable               // the HTTP or WebSocket retry loop gave up

  /** Node `id` exists and its input `field` holds `v`. */
  predicate HasInput(g: Graph, id: string, field: string, v: Json) {
    id in g && field in g[id].inputs && g[id].inputs[field] == v
  }

  /** Input `f` of node `id`, if the node has it. */
  function Lookup(g: Graph, id: string, f: string): Option<Json>
    requires id in g
  {
    if f in g[id].inputs then Some(g[id].inputs[f]) else None
  }

  /**
    `g2` is `g` with only the (node, field) slots in `written` changed: the same
    nodes, the same classes, every other input present exactly when it was and
    holding the same value, and every written slot present.
   */
  ghost predicate Frame(g: Graph, g2: Graph, written: set<(string, string)>) {
    && g2.Keys == g.Keys
    && (forall id :: id in g ==> g2[id].classType == g[id].classType)
    && (forall id, f :: id in g && (id, f) !in written ==> Lookup(g2, id, f) == Lookup(g, id, f))
    && (forall p :: p in written ==> p.0 in g && p.1 in g2[p.0].inputs)
  }

  lemma FrameCompose(g1: Graph, g2: Graph, g3: Graph, w1: set<(string, string)>, w2: set<(string, string)>)
    requires Frame(g1, g2, w1) && Frame(g2, g3, w2)
    ensures Frame(g1, g3, w1 + w2)
  {
  }

  // ---------------------------------------------------------------------------
  // Workflow selection (handler.py:257-277)
  // ---------------------------------------------------------------------------

  /** The template for 0, 1, 2 and 3 LoRA pairs, in that order. */
  const WORKFLOW_FILES: seq<string> :=
    ["/wan22_nolora.json", "/wan22_1lora.json", "/wan22_2lora.json", "/wan22_3lora.json"]

  const MAX_LORA_PAIRS: nat := 3

  /**
    What iterating `job_input.get("lora_pairs", [])` yields, or the error
    `len()` or slicing raises. A string yields its characters; a dictionary
    yields its keys, which are strings and so fail at the first `.get` (their
    text does not matter, so the empty string stands for each).
   */
  function LoraPairsOf(v: Json): (r: Result<seq<Json>, Fault>)
    ensures v.JArr? ==> r == Success(v.items)
    ensures v.JStr? ==> r.Success? && |r.value| == |v.s| && forall k :: 0 <= k < |v.s| ==> r.value[k] == JStr([v.s[k]])
    ensures r.Success? ==> v.JArr? || v.JStr? || v.JObj?
    ensures v.JObj? ==> (r.Failure? <==> |v.fields| > MAX_LORA_PAIRS)
  {
    match v
    case JArr(items) => Success(items)
    case JStr(s) => Success(seq(|s|, k requires 0 <= k < |s| => JStr([s[k]])))
    case JObj(fields) =>
      if |fields| > MAX_LORA_PAIRS then Failure(NotSliceable)
      else Success(seq(|fields|, _ => JStr("")))
    case _ => Failure(NoLength)
  }

  datatype Selection = Selection(file: string, loraCount: nat, pairs: seq<Json>)

  /** The template choice and the (at most three) pairs that are applied. */
  function SelectWorkflow(job: map<string, Json>): (r: Result<Selection, Fault>)
    ensures r.Success? ==> r.value.loraCount == |r.value.pairs| <= MAX_LORA_PAIRS
    ensures r.Success? ==> r.value.file == WORKFLOW_FILES[r.value.loraCount]
    ensures r.Failure? <==> LoraPairsOf(GetOr(job, "lora_pairs", JArr([]))).Failure?
    ensures r.Success? ==>
      var all := LoraPairsOf(GetOr(job, "lora_pairs", JArr([]))).value;
      && r.value.loraCount == (if |all| <= MAX_LORA_PAIRS then |all| else MAX_LORA_PAIRS)
      && r.value.pairs == all[..r.value.loraCount]
  {
    var all :- LoraPairsOf(GetOr(job, "lora_pairs", JArr([])));
    if |all| <= MAX_LORA_PAIRS then
      Success(Selection(WORKFLOW_FILES[|all|], |all|, all[..|all|]))
    else
      Success(Selection(WORKFLOW_FILES[MAX_LORA_PAIRS], MAX_LORA_PAIRS, all[..MAX_LORA_PAIRS]))
  }

  /** Leaving `lora_pairs` out is the same as sending an empty list: the no-LoRA template. */
  lemma MissingPairsSelectNoLora(job: map<string, Json>)
    requires "lora_pairs" !in job
    ensures SelectWorkflow(job) == Success(Selection("/wan22_nolora.json", 0, []))
  {
  }

  /** Pairs beyond the third never influence the selection. */
  lemma ExtraPairsIgnored(items: seq<Json>, extra: seq<Json>, job: map<string, Json>)
    requires |items| == MAX_LORA_PAIRS
    ensures SelectWorkflow(job["lora_pairs" := JArr(items + extra)])
         == SelectWorkflow(job["lora_pairs" := JArr(items)])
  {
    assert (items + extra)[..MAX_LORA_PAIRS] == items;
    assert items[..|items|] == items;
  }

  // ---------------------------------------------------------------------------
  // Fixed field patch (handler.py:279-298)
  // ---------------------------------------------------------------------------

  /** `prompt[id]["inputs"][field] = v`, which raises KeyError for a missing node. */
  function SetInput(g: Graph, id: string, field: string, v: Json): (r: Result<Graph, Fault>)
    ensures id !in g <==> r.Failure?
    ensures r.Failure? ==> r.error == KeyError(id)
    ensures r.Success? ==> Frame(g, r.value, {(id, field)}) && HasInput(r.value, id, field, v)
  {
    if id !in g then Failure(KeyError(id))
    else Success(g[id := g[id].(inputs := g[id].inputs[field := v])])
  }

  /** Where an assigned value comes from: fixed by the handler, or `job_input[key]`. */
  datatype Source = Given(v: Json) | FromJob(key: string)

  /** One assignment `prompt[node]["inputs"][field] = <source>`. */
  datatype Write = Write(node: string, field: string, source: Source)

  function SlotOf(w: Write): (string, string) {
    (w.node, w.field)
  }

  function Slots(ws: seq<Write>): set<(string, string)> {
    set i | 0 <= i < |ws| :: SlotOf(ws[i])
  }

  /** No two assignments target the same field of the same node. */
  predicate DistinctSlots(ws: seq<Write>) {
    forall i, j :: 0 <= i < j < |ws| ==> SlotOf(ws[i]) != SlotOf(ws[j])
  }

  /** The right-hand side can be evaluated: a given value, or a key the job has. */
  predicate Available(job: map<string, Json>, s: Source) {
    s.Given? || s.key in job
  }

  function ValueOf(job: map<string, Json>, s: Source): Json
    requires Available(job, s)
  {
    if s.Given? then s.v else job[s.key]
  }

  /** Assignment `w` can run: its value is available and its node exists. */
  predicate Runs(g: Graph, job: map<string, Json>, w: Write) {
    Available(job, w.source) && w.node in g
  }

  /** The KeyError a failing assignment raises: Python evaluates the right-hand side first. */
  function WriteError(job: map<string, Json>, w: Write): Fault {
    if !Available(job, w.source) then KeyError(w.source.key) else KeyError(w.node)
  }

  /**
    A run of assignments, in order. It succeeds when every one can run;
    otherwise it raises the KeyError of the first assignment that cannot run.
    What a successful run writes is ApplyWritesEffect.
   */
  function ApplyWrites(g: Graph, job: map<string, Json>, ws: seq<Write>): (r: Result<Graph, Fault>)
    requires DistinctSlots(ws)
    ensures r.Success? <==> forall i :: 0 <= i < |ws| ==> Runs(g, job, ws[i])
    ensures r.Failure? ==> exists i :: 0 <= i < |ws| && !Runs(g, job, ws[i]) && r.error == WriteError(job, ws[i])
                                       && forall k :: 0 <= k < i ==> Runs(g, job, ws[k])
    ensures r.Success? ==> r.value.Keys == g.Keys
    decreases |ws|
  {
    if ws == [] then Success(g)
    else if !Runs(g, job, ws[0]) then
      Failure(WriteError(job, ws[0]))
    else
      var g1 := SetInput(g, ws[0].node, ws[0].field, ValueOf(job, ws[0].source)).value;
      SlotsCons(ws);
      var r := ApplyWrites(g1, job, ws[1..]);
      if r.Success? then
        assert forall i :: 0 < i < |ws| ==> ws[1..][i - 1] == ws[i];
        r
      else
        WritesFailStep(g, g1, job, ws, r.error);
        r
  }

  /** A successful run changes exactly the targeted slots, each to its value. */
  lemma {:induction false} ApplyWritesEffect(g: Graph, job: map<string, Json>, ws: seq<Write>)
    requires DistinctSlots(ws)
    requires ApplyWrites(g, job, ws).Success?
    ensures Frame(g, ApplyWrites(g, job, ws).value, Slots(ws))
    ensures forall i :: 0 <= i < |ws| ==> HasInput(ApplyWrites(g, job, ws).value, ws[i].node, ws[i].field, ValueOf(job, ws[i].source))
    decreases |ws|
  {
    if ws == [] {
      assert Slots(ws) == {};
    } else {
      assert Runs(g, job, ws[0]);
      var g1 := SetInput(g, ws[0].node, ws[0].field, ValueOf(job, ws[0].source)).value;
      SlotsCons(ws);
      ApplyWritesEffect(g1, job, ws[1..]);
      WritesStep(g, g1, ApplyWrites(g1, job, ws[1..]).value, job, ws);
    }
  }

  lemma SlotsCons(ws: seq<Write>)
    requires |ws| >= 1 && DistinctSlots(ws)
    ensures DistinctSlots(ws[1..])
    ensures Slots(ws) == {SlotOf(ws[0])} + Slots(ws[1..])
    ensures SlotOf(ws[0]) !in Slots(ws[1..])
  {
    var rest := ws[1..];
    assert forall i :: 0 <= i < |rest| ==> rest[i] == ws[i + 1];
    forall p | p in Slots(ws) ensures p in {SlotOf(ws[0])} + Slots(rest) {
      var i :| 0 <= i < |ws| && SlotOf(ws[i]) == p;
      if i > 0 { assert SlotOf(rest[i - 1]) == p; }
    }
    forall p | p in Slots(rest) ensures p in Slots(ws) && p != SlotOf(ws[0]) {
      var i :| 0 <= i < |rest| && SlotOf(rest[i]) == p;
      assert SlotOf(ws[i + 1]) == p;
    }
  }

  lemma WritesStep(g: Graph, g1: Graph, r: Graph, job: map<string, Json>, ws: seq<Write>)
    requires |ws| >= 1 && forall i :: 0 <= i < |ws| ==> Available(job, ws[i].source)
    requires Slots(ws) == {SlotOf(ws[0])} + Slots(ws[1..]) && SlotOf(ws[0]) !in Slots(ws[1..])
    requires Frame(g, g1, {SlotOf(ws[0])}) && HasInput(g1, ws[0].node, ws[0].field, ValueOf(job, ws[0].source))
    requires Frame(g1, r, Slots(ws[1..]))
    requires forall i :: 0 <= i < |ws[1..]| ==> HasInput(r, ws[1..][i].node, ws[1..][i].field, ValueOf(job, ws[1..][i].source))
    ensures Frame(g, r, Slots(ws))
    ensures forall i :: 0 <= i < |ws| ==> HasInput(r, ws[i].node, ws[i].field, ValueOf(job, ws[i].source))
  {
    FrameCompose(g, g1, r, {SlotOf(ws[0])}, Slots(ws[1..]));
    FramePreserves(g1, r, Slots(ws[1..]), ws[0].node, ws[0].field, ValueOf(job, ws[0].source));
    forall i | 0 < i < |ws| ensures HasInput(r, ws[i].node, ws[i].field, ValueOf(job, ws[i].source)) {
      assert ws[1..][i - 1] == ws[i];
    }
  }

  /** A slot outside the written set keeps its value. */
  lemma FramePreserves(g: Graph, g2: Graph, written: set<(string, string)>, id: string, f: string, v: Json)
    requires Frame(g, g2, written) && HasInput(g, id, f, v) && (id, f) !in written
    ensures HasInput(g2, id, f, v)
  {
    assert Lookup(g2, id, f) == Lookup(g, id, f);
  }

  lemma WritesFailStep(g: Graph, g1: Graph, job: map<string, Json>, ws: seq<Write>, e: Fault)
    requires |ws| >= 1 && Runs(g, job, ws[0])
    requires g1.Keys == g.Keys
    requires exists i :: 0 <= i < |ws[1..]| && !Runs(g1, job, ws[1..][i]) && e == WriteError(job, ws[1..][i])
                         && forall k :: 0 <= k < i ==> Runs(g1, job, ws[1..][k])
    ensures exists i :: 0 <= i < |ws| && !Runs(g, job, ws[i]) && e == WriteError(job, ws[i])
                        && forall k :: 0 <= k < i ==> Runs(g, job, ws[k])
    ensures !forall i :: 0 <= i < |ws| ==> Runs(g, job, ws[i])
  {
    var i :| 0 <= i < |ws[1..]| && !Runs(g1, job, ws[1..][i]) && e == WriteError(job, ws[1..][i])
             && forall k :: 0 <= k < i ==> Runs(g1, job, ws[1..][k]);
    assert ws[1..][i] == ws[i + 1];
    forall k | 0 <= k < i + 1 ensures Runs(g, job, ws[k]) {
      if k > 0 { assert ws[1..][k - 1] == ws[k]; }
    }
  }

  /** The slots the fixed patch always writes. */
  const FIXED_SLOTS: set<(string, string)> := {
    ("260", "image"), ("846", "value"), ("246", "value"), ("835", "noise_seed"),
    ("830", "cfg"), ("849", "value"), ("848", "value")}

  /** The slots written when the template has a step-count node. */
  const STEP_SLOTS: set<(string, string)> := {("834", "steps"), ("829", "step")}

  const FIXED_NODES: set<string> := {"260", "846", "246", "835", "830", "849", "848"}

  const REQUIRED_KEYS: set<string> := {"prompt", "seed", "cfg", "width", "height"}

  /** The job's `length`, 81 frames unless given. */
  function LengthOf(job: map<string, Json>): Json {
    GetOr(job, "length", JInt(81))
  }

  /** The job's `steps`, 10 unless given. */
  function StepsOf(job: map<string, Json>): Json {
    GetOr(job, "steps", JInt(10))
  }

  /** The seven unconditional assignments, in source order. */
  function FixedWrites(job: map<string, Json>, imageFile: string): (ws: seq<Write>)
    ensures DistinctSlots(ws) && |ws| == 7
  {
    [ Write("260", "image", Given(JStr(imageFile))),
      Write("846", "value", Given(LengthOf(job))),
      Write("246", "value", FromJob("prompt")),
      Write("835", "noise_seed", FromJob("seed")),
      Write("830", "cfg", FromJob("cfg")),
      Write("849", "value", FromJob("width")),
      Write("848", "value", FromJob("height"))]
  }

  /** The fixed assignments write exactly the fixed slots. */
  lemma FixedWritesSlots(job: map<string, Json>, imageFile: string)
    ensures Slots(FixedWrites(job, imageFile)) == FIXED_SLOTS
  {
    var ws := FixedWrites(job, imageFile);
    assert SlotOf(ws[0]) in Slots(ws) && SlotOf(ws[1]) in Slots(ws) && SlotOf(ws[2]) in Slots(ws);
    assert SlotOf(ws[3]) in Slots(ws) && SlotOf(ws[4]) in Slots(ws) && SlotOf(ws[5]) in Slots(ws);
    assert SlotOf(ws[6]) in Slots(ws);
  }

  /** The two step assignments; `low` is `int(steps * 0.6)`. */
  function StepWrites(job: map<string, Json>, low: int): (ws: seq<Write>)
    ensures DistinctSlots(ws) && Slots(ws) == STEP_SLOTS
  {
    var ws := [Write("834", "steps", Given(StepsOf(job))), Write("829", "step", Given(JInt(low)))];
    assert SlotOf(ws[0]) in Slots(ws) && SlotOf(ws[1]) in Slots(ws);
    ws
  }

  /** The slots the whole field patch writes into a template. */
  function PatchedSlots(g: Graph): set<(string, string)> {
    FIXED_SLOTS + (if "834" in g then STEP_SLOTS else {})
  }

  /** The fixed assignments can all run exactly when the template has the seven nodes and the job the five keys. */
  lemma FixedWritesRun(g: Graph, job: map<string, Json>, imageFile: string)
    ensures (forall i :: 0 <= i < |FixedWrites(job, imageFile)| ==> Runs(g, job, FixedWrites(job, imageFile)[i]))
        <==> FIXED_NODES <= g.Keys && REQUIRED_KEYS <= job.Keys
  {
    var ws := FixedWrites(job, imageFile);
    if FIXED_NODES <= g.Keys && REQUIRED_KEYS <= job.Keys {
      forall i | 0 <= i < |ws| ensures Runs(g, job, ws[i]) {
        assert ws[i].node in FIXED_NODES;
        assert ws[i].source.FromJob? ==> ws[i].source.key in REQUIRED_KEYS;
      }
    }
    if forall i :: 0 <= i < |ws| ==> Runs(g, job, ws[i]) {
      assert Runs(g, job, ws[0]) && Runs(g, job, ws[1]) && Runs(g, job, ws[2]) && Runs(g, job, ws[3]);
      assert Runs(g, job, ws[4]) && Runs(g, job, ws[5]) && Runs(g, job, ws[6]);
    }
  }

  /** The seven unconditional assignments of handler.py:281-287. */
  function PatchFixed(g: Graph, job: map<string, Json>, imageFile: string): (r: Result<Graph, Fault>)
    ensures r.Success? ==> Frame(g, r.value, FIXED_SLOTS)
    ensures r.Success? <==> FIXED_NODES <= g.Keys && REQUIRED_KEYS <= job.Keys
    ensures "260" !in g ==> r == Failure(KeyError("260"))
  {
    FixedWritesRun(g, job, imageFile);
    var r := ApplyWrites(g, job, FixedWrites(job, imageFile));
    if r.Success? then
      ApplyWritesEffect(g, job, FixedWrites(job, imageFile));
      FixedWritesSlots(job, imageFile);
      r
    else
      r
  }

  /**
    With nodes 260, 846 and 246 in the template and `prompt` in the job, a
    job without `seed` fails on `seed`: the three assignments before it run,
    and Python evaluates `job_input["seed"]` before indexing node 835.
   */
  lemma PatchFixedMissingSeed(g: Graph, job: map<string, Json>, imageFile: string)
    requires "260" in g && "846" in g && "246" in g
    requires "prompt" in job && "seed" !in job
    ensures PatchFixed(g, job, imageFile) == Failure(KeyError("seed"))
  {
    var ws := FixedWrites(job, imageFile);
    var r := ApplyWrites(g, job, ws);
    assert !Runs(g, job, ws[3]);
    assert Runs(g, job, ws[0]) && Runs(g, job, ws[1]) && Runs(g, job, ws[2]);
    var i :| 0 <= i < |ws| && !Runs(g, job, ws[i]) && r.error == WriteError(job, ws[i])
             && forall k :: 0 <= k < i ==> Runs(g, job, ws[k]);
    assert i == 3;
  }

  /** Each fixed assignment's value lands in its slot. */
  lemma PatchFixedValues(g: Graph, job: map<string, Json>, imageFile: string)
    requires PatchFixed(g, job, imageFile).Success?
    ensures var r := PatchFixed(g, job, imageFile).value;
      && HasInput(r, "260", "image", JStr(imageFile))
      && HasInput(r, "846", "value", LengthOf(job))
      && HasInput(r, "246", "value", job["prompt"])
      && HasInput(r, "835", "noise_seed", job["seed"])
      && HasInput(r, "830", "cfg", job["cfg"])
      && HasInput(r, "849", "value", job["width"])
      && HasInput(r, "848", "value", job["height"])
  {
    var ws := FixedWrites(job, imageFile);
    ApplyWritesEffect(g, job, ws);
    assert REQUIRED_KEYS <= job.Keys;
    FixedValuesLand(PatchFixed(g, job, imageFile).value, job, imageFile);
  }

  /** The seven fixed assignments, each found in its slot. */
  lemma FixedValuesLand(r: Graph, job: map<string, Json>, imageFile: string)
    requires REQUIRED_KEYS <= job.Keys
    requires var ws := FixedWrites(job, imageFile);
             forall i :: 0 <= i < |ws| ==> HasInput(r, ws[i].node, ws[i].field, ValueOf(job, ws[i].source))
    ensures && HasInput(r, "260", "image", JStr(imageFile))
            && HasInput(r, "846", "value", LengthOf(job))
            && HasInput(r, "246", "value", job["prompt"])
            && HasInput(r, "835", "noise_seed", job["seed"])
            && HasInput(r, "830", "cfg", job["cfg"])
            && HasInput(r, "849", "value", job["width"])
            && HasInput(r, "848", "value", job["height"])
  {
    var ws := FixedWrites(job, imageFile);
    assert HasInput(r, ws[0].node, ws[0].field, ValueOf(job, ws[0].source));
    assert HasInput(r, ws[1].node, ws[1].field, ValueOf(job, ws[1].source));
    assert HasInput(r, ws[2].node, ws[2].field, ValueOf(job, ws[2].source));
    assert HasInput(r, ws[3].node, ws[3].field, ValueOf(job, ws[3].source));
    assert HasInput(r, ws[4].node, ws[4].field, ValueOf(job, ws[4].source));
    assert HasInput(r, ws[5].node, ws[5].field, ValueOf(job, ws[5].source));
    assert HasInput(r, ws[6].node, ws[6].field, ValueOf(job, ws[6].source));
  }

  /**
    handler.py:290-298: only when the template has node 834, `steps` goes into
    it and `int(steps * 0.6)` into node 829. `lowStepsOf` stands for that
    float computation; None is the TypeError it raises for a value that is not
    a number.
   */
  function PatchSteps(g: Graph, job: map<string, Json>, lowStepsOf: Json -> Option<int>): (r: Result<Graph, Fault>)
    ensures "834" !in g ==> r == Success(g)
    ensures "834" in g ==> (r.Success? <==> "829" in g && lowStepsOf(StepsOf(job)).Some?)
    ensures "834" in g && r.Success? ==> Frame(g, r.value, STEP_SLOTS)
    ensures "834" in g && r.Success? ==>
      HasInput(r.value, "834", "steps", StepsOf(job)) && HasInput(r.value, "829", "step", JInt(lowStepsOf(StepsOf(job)).value))
  {
    if "834" !in g then Success(g)
    else
      match lowStepsOf(StepsOf(job))
      case None => Failure(StepsNotNumeric)
      case Some(low) =>
        var steps := StepWrites(job, low);
        assert Runs(g, job, steps[0]);
        assert Runs(g, job, steps[1]) <==> "829" in g;
        var r := ApplyWrites(g, job, steps);
        if r.Success? then
          ApplyWritesEffect(g, job, steps);
          assert HasInput(r.value, steps[0].node, steps[0].field, ValueOf(job, steps[0].source));
          assert HasInput(r.value, steps[1].node, steps[1].field, ValueOf(job, steps[1].source));
          r
        else
          r
  }

  /** handler.py:281-298: the fixed assignments, then the step assignments. */
  function PatchFields(g: Graph, job: map<string, Json>, imageFile: string, lowStepsOf: Json -> Option<int>): (r: Result<Graph, Fault>)
    ensures r.Success? ==> r.value.Keys == g.Keys
    ensures r.Success? ==> Frame(g, r.value, PatchedSlots(g))
    ensures r.Success? <==>
      && FIXED_NODES <= g.Keys && REQUIRED_KEYS <= job.Keys
      && ("834" in g ==> "829" in g && lowStepsOf(StepsOf(job)).Some?)
  {
    var g1 :- PatchFixed(g, job, imageFile);
    assert g1.Keys == g.Keys;
    var g2 :- PatchSteps(g1, job, lowStepsOf);
    if "834" in g then
      FrameCompose(g, g1, g2, FIXED_SLOTS, STEP_SLOTS);
      Success(g2)
    else
      Success(g2)
  }

  /**
    After a successful patch the job's values sit in their nodes: the image
    file, `length` (81 by default), `prompt`, `seed`, `cfg`, `width`,
    `height`, and, for templates with node 834, `steps` (10 by default) and
    its low-noise share.
   */
  lemma PatchFieldsValues(g: Graph, job: map<string, Json>, imageFile: string, lowStepsOf: Json -> Option<int>)
    requires PatchFields(g, job, imageFile, lowStepsOf).Success?
    ensures var g2 := PatchFields(g, job, imageFile, lowStepsOf).value;
      && HasInput(g2, "260", "image", JStr(imageFile))
      && HasInput(g2, "846", "value", LengthOf(job))
      && HasInput(g2, "246", "value", job["prompt"])
      && HasInput(g2, "835", "noise_seed", job["seed"])
      && HasInput(g2, "830", "cfg", job["cfg"])
      && HasInput(g2, "849", "value", job["width"])
      && HasInput(g2, "848", "value", job["height"])
      && ("834" in g ==>
            HasInput(g2, "834", "steps", StepsOf(job)) && HasInput(g2, "829", "step", JInt(lowStepsOf(StepsOf(job)).value)))
  {
    var g1 := PatchFixed(g, job, imageFile).value;
    PatchFixedValues(g, job, imageFile);
    if "834" in g {
      var g2 := PatchSteps(g1, job, lowStepsOf).value;
      assert g2 == PatchFields(g, job, imageFile, lowStepsOf).value;
      StepsKeepFixedValues(g1, g2, job, imageFile);
    }
  }

  /** The step assignments leave the seven fixed values where they were. */
  lemma StepsKeepFixedValues(g1: Graph, g2: Graph, job: map<string, Json>, imageFile: string)
    requires Frame(g1, g2, STEP_SLOTS) && REQUIRED_KEYS <= job.Keys
    requires && HasInput(g1, "260", "image", JStr(imageFile))
             && HasInput(g1, "846", "value", LengthOf(job))
             && HasInput(g1, "246", "value", job["prompt"])
             && HasInput(g1, "835", "noise_seed", job["seed"])
             && HasInput(g1, "830", "cfg", job["cfg"])
             && HasInput(g1, "849", "value", job["width"])
             && HasInput(g1, "848", "value", job["height"])
    ensures && HasInput(g2, "260", "image", JStr(imageFile))
            && HasInput(g2, "846", "value", LengthOf(job))
            && HasInput(g2, "246", "value", job["prompt"])
            && HasInput(g2, "835", "noise_seed", job["seed"])
            && HasInput(g2, "830", "cfg", job["cfg"])
            && HasInput(g2, "849", "value", job["width"])
            && HasInput(g2, "848", "value", job["height"])
  {
    FramePreserves(g1, g2, STEP_SLOTS, "260", "image", JStr(imageFile));
    FramePreserves(g1, g2, STEP_SLOTS, "846", "value", LengthOf(job));
    FramePreserves(g1, g2, STEP_SLOTS, "246", "value", job["prompt"]);
    FramePreserves(g1, g2, STEP_SLOTS, "835", "noise_seed", job["seed"]);
    FramePreserves(g1, g2, STEP_SLOTS, "830", "cfg", job["cfg"]);
    FramePreserves(g1, g2, STEP_SLOTS, "849", "value", job["width"]);
    FramePreserves(g1, g2, STEP_SLOTS, "848", "value", job["height"]);
  }

  /** A template without node 260 fails on it, whatever the job holds. */
  lemma PatchFieldsMissingImageNode(g: Graph, job: map<string, Json>, imageFile: string, lowStepsOf: Json -> Option<int>)
    requires "260" !in g
    ensures PatchFields(g, job, imageFile, lowStepsOf) == Failure(KeyError("260"))
  {
  }

  // ---------------------------------------------------------------------------
  // LoRA patch (handler.py:300-341)
  // ---------------------------------------------------------------------------

  /** The node ids that take the high-noise and low-noise LoRA of each pair. */
  datatype LoraTiers = LoraTiers(high: seq<string>, low: seq<string>)

  /** `lora_node_mapping`: the LoRA loader ids in the 1-, 2- and 3-LoRA templates. */
  const LORA_NODE_MAPPING: map<int, LoraTiers> := map[
    1 := LoraTiers(["282"], ["286"]),
    2 := LoraTiers(["282", "339"], ["286", "337"]),
    3 := LoraTiers(["282", "339", "340"], ["286", "337", "338"])]

  predicate DistinctIds(xs: seq<string>) {
    forall i, j :: 0 <= i < j < |xs| ==> xs[i] != xs[j]
  }

  /** Every id in the table names one loader: no id is reused across pairs or tiers. */
  predicate WellFormedTiers(t: LoraTiers) {
    |t.high| == |t.low| && DistinctIds(t.high + t.low)
  }

  /**
    Every row of the table has exactly `count` ids per tier (so indexing by
    pair position never fails), ids are never reused, and the smaller
    templates' rows are prefixes of the three-LoRA row.
   */
  lemma LoraNodeMappingShape(count: int)
    requires 1 <= count <= MAX_LORA_PAIRS
    ensures count in LORA_NODE_MAPPING
    ensures |LORA_NODE_MAPPING[count].high| == count && |LORA_NODE_MAPPING[count].low| == count
    ensures WellFormedTiers(LORA_NODE_MAPPING[count])
    ensures LORA_NODE_MAPPING[count].high == LORA_NODE_MAPPING[3].high[..count]
    ensures LORA_NODE_MAPPING[count].low == LORA_NODE_MAPPING[3].low[..count]
  {
  }

  /** A pair's LoRA name for a tier (`"high"` or `"low"`): `lora_pair.get(tier)`. */
  function LoraName(pair: map<string, Json>, tier: string): Json {
    Get(pair, tier)
  }

  /** A pair's weight for a tier: `lora_pair.get(tier + "_weight", 1.0)`. */
  function LoraWeight(pair: map<string, Json>, tier: string): Json {
    GetOr(pair, tier + "_weight", ONE_POINT_ZERO)
  }

  /** A loader node after its `lora_name` and `strength_model` are set. */
  function WithLora(n: Node, name: Json, weight: Json): (m: Node)
    ensures m.classType == n.classType
    ensures m.inputs.Keys == n.inputs.Keys + {"lora_name", "strength_model"}
    ensures m.inputs["lora_name"] == name && m.inputs["strength_model"] == weight
    ensures forall f :: f in n.inputs && f != "lora_name" && f != "strength_model" ==> m.inputs[f] == n.inputs[f]
  {
    n.(inputs := n.inputs["lora_name" := name]["strength_model" := weight])
  }

  /** What one tier of one pair does to loader `id`: a write when the node exists and the name is truthy. */
  predicate TierApplied(g: Graph, g2: Graph, id: string, name: Json, weight: Json)
    requires g2.Keys == g.Keys
  {
    id in g ==> g2[id] == if Truthy(name) then WithLora(g[id], name, weight) else g[id]
  }

  /** `id` is one of the first `n` loader ids of either tier. */
  predicate IsLoader(t: LoraTiers, n: int, id: string)
    requires n <= |t.high| && n <= |t.low|
  {
    exists k :: 0 <= k < n && (t.high[k] == id || t.low[k] == id)
  }

  /**
    The declarative effect of the LoRA loop: the same nodes; nodes other than
    the first `|pairs|` loaders of each tier untouched; each of those loaders
    either written with its pair's name and weight or untouched.
   */
  predicate LoraPatched(g: Graph, g2: Graph, pairs: seq<Json>, t: LoraTiers)
    requires |pairs| <= |t.high| && |pairs| <= |t.low|
  {
    && g2.Keys == g.Keys
    && (forall id :: id in g && !IsLoader(t, |pairs|, id) ==> g2[id] == g[id])
    && (forall i :: 0 <= i < |pairs| && pairs[i].JObj? ==>
          && TierApplied(g, g2, t.high[i], LoraName(pairs[i].fields, "high"), LoraWeight(pairs[i].fields, "high"))
          && TierApplied(g, g2, t.low[i], LoraName(pairs[i].fields, "low"), LoraWeight(pairs[i].fields, "low")))
  }

  /** In a well-formed table a high-tier id is never a low-tier id, and ids at different positions differ. */
  lemma TierIdsDistinct(t: LoraTiers, i: int, j: int)
    requires WellFormedTiers(t) && 0 <= i < |t.high| && 0 <= j < |t.high|
    ensures t.high[i] != t.low[j]
    ensures i != j ==> t.high[i] != t.high[j] && t.low[i] != t.low[j]
  {
    var s := t.high + t.low;
    assert s[i] == t.high[i] && s[j] == t.high[j] && s[|t.high| + j] == t.low[j] && s[|t.high| + i] == t.low[i];
  }

  /** One iteration of the LoRA loop. */
  function ApplyLoraPair(g: Graph, pair: Json, highId: string, lowId: string): (r: Result<Graph, Fault>)
    ensures r.Success? <==> pair.JObj?
    ensures r.Success? ==> r.value.Keys == g.Keys
    ensures r.Success? ==> forall id :: id in g && id != highId && id != lowId ==> r.value[id] == g[id]
    ensures r.Success? && highId != lowId ==>
      && TierApplied(g, r.value, highId, LoraName(pair.fields, "high"), LoraWeight(pair.fields, "high"))
      && TierApplied(g, r.value, lowId, LoraName(pair.fields, "low"), LoraWeight(pair.fields, "low"))
  {
    if !pair.JObj? then Failure(PairNotMapping)
    else
      var high, low := LoraName(pair.fields, "high"), LoraName(pair.fields, "low");
      var g1 := if highId in g && Truthy(high) then g[highId := WithLora(g[highId], high, LoraWeight(pair.fields, "high"))] else g;
      var g2 := if lowId in g1 && Truthy(low) then g1[lowId := WithLora(g1[lowId], low, LoraWeight(pair.fields, "low"))] else g1;
      Success(g2)
  }

  /** The LoRA loop over the selected pairs, each with its table row position. */
  function ApplyLoraPairs(g: Graph, pairs: seq<Json>, t: LoraTiers): (r: Result<Graph, Fault>)
    requires |pairs| <= |t.high| && |pairs| <= |t.low|
    requires WellFormedTiers(t)
    ensures r.Success? <==> forall i :: 0 <= i < |pairs| ==> pairs[i].JObj?
    ensures r.Success? ==> LoraPatched(g, r.value, pairs, t)
    decreases |pairs|
  {
    if pairs == [] then Success(g)
    else
      var g1 :- ApplyLoraPair(g, pairs[0], t.high[0], t.low[0]);
      var rest := LoraTiers(t.high[1..], t.low[1..]);
      TiersTail(t);
      var r := ApplyLoraPairs(g1, pairs[1..], rest);
      LoraPairsStep(g, g1, r, pairs, t);
      r
  }

  /** Where position `i` of the tails' concatenation sits in the full tiers' concatenation. */
  function TailPosition(i: int, n: int): int {
    if i < n - 1 then i + 1 else i + 2
  }

  /** Dropping the first position of each tier keeps a table well formed. */
  lemma TiersTail(t: LoraTiers)
    requires WellFormedTiers(t) && t.high != [] && t.low != []
    ensures WellFormedTiers(LoraTiers(t.high[1..], t.low[1..]))
  {
    var all := t.high + t.low;
    var xs := t.high[1..] + t.low[1..];
    forall i, j | 0 <= i < j < |xs| ensures xs[i] != xs[j] {
      assert xs[i] == all[TailPosition(i, |t.high|)];
      assert xs[j] == all[TailPosition(j, |t.high|)];
    }
  }

  /** The inductive step of ApplyLoraPairs: the first pair's writes survive the rest of the loop. */
  lemma LoraPairsStep(g: Graph, g1: Graph, r: Result<Graph, Fault>, pairs: seq<Json>, t: LoraTiers)
    requires |pairs| >= 1 && |pairs| <= |t.high| && |pairs| <= |t.low|
    requires WellFormedTiers(t)
    requires ApplyLoraPair(g, pairs[0], t.high[0], t.low[0]) == Success(g1)
    requires r.Success? ==> LoraPatched(g1, r.value, pairs[1..], LoraTiers(t.high[1..], t.low[1..]))
    ensures r.Success? ==> LoraPatched(g, r.value, pairs, t)
  {
    if r.Success? {
      var n := |pairs|;
      var h, l := t.high, t.low;
      var rest := LoraTiers(h[1..], l[1..]);
      var r2 := r.value;
      TierIdsDistinct(t, 0, 0);
      forall k | 0 <= k < n - 1
        ensures rest.high[k] != h[0] && rest.high[k] != l[0] && rest.low[k] != h[0] && rest.low[k] != l[0]
      {
        TierIdsDistinct(t, k + 1, 0);
        TierIdsDistinct(t, 0, k + 1);
      }
      forall id | id in g && !IsLoader(t, n, id) ensures r2[id] == g[id] {
        forall k | 0 <= k < n - 1 ensures rest.high[k] != id && rest.low[k] != id {
          assert rest.high[k] == h[k + 1] && rest.low[k] == l[k + 1];
        }
        assert h[0] != id && l[0] != id;
      }
      forall i | 0 <= i < n && pairs[i].JObj?
        ensures TierApplied(g, r2, h[i], LoraName(pairs[i].fields, "high"), LoraWeight(pairs[i].fields, "high"))
        ensures TierApplied(g, r2, l[i], LoraName(pairs[i].fields, "low"), LoraWeight(pairs[i].fields, "low"))
      {
        if i > 0 {
          assert pairs[1..][i - 1] == pairs[i] && rest.high[i - 1] == h[i] && rest.low[i - 1] == l[i];
          TierIdsDistinct(t, i, 0);
          TierIdsDistinct(t, 0, i);
          assert h[i] in g ==> g1[h[i]] == g[h[i]];
          assert l[i] in g ==> g1[l[i]] == g[l[i]];
        } else {
          assert !IsLoader(rest, n - 1, h[0]) && !IsLoader(rest, n - 1, l[0]);
        }
      }
    }
  }

  /** handler.py:301-341: the LoRA loop, skipped when no pair was selected. */
  function PatchLoras(g: Graph, sel: Selection): (r: Result<Graph, Fault>)
    requires sel.loraCount == |sel.pairs| <= MAX_LORA_PAIRS
    ensures sel.loraCount == 0 ==> r == Success(g)
    ensures r.Success? ==> r.value.Keys == g.Keys
    ensures r.Success? <==> forall i :: 0 <= i < |sel.pairs| ==> sel.pairs[i].JObj?
    ensures r.Success? && sel.loraCount > 0 ==> LoraPatched(g, r.value, sel.pairs, LORA_NODE_MAPPING[sel.loraCount])
  {
    if sel.loraCount == 0 then Success(g)
    else
      LoraTableIds(sel.loraCount);
      ApplyLoraPairs(g, sel.pairs, LORA_NODE_MAPPING[sel.loraCount])
  }

  /** Every node id that appears in the LoRA table. */
  const LORA_LOADER_IDS: set<string> := {"282", "339", "340", "286", "337", "338"}

  /** Only the six LoRA loader ids can change; every other node of the template is kept as is. */
  lemma PatchLorasTouchesOnlyLoaders(g: Graph, g2: Graph, pairs: seq<Json>, id: string)
    requires 1 <= |pairs| <= MAX_LORA_PAIRS
    requires |pairs| in LORA_NODE_MAPPING
    requires |pairs| <= |LORA_NODE_MAPPING[|pairs|].high| && |pairs| <= |LORA_NODE_MAPPING[|pairs|].low|
    requires LoraPatched(g, g2, pairs, LORA_NODE_MAPPING[|pairs|])
    requires id in g && id !in LORA_LOADER_IDS
    ensures g2[id] == g[id]
  {
    var t := LORA_NODE_MAPPING[|pairs|];
    LoraTableIds(|pairs|);
    forall k | 0 <= k < |pairs| ensures t.high[k] != id && t.low[k] != id {
      assert t.high[k] in LORA_LOADER_IDS && t.low[k] in LORA_LOADER_IDS;
    }
    assert !IsLoader(t, |pairs|, id);
  }

  lemma LoraTableIds(count: int)
    requires 1 <= count <= MAX_LORA_PAIRS
    ensures count in LORA_NODE_MAPPING
    ensures |LORA_NODE_MAPPING[count].high| == count && |LORA_NODE_MAPPING[count].low| == count
    ensures WellFormedTiers(LORA_NODE_MAPPING[count])
    ensures forall k :: 0 <= k < count ==>
      LORA_NODE_MAPPING[count].high[k] in LORA_LOADER_IDS && LORA_NODE_MAPPING[count].low[k] in LORA_LOADER_IDS
  {
  }

  // ---------------------------------------------------------------------------
  // Output collection and result pick (handler.py:217-232, 381-385)
  // ---------------------------------------------------------------------------

  /**
    The encoded videos of one history entry: for each of `gifs` and `videos`
    with a truthy entry list, every entry that can be read, Base64-encoded.
    `read` stands for `_read_output_entry` (local file or HTTP download);
    None is a read that failed and was logged and skipped, as is any entry
    that is not a dictionary.
   */
  function MediaOf(nodeOutput: map<string, Json>, read: map<string, Json> -> Option<seq<byte>>): (r: Result<seq<string>, Fault>)
    ensures r.Success? ==> forall k :: 0 <= k < |r.value| ==> Decode(r.value[k]).Some?
    ensures r.Failure? <==> (!IsIterable(Get(nodeOutput, "gifs")) || !IsIterable(Get(nodeOutput, "videos")))
    ensures r.Success? ==>
      r.value == EncodedEntries(Get(nodeOutput, "gifs"), read).value + EncodedEntries(Get(nodeOutput, "videos"), read).value
    ensures r.Failure? ==> r.error == MediaNotIterable
  {
    var gifs :- EncodedEntries(Get(nodeOutput, "gifs"), read);
    var videos :- EncodedEntries(Get(nodeOutput, "videos"), read);
    assert forall k :: 0 <= k < |gifs + videos| ==> (gifs + videos)[k] == if k < |gifs| then gifs[k] else videos[k - |gifs|];
    Success(gifs + videos)
  }

  /** A falsy entry list is skipped; a truthy one must be something Python can iterate. */
  predicate IsIterable(entries: Json) {
    !Truthy(entries) || entries.JArr? || entries.JStr? || entries.JObj?
  }

  /**
    The encoded media of one entry list. A falsy list is skipped. A truthy
    string or dictionary iterates over strings, none of which is a dictionary,
    so every read of them fails and is skipped.
   */
  function EncodedEntries(entries: Json, read: map<string, Json> -> Option<seq<byte>>): (r: Result<seq<string>, Fault>)
    ensures r.Success? <==> IsIterable(entries)
    ensures r.Success? ==> forall k :: 0 <= k < |r.value| ==> Decode(r.value[k]).Some?
    ensures !Truthy(entries) ==> r == Success([])
    ensures IsIterable(entries) && !entries.JArr? ==> r == Success([])
    ensures Truthy(entries) && entries.JArr? ==> r == Success(EncodeReadable(entries.items, read))
    ensures r.Failure? ==> r.error == MediaNotIterable
  {
    if !IsIterable(entries) then Failure(MediaNotIterable)
    else if !Truthy(entries) || !entries.JArr? then Success([])
    else Success(EncodeReadable(entries.items, read))
  }

  /** Every readable dictionary entry, encoded, in order. */
  function EncodeReadable(items: seq<Json>, read: map<string, Json> -> Option<seq<byte>>): (r: seq<string>)
    ensures |r| <= |items|
    ensures forall k :: 0 <= k < |r| ==> Decode(r[k]).Some?
    ensures forall k :: 0 <= k < |r| ==> EncodesReadableEntry(r[k], items, read)
  {
    if items == [] then []
    else
      var rest := EncodeReadable(items[1..], read);
      if Readable(items[0], read) then
        var h := EncodedEntry(items[0], read);
        EncodesHead(items, read);
        TakeHead(items, read, h, rest);
        [h] + rest
      else
        SkipHead(items, read, rest);
        rest
  }

  /** Taking a head that encodes a readable entry keeps EncodeReadable's contract. */
  lemma TakeHead(items: seq<Json>, read: map<string, Json> -> Option<seq<byte>>, h: string, rest: seq<string>)
    requires items != [] && |rest| <= |items| - 1
    requires Decode(h).Some? && EncodesReadableEntry(h, items, read)
    requires forall k :: 0 <= k < |rest| ==> Decode(rest[k]).Some? && EncodesReadableEntry(rest[k], items[1..], read)
    ensures forall k :: 0 <= k < |[h] + rest| ==> Decode(([h] + rest)[k]).Some? && EncodesReadableEntry(([h] + rest)[k], items, read)
  {
    var r := [h] + rest;
    forall k | 0 <= k < |r| ensures Decode(r[k]).Some? && EncodesReadableEntry(r[k], items, read) {
      if k > 0 {
        assert r[k] == rest[k - 1];
        EncodesFromTail(rest[k - 1], items, read);
      }
    }
  }

  /** Skipping the head keeps EncodeReadable's contract. */
  lemma SkipHead(items: seq<Json>, read: map<string, Json> -> Option<seq<byte>>, rest: seq<string>)
    requires items != []
    requires forall k :: 0 <= k < |rest| ==> EncodesReadableEntry(rest[k], items[1..], read)
    ensures forall k :: 0 <= k < |rest| ==> EncodesReadableEntry(rest[k], items, read)
  {
    forall k | 0 <= k < |rest| ensures EncodesReadableEntry(rest[k], items, read) {
      EncodesFromTail(rest[k], items, read);
    }
  }

  /** `x` decodes to what some readable entry of `items` reads. */
  ghost predicate EncodesReadableEntry(x: string, items: seq<Json>, read: map<string, Json> -> Option<seq<byte>>) {
    exists i :: 0 <= i < |items| && Readable(items[i], read) && Decode(x) == read(items[i].fields)
  }

  /** The encoding of a readable head decodes to what the head reads. */
  lemma EncodesHead(items: seq<Json>, read: map<string, Json> -> Option<seq<byte>>)
    requires items != [] && Readable(items[0], read)
    ensures Decode(EncodedEntry(items[0], read)).Some?
    ensures EncodesReadableEntry(EncodedEntry(items[0], read), items, read)
  {
    DecodeEncode(read(items[0].fields).value);
  }

  /** An encoding of a readable entry of the tail is one of the whole list. */
  lemma EncodesFromTail(x: string, items: seq<Json>, read: map<string, Json> -> Option<seq<byte>>)
    requires items != [] && EncodesReadableEntry(x, items[1..], read)
    ensures EncodesReadableEntry(x, items, read)
  {
    var i :| 0 <= i < |items[1..]| && Readable(items[1..][i], read) && Decode(x) == read(items[1..][i].fields);
    assert items[1..][i] == items[i + 1];
  }

  /** An entry `_read_output_entry` can read: a dictionary whose read succeeds. */
  predicate Readable(item: Json, read: map<string, Json> -> Option<seq<byte>>) {
    item.JObj? && read(item.fields).Some?
  }

  /** The Base64 text of a readable entry. */
  function EncodedEntry(item: Json, read: map<string, Json> -> Option<seq<byte>>): string
    requires Readable(item, read)
  {
    Encode(read(item.fields).value)
  }

  /** `idx` picks readable entries of `items` at strictly increasing positions, and `r` holds their encodings. */
  predicate PicksReadable(idx: seq<int>, r: seq<string>, items: seq<Json>, read: map<string, Json> -> Option<seq<byte>>) {
    && |idx| == |r|
    && (forall k :: 0 <= k < |idx| ==>
          0 <= idx[k] < |items| && Readable(items[idx[k]], read) && r[k] == EncodedEntry(items[idx[k]], read))
    && (forall k :: 0 < k < |idx| ==> idx[k - 1] < idx[k])
  }

  /** Every readable entry of `items` is picked by `idx`. */
  predicate CoversReadable(idx: seq<int>, items: seq<Json>, read: map<string, Json> -> Option<seq<byte>>) {
    forall i :: 0 <= i < |items| && Readable(items[i], read) ==> i in idx
  }

  /** Moves every position one on. */
  function ShiftAll(idx: seq<int>): (s: seq<int>)
    ensures |s| == |idx| && forall k :: 0 <= k < |idx| ==> s[k] == idx[k] + 1
  {
    seq(|idx|, k requires 0 <= k < |idx| => idx[k] + 1)
  }

  /** A pick from the tail of a list, moved one position on, is a pick from the list past its head. */
  lemma PicksShift(idx: seq<int>, r: seq<string>, items: seq<Json>, read: map<string, Json> -> Option<seq<byte>>)
    requires items != [] && PicksReadable(idx, r, items[1..], read)
    ensures PicksReadable(ShiftAll(idx), r, items, read)
    ensures forall k :: 0 <= k < |idx| ==> 1 <= ShiftAll(idx)[k]
  {
    var shifted := ShiftAll(idx);
    forall k | 0 <= k < |shifted|
      ensures 1 <= shifted[k] < |items| && Readable(items[shifted[k]], read)
      ensures r[k] == EncodedEntry(items[shifted[k]], read)
    {
      assert items[1..][idx[k]] == items[idx[k] + 1];
    }
  }

  /** Covering the tail's readable entries, moved one position on, covers the list's past its head. */
  lemma CoversShift(idx: seq<int>, items: seq<Json>, read: map<string, Json> -> Option<seq<byte>>)
    requires items != [] && CoversReadable(idx, items[1..], read)
    ensures forall i :: 1 <= i < |items| && Readable(items[i], read) ==> i in ShiftAll(idx)
  {
    var shifted := ShiftAll(idx);
    forall i | 1 <= i < |items| && Readable(items[i], read) ensures i in shifted {
      assert items[1..][i - 1] == items[i];
      assert i - 1 in idx;
      var k :| 0 <= k < |idx| && idx[k] == i - 1;
      assert shifted[k] == i;
    }
  }

  /** Putting a readable head in front of a pick past the head is again a pick. */
  lemma PicksCons(idx: seq<int>, r: seq<string>, items: seq<Json>, read: map<string, Json> -> Option<seq<byte>>)
    requires items != [] && Readable(items[0], read)
    requires PicksReadable(idx, r, items, read)
    requires forall k :: 0 <= k < |idx| ==> 1 <= idx[k]
    ensures PicksReadable([0] + idx, [EncodedEntry(items[0], read)] + r, items, read)
  {
    var full := [0] + idx;
    var fr := [EncodedEntry(items[0], read)] + r;
    forall k | 0 <= k < |full|
      ensures 0 <= full[k] < |items| && Readable(items[full[k]], read) && fr[k] == EncodedEntry(items[full[k]], read)
    {
      if k > 0 { assert full[k] == idx[k - 1] && fr[k] == r[k - 1]; }
    }
    forall k | 0 < k < |full| ensures full[k - 1] < full[k] {
      if k > 1 { assert full[k - 1] == idx[k - 2] && full[k] == idx[k - 1]; }
    }
  }

  /** The inductive step of EncodeReadableKeepsReadable: a pick for the tail gives one for the whole list. */
  lemma KeepsReadableStep(items: seq<Json>, read: map<string, Json> -> Option<seq<byte>>, idx: seq<int>) returns (full: seq<int>)
    requires items != []
    requires PicksReadable(idx, EncodeReadable(items[1..], read), items[1..], read) && CoversReadable(idx, items[1..], read)
    ensures PicksReadable(full, EncodeReadable(items, read), items, read) && CoversReadable(full, items, read)
  {
    if Readable(items[0], read) {
      full := KeepsReadableHead(items, read, idx);
    } else {
      full := KeepsReadableSkip(items, read, idx);
    }
  }

  /** An unreadable head is not picked: the tail's picks move up by one. */
  lemma KeepsReadableSkip(items: seq<Json>, read: map<string, Json> -> Option<seq<byte>>, idx: seq<int>) returns (full: seq<int>)
    requires items != [] && !Readable(items[0], read)
    requires PicksReadable(idx, EncodeReadable(items[1..], read), items[1..], read) && CoversReadable(idx, items[1..], read)
    ensures PicksReadable(full, EncodeReadable(items, read), items, read) && CoversReadable(full, items, read)
  {
    var rest := EncodeReadable(items[1..], read);
    PicksShift(idx, rest, items, read);
    CoversShift(idx, items, read);
    SkipUnfolds(items, read);
    full := ShiftAll(idx);
  }

  /** A readable head contributes its encoding, in front. */
  lemma HeadUnfolds(items: seq<Json>, read: map<string, Json> -> Option<seq<byte>>)
    requires items != [] && Readable(items[0], read)
    ensures EncodeReadable(items, read) == [EncodedEntry(items[0], read)] + EncodeReadable(items[1..], read)
  {
  }

  /** An unreadable head contributes nothing. */
  lemma SkipUnfolds(items: seq<Json>, read: map<string, Json> -> Option<seq<byte>>)
    requires items != [] && !Readable(items[0], read)
    ensures EncodeReadable(items, read) == EncodeReadable(items[1..], read)
  {
  }

  /** A readable head is picked at position 0, in front of the shifted pick of the tail. */
  lemma KeepsReadableHead(items: seq<Json>, read: map<string, Json> -> Option<seq<byte>>, idx: seq<int>) returns (full: seq<int>)
    requires items != [] && Readable(items[0], read)
    requires PicksReadable(idx, EncodeReadable(items[1..], read), items[1..], read) && CoversReadable(idx, items[1..], read)
    ensures PicksReadable(full, EncodeReadable(items, read), items, read) && CoversReadable(full, items, read)
  {
    var rest := EncodeReadable(items[1..], read);
    PicksShift(idx, rest, items, read);
    CoversShift(idx, items, read);
    var shifted := ShiftAll(idx);
    HeadUnfolds(items, read);
    PicksCons(shifted, rest, items, read);
    CoversCons(shifted, items, read);
    full := [0] + shifted;
  }

  /** Prepending the head's index to picks that cover the tail covers the whole list. */
  lemma CoversCons(shifted: seq<int>, items: seq<Json>, read: map<string, Json> -> Option<seq<byte>>)
    requires items != []
    requires forall i :: 1 <= i < |items| && Readable(items[i], read) ==> i in shifted
    ensures CoversReadable([0] + shifted, items, read)
  {
    var full := [0] + shifted;
    forall i | 0 <= i < |items| && Readable(items[i], read) ensures i in full {
      if i > 0 { assert i in shifted; }
    }
  }

  /**
    The encoded entries are exactly the readable entries, each encoded, in
    list order: they are picked at strictly increasing positions and no
    readable entry is missed.
   */
  lemma {:induction false} EncodeReadableKeepsReadable(items: seq<Json>, read: map<string, Json> -> Option<seq<byte>>)
    ensures exists idx :: PicksReadable(idx, EncodeReadable(items, read), items, read) && CoversReadable(idx, items, read)
    decreases |items|
  {
    if items == [] {
      assert PicksReadable([], EncodeReadable(items, read), items, read) && CoversReadable([], items, read);
    } else {
      EncodeReadableKeepsReadable(items[1..], read);
      var idx :| PicksReadable(idx, EncodeReadable(items[1..], read), items[1..], read) && CoversReadable(idx, items[1..], read);
      var full := KeepsReadableStep(items, read, idx);
    }
  }

  /** The handler's reply body. */
  datatype Body = VideoBody(video: string) | ErrorBody(error: string)

  const NO_VIDEO_MESSAGE: string := "비디오를를 찾을 수 없습니다."

  /** The first video of the first node, in history order, that produced any; otherwise the error body. */
  function PickVideo(videos: seq<(string, seq<string>)>): (r: Body)
    ensures r.VideoBody? <==> exists i :: 0 <= i < |videos| && videos[i].1 != []
    ensures r.VideoBody? ==> exists i :: 0 <= i < |videos| && videos[i].1 != [] && r.video == videos[i].1[0]
                                        && forall k :: 0 <= k < i ==> videos[k].1 == []
    ensures r.ErrorBody? ==> r.error == NO_VIDEO_MESSAGE
  {
    if videos == [] then ErrorBody(NO_VIDEO_MESSAGE)
    else if videos[0].1 != [] then VideoBody(videos[0].1[0])
    else
      var r := PickVideo(videos[1..]);
      assert forall i :: 0 <= i < |videos[1..]| ==> videos[1..][i] == videos[i + 1];
      if r.VideoBody? then
        var i :| 0 <= i < |videos[1..]| && videos[1..][i].1 != [] && r.video == videos[1..][i].1[0]
                 && forall k :: 0 <= k < i ==> videos[1..][k].1 == [];
        assert videos[i + 1].1 != [] && r.video == videos[i + 1].1[0];
        r
      else
        r
  }

  /** `get_videos`' dictionary: each history node with the encoded media it produced. */
  function CollectVideos(outputs: seq<(string, map<string, Json>)>, read: map<string, Json> -> Option<seq<byte>>): (r: Result<seq<(string, seq<string>)>, Fault>)
    ensures r.Success? ==> |r.value| == |outputs|
    ensures r.Success? ==> forall k :: 0 <= k < |outputs| ==> r.value[k].0 == outputs[k].0
    ensures r.Success? ==> forall k, j :: 0 <= k < |outputs| && 0 <= j < |r.value[k].1| ==> Decode(r.value[k].1[j]).Some?
    ensures r.Success? <==> forall k :: 0 <= k < |outputs| ==> MediaOf(outputs[k].1, read).Success?
    ensures r.Success? ==> CollectedFrom(outputs, read, r.value)
    ensures r.Failure? ==> r.error == MediaNotIterable
  {
    if outputs == [] then Success([])
    else
      match MediaOf(outputs[0].1, read)
      case Failure(e) => Failure(e)
      case Success(media) =>
        match CollectVideos(outputs[1..], read)
        case Failure(e) =>
          CollectTailFails(outputs, read);
          Failure(e)
        case Success(rest) =>
          CollectCons(outputs, read, media, rest);
          CollectedDecodes(outputs, read, [(outputs[0].0, media)] + rest);
          Success([(outputs[0].0, media)] + rest)
  }

  /** `r` pairs each node of `outputs` with its encoded media. */
  predicate CollectedFrom(outputs: seq<(string, map<string, Json>)>, read: map<string, Json> -> Option<seq<byte>>, r: seq<(string, seq<string>)>) {
    && |r| == |outputs|
    && forall k :: 0 <= k < |outputs| ==>
         r[k].0 == outputs[k].0 && MediaOf(outputs[k].1, read).Success? && r[k].1 == MediaOf(outputs[k].1, read).value
  }

  /** The step of CollectVideos: a node's media in front of the rest's. */
  lemma CollectCons(outputs: seq<(string, map<string, Json>)>, read: map<string, Json> -> Option<seq<byte>>,
                    media: seq<string>, rest: seq<(string, seq<string>)>)
    requires outputs != [] && MediaOf(outputs[0].1, read) == Success(media)
    requires CollectedFrom(outputs[1..], read, rest)
    ensures CollectedFrom(outputs, read, [(outputs[0].0, media)] + rest)
  {
    var r := [(outputs[0].0, media)] + rest;
    forall k | 1 <= k < |outputs| ensures r[k] == rest[k - 1] && outputs[1..][k - 1] == outputs[k] {
    }
  }

  /** Collected media are strict Base64, as each node's media are. */
  lemma CollectedDecodes(outputs: seq<(string, map<string, Json>)>, read: map<string, Json> -> Option<seq<byte>>, r: seq<(string, seq<string>)>)
    requires CollectedFrom(outputs, read, r)
    ensures forall k, j :: 0 <= k < |outputs| && 0 <= j < |r[k].1| ==> Decode(r[k].1[j]).Some?
  {
    forall k, j | 0 <= k < |outputs| && 0 <= j < |r[k].1| ensures Decode(r[k].1[j]).Some? {
      assert r[k].1 == MediaOf(outputs[k].1, read).value;
    }
  }

  /** A failing node among the rest is a failing node of the whole history. */
  lemma CollectTailFails(outputs: seq<(string, map<string, Json>)>, read: map<string, Json> -> Option<seq<byte>>)
    requires outputs != []
    requires !forall k :: 0 <= k < |outputs[1..]| ==> MediaOf(outputs[1..][k].1, read).Success?
    ensures !forall k :: 0 <= k < |outputs| ==> MediaOf(outputs[k].1, read).Success?
  {
    var k :| 0 <= k < |outputs[1..]| && !MediaOf(outputs[1..][k].1, read).Success?;
    assert outputs[1..][k] == outputs[k + 1];
  }

  /** Whatever video the handler returns is Base64 that a strict decoder accepts. */
  lemma PickedVideoDecodes(outputs: seq<(string, map<string, Json>)>, read: map<string, Json> -> Option<seq<byte>>)
    requires CollectVideos(outputs, read).Success?
    ensures PickVideo(CollectVideos(outputs, read).value).VideoBody? ==>
      Decode(PickVideo(CollectVideos(outputs, read).value).video).Some?
  {
  }

  // ---------------------------------------------------------------------------
  // handler (handler.py:238-385)
  // ---------------------------------------------------------------------------

  /** The ComfyUI side of the handler. */
  datatype Server = Server(
    templates: string -> Option<Graph>,                       // load_workflow; None when the file cannot be read
    lowStepsOf: Json -> Option<int>,                          // int(steps * 0.6); None is a TypeError
    run: Graph -> Option<seq<(string, map<string, Json>)>>,   // queue and wait; None when connecting gave up
    read: map<string, Json> -> Option<seq<byte>>)             // _read_output_entry

  /** What `handler` does with a job: returns a body, or lets an exception escape. */
  datatype Outcome = Returned(body: Body) | Raised(fault: Fault)

  const NOT_FOUND_PREFIX: string := "이미지 파일을 찾을 수 없습니다: "
  const PREPARE_FAILED_PREFIX: string := "이미지를 준비하는 중 오류가 발생했습니다: "

  /** The `error` field for an input failure, by the exception's class. */
  function ImageErrorBody(e: ImageInput.ImageError, detail: string): (b: Body)
    ensures b.ErrorBody?
    ensures ImageInput.ClassOf(e) == ImageInput.ValueError ==> b.error == ImageInput.ExceptionText(e, detail)
    ensures ImageInput.ClassOf(e) == ImageInput.FileNotFoundError ==>
      && StartsWith(b.error, NOT_FOUND_PREFIX) && EndsWith(b.error, ImageInput.ExceptionText(e, detail))
      && |b.error| == |NOT_FOUND_PREFIX| + |ImageInput.ExceptionText(e, detail)|
    ensures ImageInput.ClassOf(e) == ImageInput.OtherError ==>
      && StartsWith(b.error, PREPARE_FAILED_PREFIX) && EndsWith(b.error, ImageInput.ExceptionText(e, detail))
      && |b.error| == |PREPARE_FAILED_PREFIX| + |ImageInput.ExceptionText(e, detail)|
  {
    var text := ImageInput.ExceptionText(e, detail);
    match ImageInput.ClassOf(e)
    case FileNotFoundError =>
      assert (NOT_FOUND_PREFIX + text)[|NOT_FOUND_PREFIX|..] == text;
      assert (NOT_FOUND_PREFIX + text)[..|NOT_FOUND_PREFIX|] == NOT_FOUND_PREFIX;
      ErrorBody(NOT_FOUND_PREFIX + text)
    case ValueError => ErrorBody(text)
    case OtherError =>
      assert (PREPARE_FAILED_PREFIX + text)[|PREPARE_FAILED_PREFIX|..] == text;
      assert (PREPARE_FAILED_PREFIX + text)[..|PREPARE_FAILED_PREFIX|] == PREPARE_FAILED_PREFIX;
      ErrorBody(PREPARE_FAILED_PREFIX + text)
  }

  /** `prepare_image_asset` on whatever `job.get("input", {})` is. */
  function PrepareInput(input: Json, taskId: string, host: ImageInput.Host, config: ImageInput.Config, codec: ImageInput.Codec): Result<string, ImageInput.ImageError> {
    if input.JObj? then ImageInput.PrepareImageAsset(input.fields, taskId, host, config, codec)
    else Failure(ImageInput.InputNotObject)
  }

  /** The job's input dictionary; `{}` when absent. */
  function InputOf(job: map<string, Json>): Json {
    GetOr(job, "input", JObj(map[]))
  }

  /** The workflow submitted to ComfyUI: the selected template, patched. */
  function BuildPrompt(input: map<string, Json>, imageFile: string, server: Server): (r: Result<Graph, Fault>)
    ensures r.Success? ==>
      && SelectWorkflow(input).Success?
      && server.templates(SelectWorkflow(input).value.file).Some?
      && r.value.Keys == server.templates(SelectWorkflow(input).value.file).value.Keys
    ensures r.Success? ==> REQUIRED_KEYS <= input.Keys && FIXED_NODES <= r.value.Keys
  {
    var sel :- SelectWorkflow(input);
    var template :- match server.templates(sel.file)
      case None => Failure(TemplateUnreadable(sel.file))
      case Some(t) => Success(t);
    var g1 :- PatchFields(template, input, imageFile, server.lowStepsOf);
    var g2 :- PatchLoras(g1, sel);
    Success(g2)
  }

  /** The LoRA table row a selection applies; the empty row when no pair is selected. */
  function RowOf(sel: Selection): (t: LoraTiers)
    ensures sel.loraCount <= MAX_LORA_PAIRS ==> |t.high| == sel.loraCount && |t.low| == sel.loraCount
    ensures 1 <= sel.loraCount <= MAX_LORA_PAIRS ==> t == LORA_NODE_MAPPING[sel.loraCount]
    ensures forall k :: 0 <= k < |t.high| ==> t.high[k] in LORA_LOADER_IDS
    ensures forall k :: 0 <= k < |t.low| ==> t.low[k] in LORA_LOADER_IDS
  {
    if 1 <= sel.loraCount <= MAX_LORA_PAIRS then
      LoraTableIds(sel.loraCount);
      LORA_NODE_MAPPING[sel.loraCount]
    else
      LoraTiers([], [])
  }

  /** The field patch writes no slot of a LoRA loader. */
  lemma FieldsKeepLoader(t: Graph, g1: Graph, id: string)
    requires Frame(t, g1, PatchedSlots(t)) && id in t && id in LORA_LOADER_IDS
    ensures g1[id] == t[id]
  {
    forall f ensures Lookup(g1, id, f) == Lookup(t, id, f) {
      assert (id, f) !in PatchedSlots(t);
    }
    assert g1[id].inputs.Keys == t[id].inputs.Keys by {
      forall f ensures f in g1[id].inputs <==> f in t[id].inputs {
        assert Lookup(g1, id, f) == Lookup(t, id, f);
      }
    }
    forall f | f in t[id].inputs ensures g1[id].inputs[f] == t[id].inputs[f] {
      assert Lookup(g1, id, f) == Lookup(t, id, f);
    }
  }

  /** The LoRA patch leaves every node outside the loader ids as it was. */
  lemma LoraPatchKeepsOthers(g1: Graph, sel: Selection, id: string)
    requires sel.loraCount == |sel.pairs| <= MAX_LORA_PAIRS && PatchLoras(g1, sel).Success?
    requires id in g1 && id !in LORA_LOADER_IDS
    ensures PatchLoras(g1, sel).value[id] == g1[id]
  {
    if sel.loraCount > 0 {
      LoraTableIds(sel.loraCount);
      PatchLorasTouchesOnlyLoaders(g1, PatchLoras(g1, sel).value, sel.pairs, id);
    }
  }

  /**
    What the LoRA patch does to the loaders, stated against the template: the
    field patch left them as they were, so the selected ones are written from
    their pairs and the others are untouched.
   */
  lemma LoraPatchOnLoaders(t: Graph, g1: Graph, r: Graph, sel: Selection)
    requires sel.loraCount == |sel.pairs| <= MAX_LORA_PAIRS && PatchLoras(g1, sel) == Success(r)
    requires g1.Keys == t.Keys && forall id :: id in t && id in LORA_LOADER_IDS ==> g1[id] == t[id]
    ensures r.Keys == t.Keys
    ensures forall id :: id in t && id in LORA_LOADER_IDS && !IsLoader(RowOf(sel), |sel.pairs|, id) ==> r[id] == t[id]
    ensures LoadersWritten(t, r, sel)
    ensures forall id :: id in t && id in LORA_LOADER_IDS ==> r[id].classType == t[id].classType
  {
    if sel.loraCount > 0 {
      LoadersWrittenFromPatch(t, g1, r, sel);
      LoadersKeepClass(t, r, sel);
    }
  }

  /** Each selected pair's loaders in the patched graph carry the pair's name and weight over the template's node. */
  lemma LoadersWrittenFromPatch(t: Graph, g1: Graph, r: Graph, sel: Selection)
    requires 0 < sel.loraCount == |sel.pairs| <= MAX_LORA_PAIRS && PatchLoras(g1, sel) == Success(r)
    requires g1.Keys == t.Keys && forall id :: id in t && id in LORA_LOADER_IDS ==> g1[id] == t[id]
    ensures r.Keys == t.Keys && LoadersWritten(t, r, sel)
  {
    var row := RowOf(sel);
    assert LoraPatched(g1, r, sel.pairs, row);
    forall i | 0 <= i < |sel.pairs|
      ensures TierApplied(t, r, row.high[i], LoraName(sel.pairs[i].fields, "high"), LoraWeight(sel.pairs[i].fields, "high"))
      ensures TierApplied(t, r, row.low[i], LoraName(sel.pairs[i].fields, "low"), LoraWeight(sel.pairs[i].fields, "low"))
    {
      assert row.high[i] in LORA_LOADER_IDS && row.low[i] in LORA_LOADER_IDS;
    }
  }

  /** Patching the loaders never changes a loader's class. */
  lemma LoadersKeepClass(t: Graph, r: Graph, sel: Selection)
    requires 0 < sel.loraCount == |sel.pairs| <= MAX_LORA_PAIRS && r.Keys == t.Keys
    requires LoadersWritten(t, r, sel)
    requires forall id :: id in t && id in LORA_LOADER_IDS && !IsLoader(RowOf(sel), |sel.pairs|, id) ==> r[id] == t[id]
    ensures forall id :: id in t && id in LORA_LOADER_IDS ==> r[id].classType == t[id].classType
  {
    var row := RowOf(sel);
    forall id | id in t && id in LORA_LOADER_IDS ensures r[id].classType == t[id].classType {
      if IsLoader(row, |sel.pairs|, id) {
        var k :| 0 <= k < |sel.pairs| && (row.high[k] == id || row.low[k] == id);
        assert TierApplied(t, r, row.high[k], LoraName(sel.pairs[k].fields, "high"), LoraWeight(sel.pairs[k].fields, "high"));
        assert TierApplied(t, r, row.low[k], LoraName(sel.pairs[k].fields, "low"), LoraWeight(sel.pairs[k].fields, "low"));
      }
    }
  }

  /**
    The prompt submitted to ComfyUI is the selected template with the job's
    fields written into their slots and the selected pairs into their
    loaders; no other input of any node changes.
   */
  lemma BuildPromptPatches(input: map<string, Json>, imageFile: string, server: Server)
    requires BuildPrompt(input, imageFile, server).Success?
    ensures var sel := SelectWorkflow(input).value;
            var t := server.templates(sel.file).value;
            var r := BuildPrompt(input, imageFile, server).value;
      && (forall id :: id in t ==> r[id].classType == t[id].classType)
      && (forall id, f :: id in t && id !in LORA_LOADER_IDS && (id, f) !in PatchedSlots(t) ==> Lookup(r, id, f) == Lookup(t, id, f))
      && HasInput(r, "260", "image", JStr(imageFile))
      && HasInput(r, "846", "value", LengthOf(input))
      && HasInput(r, "246", "value", input["prompt"])
      && HasInput(r, "835", "noise_seed", input["seed"])
      && HasInput(r, "830", "cfg", input["cfg"])
      && HasInput(r, "849", "value", input["width"])
      && HasInput(r, "848", "value", input["height"])
      && ("834" in t ==>
            HasInput(r, "834", "steps", StepsOf(input)) && HasInput(r, "829", "step", JInt(server.lowStepsOf(StepsOf(input)).value)))
      && (forall id :: id in t && id in LORA_LOADER_IDS && !IsLoader(RowOf(sel), |sel.pairs|, id) ==> r[id] == t[id])
      && LoadersWritten(t, r, sel)
  {
    var sel := SelectWorkflow(input).value;
    var t := server.templates(sel.file).value;
    var g1 := PatchFields(t, input, imageFile, server.lowStepsOf).value;
    var r := BuildPrompt(input, imageFile, server).value;
    assert PatchLoras(g1, sel) == Success(r);
    PatchFieldsValues(t, input, imageFile, server.lowStepsOf);
    forall id | id in t && id in LORA_LOADER_IDS ensures g1[id] == t[id] {
      FieldsKeepLoader(t, g1, id);
    }
    LoraPatchOnLoaders(t, g1, r, sel);
    forall id | id in t && id !in LORA_LOADER_IDS ensures r[id] == g1[id] {
      LoraPatchKeepsOthers(g1, sel, id);
    }
    PromptKeepsOtherInputs(t, g1, r);
    PromptKeepsValues(g1, r, input, imageFile, server.lowStepsOf, "834" in t);
  }

  /** Outside the loaders the prompt is the field-patched template, so every slot the field patch did not write is the template's. */
  lemma PromptKeepsOtherInputs(t: Graph, g1: Graph, r: Graph)
    requires Frame(t, g1, PatchedSlots(t)) && r.Keys == t.Keys
    requires forall id :: id in t && id !in LORA_LOADER_IDS ==> r[id] == g1[id]
    requires forall id :: id in t && id in LORA_LOADER_IDS ==> r[id].classType == t[id].classType
    ensures forall id :: id in t ==> r[id].classType == t[id].classType
    ensures forall id, f :: id in t && id !in LORA_LOADER_IDS && (id, f) !in PatchedSlots(t) ==> Lookup(r, id, f) == Lookup(t, id, f)
  {
  }

  /** The field values survive the LoRA patch, which writes no field-patched node. */
  lemma PromptKeepsValues(g1: Graph, r: Graph, input: map<string, Json>, imageFile: string, lowStepsOf: Json -> Option<int>, withSteps: bool)
    requires REQUIRED_KEYS <= input.Keys && r.Keys == g1.Keys
    requires forall id :: id in g1 && id !in LORA_LOADER_IDS ==> r[id] == g1[id]
    requires && HasInput(g1, "260", "image", JStr(imageFile))
             && HasInput(g1, "846", "value", LengthOf(input))
             && HasInput(g1, "246", "value", input["prompt"])
             && HasInput(g1, "835", "noise_seed", input["seed"])
             && HasInput(g1, "830", "cfg", input["cfg"])
             && HasInput(g1, "849", "value", input["width"])
             && HasInput(g1, "848", "value", input["height"])
    requires withSteps ==> lowStepsOf(StepsOf(input)).Some?
    requires withSteps ==>
      HasInput(g1, "834", "steps", StepsOf(input)) && HasInput(g1, "829", "step", JInt(lowStepsOf(StepsOf(input)).value))
    ensures && HasInput(r, "260", "image", JStr(imageFile))
            && HasInput(r, "846", "value", LengthOf(input))
            && HasInput(r, "246", "value", input["prompt"])
            && HasInput(r, "835", "noise_seed", input["seed"])
            && HasInput(r, "830", "cfg", input["cfg"])
            && HasInput(r, "849", "value", input["width"])
            && HasInput(r, "848", "value", input["height"])
    ensures withSteps ==>
      HasInput(r, "834", "steps", StepsOf(input)) && HasInput(r, "829", "step", JInt(lowStepsOf(StepsOf(input)).value))
  {
  }

  /** Each selected pair is a dictionary whose names and weights are written into its two loaders of the template. */
  predicate LoadersWritten(t: Graph, r: Graph, sel: Selection)
    requires r.Keys == t.Keys && |sel.pairs| <= |RowOf(sel).high| && |sel.pairs| <= |RowOf(sel).low|
  {
    forall i :: 0 <= i < |sel.pairs| ==>
      && sel.pairs[i].JObj?
      && TierApplied(t, r, RowOf(sel).high[i], LoraName(sel.pairs[i].fields, "high"), LoraWeight(sel.pairs[i].fields, "high"))
      && TierApplied(t, r, RowOf(sel).low[i], LoraName(sel.pairs[i].fields, "low"), LoraWeight(sel.pairs[i].fields, "low"))
  }

  /** The reply for the collected videos: the first video of the first node that has one, else the no-video error. */
  predicate FirstVideoReply(b: Body, videos: seq<(string, seq<string>)>) {
    && (b.VideoBody? <==> exists i :: 0 <= i < |videos| && videos[i].1 != [])
    && (b.VideoBody? ==> exists i :: 0 <= i < |videos| && videos[i].1 != [] && b.video == videos[i].1[0]
                                     && forall k :: 0 <= k < i ==> videos[k].1 == [])
    && (b.ErrorBody? ==> b.error == NO_VIDEO_MESSAGE)
  }

  /**
    Submitting a built prompt and picking the reply: a video the server
    produced, Base64 that a strict decoder accepts, or the no-video error.
   */
  function RunPrompt(prompt: Graph, server: Server): (r: Outcome)
    ensures r.Returned? && r.body.VideoBody? ==> Decode(r.body.video).Some?
    ensures r.Returned? && r.body.ErrorBody? ==> r.body.error == NO_VIDEO_MESSAGE
    ensures server.run(prompt).None? ==> r == Raised(ServerUnavailable)
    ensures server.run(prompt).Some? ==> (r.Returned? <==> CollectVideos(server.run(prompt).value, server.read).Success?)
    ensures server.run(prompt).Some? && CollectVideos(server.run(prompt).value, server.read).Success? ==>
      r.Returned? && FirstVideoReply(r.body, CollectVideos(server.run(prompt).value, server.read).value)
    ensures server.run(prompt).Some? && CollectVideos(server.run(prompt).value, server.read).Failure? ==>
      r == Raised(MediaNotIterable)
  {
    match server.run(prompt)
    case None => Raised(ServerUnavailable)
    case Some(outputs) =>
      match CollectVideos(outputs, server.read)
      case Failure(f) => Raised(f)
      case Success(videos) =>
        PickedVideoDecodes(outputs, server.read);
        Returned(PickVideo(videos))
  }

  /**
    `handler(job)`: prepare the image (input failures become an error body
    naming the problem), build and submit the prompt, return the first video.
    `detail` stands for the text of library exceptions.
   */
  function Handle(job: map<string, Json>, taskId: string, host: ImageInput.Host, config: ImageInput.Config,
                  codec: ImageInput.Codec, server: Server, detail: string): (r: Outcome)
    ensures PrepareInput(InputOf(job), taskId, host, config, codec).Failure? ==>
      r == Returned(ImageErrorBody(PrepareInput(InputOf(job), taskId, host, config, codec).error, detail))
    ensures r.Returned? && r.body.VideoBody? ==> Decode(r.body.video).Some?
    ensures r.Returned? && r.body.ErrorBody? && PrepareInput(InputOf(job), taskId, host, config, codec).Success? ==>
      r.body.error == NO_VIDEO_MESSAGE
  {
    match PrepareInput(InputOf(job), taskId, host, config, codec)
    case Failure(e) => Returned(ImageErrorBody(e, detail))
    case Success(imageFile) =>
      match BuildPrompt(InputOf(job).fields, imageFile, server)
      case Failure(f) => Raised(f)
      case Success(prompt) => RunPrompt(prompt, server)
  }

  /**
    Once the image is prepared, the handler raises exactly what building the
    prompt raised, or answers with the first video ComfyUI produced for the
    built prompt (BuildPromptPatches says what that prompt is).
   */
  lemma HandleReturnsFirstVideo(job: map<string, Json>, taskId: string, host: ImageInput.Host, config: ImageInput.Config,
                                codec: ImageInput.Codec, server: Server, detail: string)
    requires PrepareInput(InputOf(job), taskId, host, config, codec).Success?
    ensures InputOf(job).JObj?
    ensures var prompt := BuildPrompt(InputOf(job).fields, PrepareInput(InputOf(job), taskId, host, config, codec).value, server);
            var r := Handle(job, taskId, host, config, codec, server, detail);
      && (prompt.Failure? ==> r == Raised(prompt.error))
      && (prompt.Success? && server.run(prompt.value).None? ==> r == Raised(ServerUnavailable))
      && (prompt.Success? && server.run(prompt.value).Some? && CollectVideos(server.run(prompt.value).value, server.read).Success? ==>
            r.Returned? && FirstVideoReply(r.body, CollectVideos(server.run(prompt.value).value, server.read).value))
  {
  }

  /** An input failure is answered before any template is read or the server is contacted. */
  lemma ImageFailureSkipsServer(job: map<string, Json>, taskId: string, host: ImageInput.Host, config: ImageInput.Config,
                                codec: ImageInput.Codec, s1: Server, s2: Server, detail: string)
    requires PrepareInput(InputOf(job), taskId, host, config, codec).Failure?
    ensures Handle(job, taskId, host, config, codec, s1, detail) == Handle(job, taskId, host, config, codec, s2, detail)
  {
  }

  /** A job whose image is fine but which lacks `prompt`, `seed`, `cfg`, `width` or `height` raises KeyError once a template is loaded. */
  lemma MissingRequiredKeyRaises(job: map<string, Json>, taskId: string, host: ImageInput.Host, config: ImageInput.Config,
                                 codec: ImageInput.Codec, server: Server, detail: string, key: string)
    requires PrepareInput(InputOf(job), taskId, host, config, codec).Success?
    requires key in REQUIRED_KEYS && key !in InputOf(job).fields
    ensures Handle(job, taskId, host, config, codec, server, detail).Raised?
  {
    var input := InputOf(job).fields;
    match SelectWorkflow(input)
    case Failure(_) =>
    case Success(sel) =>
      match server.templates(sel.file)
      case None =>
      case Some(t) =>
        var imageFile := PrepareInput(InputOf(job), taskId, host, config, codec).value;
        assert PatchFields(t, input, imageFile, server.lowStepsOf).Failure?;
  }
}

=== FILE: wrappers.dfy ===
/** Failure-compatible result types used throughout the model. */
module Wrappers {

  /** A value that may be absent. */
  datatype Option<+T> = None | Some(value: T) {
    predicate IsFailure() {
      None?
    }

    function PropagateFailure<U>(): Option<U>
      requires None?
    {
      None
    }

    function Extract(): T
      requires Some?
    {
      value
    }

    function GetOr(default: T): T {
      match this
      case Some(v) => v
      case None => default
    }
  }

  /** Either a value or the error (Python exception) that replaced it. */
  datatype Result<+R, +E> = Success(value: R) | Failure(error: E) {
    predicate IsFailure() {
      Failure?
    }

    function PropagateFailure<U>(): Result<U, E>
      requires Failure?
    {
      Failure(error)
    }

    function Extract(): R
      requires Success?
    {
      value
    }
  }
}
